=== FILE: README.md ===
# A verified model of an RPN calculator

This project models the core of a reverse-Polish-notation calculator written
in C++, and proves properties of that model. The repository holds two
generations of the calculator, and both are modelled.

- **The current calculator** (`rpn.cpp`, `operators.cpp`):
  - A stack of doubles with the top last.
  - A memory of numbered slots, an angle mode and a display scale.
  - A registry of named operators (unary, binary and nullary), built once at start-up.
  - Reading a line:
    - A blank line duplicates the top.
    - Any other line is split at `;` into statements, and each statement is split at white space into tokens.
    - Each token is one of:
      - a special command (`sto`, `rcl`, `scale`);
      - a number with an operator attached (`1+`, `45tan`, `5sto`);
      - a number;
      - an operator name;
      - or an error.
    - After every line, the zeros at the bottom of the stack are removed.
- **The older calculator** (`rpn/`):
  - A `VectorWrapper` stack whose `pop` of an empty stack yields 0.
  - A `State` holding the angle unit, the flags and a 100-slot memory.
  - The functions of `functions.cpp`.
  - The name table and read loop of `main.cpp`.
  - The unit conversions of `conversions.cpp`, over a `DoubleVector`.
  - The help table, trimming and key listing of `help.cpp`.

## How the model is built

- **Numbers.** Doubles are modelled as exact `real`s.
  - The transcendental functions (`sin`, `log`, `pow`, `tgamma`, ...) are supplied by the caller as a `Host` record of functions (`host.dfy`).
  - So are the NaN and infinity tests the source applies to their results.
  - The model therefore makes no claim about the functions' values. It does make claims about every branch the code takes on them.
- **Stacks.** Every stack is a `seq<real>` whose last element is the top.
- **Errors.** An operation that the source reports as an error returns an `Outcome` carrying an `Error`.
  - The operation restores the stack exactly as the source's rollback does.
  - The error message is the `Error` constructor. Printing it is not modelled.
- **The registry.** It is a `map<string, Operator>`. An operator's behaviour is a tag (`Body`) interpreted by `Operators.Apply`, not a stored closure.
- **Conversion order.** The conversion table is a `std::unordered_map`, whose visiting order is unspecified, so the order is a parameter (`order`) with a predicate saying it visits exactly the table's keys.
- **The key listing.** The order of the help keys is proved about the concrete key list.

### Where the code differs from its documentation

The model follows the code in each case below.

- **Number with an operator attached.**
  - `extractOperator` (rpn.cpp:199-223) sorts the candidates longest first and returns the first one the token ends with. So only the *longest* operator suffix is ever tried.
  - If the text before that suffix is not a number, the token is not retried with a shorter operator; it falls through to the number and operator tests.
  - The model's `Extraction.LongestSuffix` and `Interpreter.Fuses` say exactly this.
- **Exponent mark before an operator.** A token such as `1e+` is not an unfinished exponent. Its longest operator suffix is `+`, and `1e` is a number (`std::stod` converts it to 1), so the token pushes 1 and adds. A token `1e` pushes 1 and then runs the constant `e`. See `Interpreter.ExponentMarkBeforeOperator` and `Interpreter.ExponentMarkIsConstantE`.
- **Features present only in the documentation.** Macros, variables, auto-binding, locale digit grouping and recording do not appear in these source files and are not modelled.

## Model

| member | source | states |
|---|---|---|
| Basics.Trunc | rpn.cpp:246 | `static_cast<int>` of a double truncates toward zero: the result is the whole number between 0 and x that lies within 1 of x |
| NumberGrammar.IsNumberIffShape | rpn.cpp:165-194 | the character scan of `isNumber` accepts exactly the tokens of a declarative shape: an optional sign and a non-empty body of digits, at most one point (never after the exponent mark), at most one `e`/`E` (not first in the body), and a sign only right after the mark and only if more follows |
| NumberGrammar.ScanFrom | rpn.cpp:177-193 | an accepted rest uses only digits, points, exponent marks and signs; it holds no point once a point or the mark was seen, no second mark, and no mark right at the start of the body |
| NumberGrammar.IsNumber | rpn.cpp:165-194 | an accepted token has a non-empty body after its optional sign, not opening with an exponent mark, and made only of digits, points, exponent marks and signs |
| NumberGrammar.ScanFromDecidesShape | rpn.cpp:177-193 | from any position whose flags record whether a point and a mark were already read, the loop accepts exactly when the whole body has the declarative shape |
| NumberGrammar.ParseDecimal | rpn.cpp:309-314 | `stod` converts the text only when a digit follows its sign, and the value is not positive after a `-` and not negative otherwise |
| NumberGrammar.RecogniserEdgeCases | rpn.cpp:165-194 | the empty token, a lone sign, `1e+` and `e5` are rejected; `.`, `+.`, `1e` and `-2.5E-3` are accepted |
| NumberGrammar.DigitRunEnd | rpn.cpp:309-314 | the end of a run of digits: every character up to it is a digit, and the character there (if any) is not |
| NumberGrammar.DigitStringParses | rpn.cpp:309-314 | the conversion of a string of decimal digits yields the integer those digits denote |
| NumberGrammar.ParsesIffMantissaDigit | rpn.cpp:309-314 | a token `isNumber` accepts is one `stod` can read as a number (range aside) if and only if its mantissa contains a digit |
| NumberGrammar.PointAcceptedButUnconvertible | rpn.cpp:165-194 | `.`, `-.` and `.e5` pass the number test but cannot be converted (the finding below) |
| NumberGrammar.NumeralIffConvertible | rpn.cpp:309-314 | the corrected number test accepts exactly the tokens that pass `isNumber` and have a mantissa digit, which are those `stod` can read as a number (range aside) |
| ValueStack.Pop | rpn.cpp:24-31 | popping an empty stack yields 0 and leaves it empty; otherwise the top is returned and the rest is kept in order |
| ValueStack.Peek | rpn.cpp:33-38 | the top without removing it, or 0 on an empty stack; it is what `Pop` would return |
| ValueStack.PopAfterPush | rpn.cpp:20-31 | popping a value just pushed returns it and restores the stack |
| ValueStack.SumFromTop | operators.cpp:374-388 | adding the values while popping them from the top gives the start value plus the sum of the stack |
| ValueStack.ProductFromTop | operators.cpp:389-401 | multiplying the values while popping them from the top gives the start value times the product of the stack |
| ValueStack.StripBottomZeros | rpn.cpp:75-99 | the result is a top part of the stack, every removed value is 0, and its bottom (if any) is not 0, so the whole run of zeros at the bottom is removed |
| ValueStack.StripBottomZerosIdempotent | rpn.cpp:75-99 | removing the bottom zeros twice is the same as removing them once |
| ValueStack.StripBottomZerosUnique | rpn.cpp:75-99 | zeros below a stack whose bottom is not 0 are removed, and nothing else is |
| ValueStack.DrainToVector | rpn.cpp:78-83 | popping everything into a vector lists the stack from the top down |
| ValueStack.LastNonZeroEnd | rpn.cpp:86-92 | the search from the end of the vector stops just past the last non-zero value, and everything after it is 0 |
| ValueStack.RemoveTrailingZeros | rpn.cpp:75-99 | the drain, search and refill of `removeTrailingZeros` compute exactly the stack without its bottom zeros |
| ValueStack.Store | rpn.cpp:139-141 | storing adds the location to the memory's keys |
| ValueStack.Recall | rpn.cpp:143-149 | recalling a location never stored yields 0 |
| ValueStack.RecallAfterStore | rpn.cpp:139-149 | recalling a stored location gives back the value stored, and storing at one location leaves every other location's value as it was |
| Rounding.FloorR | operators.cpp:487-494 | `floor` is the greatest whole number not above x |
| Rounding.CeilR | operators.cpp:495-502 | `ceil` is the least whole number not below x |
| Rounding.RoundR | operators.cpp:503-510 | `round` is a whole number within one half of x; halfway cases go away from zero |
| Rounding.TruncR | operators.cpp:511-518 | `trunc` is the whole number toward zero within 1 of x |
| Rounding.CeilIsNegatedFloor | operators.cpp:487-502 | the ceiling of x is minus the floor of minus x |
| Rounding.RoundingFixesWholeNumbers | operators.cpp:487-518 | all four rounding operators leave a whole number unchanged |
| Rounding.FmodLeavesWholeQuotient | operators.cpp:95-108 | `fmod(y, x)` differs from y by a whole multiple of x |
| Rounding.FmodSignAndSize | operators.cpp:95-108 | `fmod(y, x)` has the sign of y and is smaller in size than x |
| Angles.SetAngleMode | rpn.cpp:104-112 | `degrees`, `radians` and `gradians` select their mode, and any other name keeps the current one |
| Angles.ToRadians | rpn.cpp:118-125 | an angle in degrees or gradians is scaled so that a half turn (180 or 200) becomes pi |
| Angles.FromRadians | rpn.cpp:127-134 | the scaling back from radians maps pi to a half turn |
| Angles.FromRadiansUndoesToRadians | rpn.cpp:118-134 | converting to radians and back, or back and then to radians, returns the angle unchanged in every mode |
| Angles.HalfTurnIsPi | rpn.cpp:118-125 | 180 degrees and 200 gradians convert to pi |
| Calculator.Initial | rpn.cpp:13-15 | a new calculator has an empty stack and memory, radians and scale 15 |
| Calculator.Push | rpn.cpp:20-22 | pushing puts the value on top and changes nothing else |
| Operators.TrigValue | operators.cpp:134-200 | `sin`, `cos` and `atan` always succeed; `tan` fails exactly when the cosine of the angle is below 1e-10 in size; `asin` and `acos` fail exactly outside [-1, 1]; the argument of `sin`, `cos` and `tan` is converted into radians by the mode, and the results of `asin`, `acos` and `atan` out of radians |
| Operators.LogValue | operators.cpp:213-266 | `ln`, `log` and `log2` fail exactly on non-positive input; `exp` fails exactly when its result is infinite; otherwise the result is the host's natural, base-10 or base-2 logarithm, or its exponential, of x |
| Operators.MiscValue | operators.cpp:407-518 | `sqrt` fails exactly on negative input and otherwise gives the host's square root; `inv` fails exactly on 0, and otherwise gives the reciprocal; `gamma` gives the host's gamma of x and `!` the gamma of x + 1, each failing exactly on a NaN or infinite result; `neg` gives the negation, `abs` the magnitude; `floor`, `ceil`, `round` (half away from 0) and `trunc` give the whole number they name, within 1 of x |
| Operators.GammaChecked | operators.cpp:451-486 | the gamma result is rejected exactly when it is NaN or infinite, with the error naming which; otherwise it is the host's gamma of the argument |
| Operators.BinaryValue | operators.cpp:51-128 | `+` and `-` satisfy (y op x) ∓ x = y and `*` gives y times x; `/` and `%` fail exactly on a zero divisor, and otherwise give y / x and `fmod(y, x)`, smaller in size than x; `^` fails exactly on NaN or infinite results and otherwise gives the host's `pow(y, x)`; `atan2` gives the host's `atan2(y, x)` converted out of radians by the mode; `logb` fails exactly on non-positive operands or base 1, and otherwise gives ln y / ln x |
| Operators.UnaryValue | operators.cpp:134-518 | a unary operator gives the value and error of its group: trigonometric, logarithmic or other, as stated in the three rows above; `sin`, `cos`, `atan`, `abs`, `neg` and the rounding operators never fail, and the others fail only with the error of one of their guards |
| Operators.ApplyUnary | operators.cpp:134-518 | a unary operator pops x; it reports an error exactly when its value function fails, and then pushes x back; otherwise it pushes the value; it never touches the memory, the scale or the angle mode |
| Operators.ApplyBinary | operators.cpp:51-285 | a binary operator pops x and then y; it reports an error exactly when its value function fails, and then pushes y and x back; otherwise it pushes the value; it never touches the memory, the scale or the angle mode |
| Operators.ZeroDivisorRestores | operators.cpp:80-108 | `/` and `%` by 0 report division or modulo by zero and leave the calculator exactly as it was |
| Operators.RejectedOperandRestored | operators.cpp:134-518 | a unary operator whose guard rejects the top leaves the calculator as it was; `inv` of 0 and `sqrt` of a negative are such cases |
| Operators.ApplyNullary | operators.cpp:291-550 | a nullary operator never touches the memory or the scale, and only `deg`, `rad` and `grd` change the angle mode |
| Operators.Apply | operators.cpp:40-46 | no registered operator touches the memory or the scale, and only the three mode commands change the angle mode |
| Operators.FailureRestoresOperands | operators.cpp:80-94 | an operator that fails with enough operands leaves the calculator exactly as it was |
| Operators.ShortStackFailure | operators.cpp:80-94 | with too few operands, a failing operator leaves the stack with the missing operands as zeros below it and nothing else changed |
| Operators.FailureInvisibleAfterStrip | operators.cpp:80-94 | once the bottom zeros are removed, a failed operator leaves no trace |
| Operators.SuccessReplacesOperands | operators.cpp:53-78 | a unary or binary operator that succeeds replaces its operands by exactly one result and keeps the rest of the stack |
| Operators.ClearAndDupEffects | operators.cpp:298-313 | `c` empties the stack; `d` duplicates the top, and fails on an empty stack |
| Operators.SwapAndDropEffects | operators.cpp:314-334 | `r` exchanges the two top values and fails with fewer than two; `pop` removes the top and leaves an empty stack as it is |
| Operators.SumAndProductEffects | operators.cpp:374-401 | `sum` and `prod` replace the stack by its sum or product, and an empty stack by 0 or 1 |
| Operators.SwapIsInvolution | operators.cpp:314-325 | swapping twice restores the calculator |
| Operators.DropUndoesDup | operators.cpp:304-334 | duplicating then popping restores the calculator |
| Operators.DropUndoesConstant | operators.cpp:519-534 | pushing `pi`, `e` or `phi` then popping restores the calculator |
| Operators.ModeCommands | operators.cpp:536-550 | `deg`, `rad` and `grd` set the angle mode and change nothing else |
| Registry.RegisterOperator | operators.cpp:19-21 | registering adds or replaces the entry under the operator's name and keeps every other entry |
| Registry.GetOperator | operators.cpp:27-30 | lookup finds an operator exactly when its name is registered, and returns that entry |
| Registry.HasOperator | operators.cpp:23-25 | a name is known exactly when lookup finds it |
| Registry.LastRegistrationWins | operators.cpp:19-21 | registering two operators under one name keeps the second, as if the first had not been registered |
| Registry.RegisteredOperatorFiles | operators.cpp:51-577 | every operator the start-up code registers is filed under its own name, one of the listed names, with a kind that matches the number of operands its body pops |
| Registry.InitializeOperators | operators.cpp:40-46 | start-up registers exactly the five groups of operators, and the table is well formed |
| Registry.InitialRegistryWellFormed | operators.cpp:40-46 | in the start-up table every entry is filed under its own name, with a kind matching its arity |
| Registry.SwapAliases | operators.cpp:324-325 | `r` and `swap` run the same swap |
| Registry.HelpAliases | operators.cpp:552-576 | `help` and `?` run the same help |
| Registry.SpecialCommandsAreNotOperators | rpn.cpp:234-282 | `sto`, `rcl` and `scale` are not in the start-up table; they are handled by the calculator itself |
| Registry.StringLessTotal | operators.cpp:32-38 | the name order is total, so the listing is determined |
| Registry.GetAllNames | operators.cpp:32-38 | the names listed are exactly the registered names, each once, in ascending order |
| Registry.AscendingListingIsUnique | operators.cpp:32-38 | two ascending listings of the same names are equal |
| Extraction.LongestSuffixIsUnique | rpn.cpp:208-210 | two candidates that are both longest suffixes are the same, so how the sort orders equal lengths cannot matter |
| Extraction.LongestSuffix | rpn.cpp:199-223 | the operator found is a candidate the token ends with, and no longer candidate ends the token; the empty result means no candidate ends it |
| Extraction.Candidates | rpn.cpp:202-206 | the candidates are the registered names plus `sto` and `rcl` |
| Extraction.SortByLength | rpn.cpp:208-210 | the sort keeps the same names, longest first |
| Extraction.ExtractOperator | rpn.cpp:199-223 | the loop over the sorted candidates returns the longest operator suffix of the token and where it starts, or the empty string |
| Extraction.FirstMatchIsLongest | rpn.cpp:212-220 | in a longest-first list, the first candidate the token ends with is the longest one |
| Tokenizer.FieldsOfJoin | rpn.cpp:327-334 | splitting fields joined by a separator gives the fields back |
| Tokenizer.FieldsAreRuns | rpn.cpp:327-334 | every field produced is non-empty and contains no separator |
| Tokenizer.SplitStatements | rpn.cpp:348-363 | the character loop of `processLine` yields the non-empty runs between semicolons |
| Tokenizer.TokensIgnoreStatementBoundaries | rpn.cpp:336-366 | splitting at `;` and then at white space gives the same tokens as one split treating `;` as white space |
| Tokenizer.BlankLineHasNoTokens | rpn.cpp:338 | a line of only blanks and tabs has no tokens |
| Interpreter.Sto | rpn.cpp:234-250 | `sto` needs two values and a whole location; then the location is consumed, the value stays on top and is what that location recalls, and every other location recalls what it did before |
| Interpreter.Rcl | rpn.cpp:253-264 | `rcl` needs a location and replaces it by the value recalled from the truncated location (0 if none), keeping every value below it |
| Interpreter.Scale | rpn.cpp:267-282 | `scale` takes a truncated top in 0..15 as the new scale; out of range it reports the range error with the top replaced by its truncation and nothing else changed; on an empty stack it changes nothing; the scale always stays in range |
| Interpreter.ProcessToken | rpn.cpp:228-325 | only `scale` changes the scale, only a token ending in `sto` changes the memory, and the scale stays in 0..15 |
| Interpreter.Fuses | rpn.cpp:285-291 | a token is split only into a non-empty number followed by the longest candidate name it ends with |
| Interpreter.ProcessTokenAsWritten | rpn.cpp:228-325 | with `isNumber` as written, the process ends exactly on a token (or the number part of a token with an operator attached) that passes `isNumber` but has no mantissa digit; on every other token it does what `Interpreter.ProcessToken` does |
| Interpreter.PointTokenEndsProcess | rpn.cpp:309-314 | the token `.` ends the process as written, where the corrected dispatch reports it as invalid input and changes nothing |
| Interpreter.RunTokensAsWritten | rpn.cpp:327-334 | a statement ends the process exactly when one of its tokens does, and otherwise has the effect of the corrected run |
| Interpreter.ProcessLineAsWritten | rpn.cpp:336-366 | a non-blank line ends the process exactly when one of its tokens does, and otherwise has the effect of the corrected line |
| Interpreter.RunTokens | rpn.cpp:327-334 | running tokens in turn keeps the scale in range; without a `scale` token the scale is unchanged; no more errors are reported than there are tokens |
| Interpreter.ProcessLine | rpn.cpp:336-366 | after any line the bottom of the stack is not 0, and the scale stays in range |
| Interpreter.OperatorTokenApplies | rpn.cpp:317-321 | a registered name that is not a number runs its operator |
| Interpreter.UnknownTokenIsReported | rpn.cpp:228-324 | a token that is no command, number or operator is reported and changes nothing; as written this also holds whenever neither the token nor its number part passes `isNumber` |
| Interpreter.FusedTokenApplies | rpn.cpp:285-306 | a number with an operator attached pushes the number and then runs the operator |
| Interpreter.NumberPushesItsValue | rpn.cpp:309-314 | a number token pushes its value |
| Interpreter.OperatorNameDoesNotFuse | rpn.cpp:285-306 | a registered name is never split into a number and an operator |
| Interpreter.FusedTokenIsNumberThenOperator | rpn.cpp:285-306 | the token `<number><op>` has the same effect as the token `<number>` followed by the token `<op>` |
| Interpreter.StoreThenRecall | rpn.cpp:234-264 | storing a value at a whole location, then recalling that location, leaves the value twice on the stack |
| Interpreter.ErrorsChangeNothingVisible | rpn.cpp:228-325 | a token other than `scale`, and other than a number with an operator or `sto`/`rcl` attached, that reports an error leaves the calculator as it was, once the bottom zeros are removed (`scale` out of range pushes back the truncated value, and an attached number stays pushed when its operator fails) |
| Interpreter.LineKeepsScaleInRange | rpn.cpp:336-366 | the scale stays in 0..15 over any line |
| Interpreter.BlankLineDuplicatesTop | rpn.cpp:338-347 | a blank line duplicates the top, leaves an empty stack as it is, and reports nothing |
| Interpreter.LineIsItsTokens | rpn.cpp:348-365 | a line acts as its white-space and semicolon separated tokens run in order, followed by removing the bottom zeros |
| Interpreter.SpecialTokensRunTheirCommands | rpn.cpp:233-282 | `sto`, `rcl` and `scale` run the calculator's own store, recall and scale commands, and none of them ends the process |
| Interpreter.RunSingleToken | rpn.cpp:327-334 | one token leaves the state it computes and reports exactly its own error, if any: the error list is empty exactly when the token succeeds |
| Interpreter.RunTokensAppend | rpn.cpp:327-334 | running `a + b` runs `a` and then `b` from the state `a` leaves, reporting the errors of `a` before those of `b` |
| Interpreter.LineRunsTokensInOrder | rpn.cpp:348-365 | a line whose tokens are `a + b` reports the errors of `a`, then those of `b`, and ends in the state `b` leaves after `a`, with the bottom zeros removed |
| Interpreter.ExponentMarkBeforeOperator | rpn.cpp:285-306 | with the start-up registry, `1e+` pushes 1 and adds |
| Interpreter.ExponentMarkIsConstantE | rpn.cpp:285-306 | with the start-up registry, `1e` pushes 1 and then pushes e |
| Interpreter.NumberWithStore | rpn.cpp:300-301 | `<number>sto` pushes the number and then stores |
| Interpreter.NumberWithRecall | rpn.cpp:300-301 | `<number>rcl` pushes the number and then recalls |
| Interpreter.StoreAtFive | rpn.cpp:285-306 | with the start-up registry, `5sto` pushes 5 and stores |
| LegacyWrapper.PushBack | rpn/VectorWrapper.cpp:10-12 | the value becomes the top, above the old contents |
| LegacyWrapper.Clear | rpn/VectorWrapper.cpp:14-16 | the vector is emptied |
| LegacyWrapper.Pop | rpn/VectorWrapper.cpp:18-25 | the top and the rest, or 0 and the unchanged empty vector |
| LegacyWrapper.Look | rpn/VectorWrapper.cpp:27-32 | `look` returns what `pop` would, without removing it |
| LegacyWrapper.PopUndoesPushBack | rpn/VectorWrapper.cpp:10-25 | popping what was pushed returns it and restores the vector |
| LegacyWrapper.Print | rpn/VectorWrapper.cpp:34-42 | one line per element, bottom first, labelled with its distance from the top |
| LegacyVector.X | rpn/DoubleVector.cpp:10-15 | `x` is the top, or 0 |
| LegacyVector.SameTopAsWrapper | rpn/DoubleVector.cpp:10-15 | `x` of a `DoubleVector` is `look` of a `VectorWrapper` with the same values, and both `pop`s return the same top and remaining values |
| LegacyVector.Y | rpn/DoubleVector.cpp:17-22 | `y` is the top of the vector without its top |
| LegacyVector.Z | rpn/DoubleVector.cpp:24-29 | `z` is the `y` of the vector without its top |
| LegacyVector.Push | rpn/DoubleVector.cpp:31-33 | the pushed value becomes `x`, and popping it restores the vector |
| LegacyVector.Pop | rpn/DoubleVector.cpp:35-43 | the top and the rest, or 0 and the unchanged empty vector |
| LegacyVector.Size | rpn/DoubleVector.cpp:45-47 | the size is 0 only for the empty vector and drops by one per pop |
| LegacyVector.Unsigned | rpn/DoubleVector.cpp:54 | a negative `int` compared with a size becomes a value of at least 2^64 - 2^31 |
| LegacyVector.At | rpn/DoubleVector.cpp:53-61 | `at(n)` is the value n places below the top, and 0 for a negative n or any n at or past the bottom |
| LegacyVector.AtCountsFromTop | rpn/DoubleVector.cpp:53-61 | `at(0)`, `at(1)` and `at(2)` are `x`, `y` and `z`, and `at(n+1)` is `at(n)` of the vector without its top |
| LegacyVector.RemoveLeadingZeros | rpn/DoubleVector.cpp:64-68 | erasing leading zeros gives the stack without its bottom zeros, as the current calculator computes it |
| LegacyFunctions.InitialState | rpn/main.hpp:22-28 | the start state is in degrees, with the flags off and every memory slot 0 |
| LegacyFunctions.DrgConversion | rpn/functions.cpp:12-20 | the factor to radians is pi/180 for degrees, 1 for radians and (rounded) pi/200 otherwise |
| LegacyFunctions.IsIntegerIffWhole | rpn/functions.cpp:23-25 | the `isInteger` test holds exactly for whole numbers |
| LegacyFunctions.IeeeDivide | rpn/functions.cpp:52-56 | with a non-zero divisor, the quotient times the divisor is the dividend |
| LegacyFunctions.IeeeFmod | rpn/functions.cpp:78-82 | with a non-zero divisor, `modulo` is the truncated remainder |
| LegacyFunctions.BinaryValue | rpn/functions.cpp:28-82 | `+` and `-` satisfy (y op x) ∓ x = y and `*` gives y times x; `/` gives the IEEE quotient, so y / x times x is y for a non-zero x; `pow` gives `pow(y, x)` and `root` gives `pow(y, 1 / x)`, with the IEEE result of 1 / 0 for x = 0; `%` gives `fmod(y, x)`, smaller in size than a non-zero x; `atan2` is scaled out of radians by the angle unit |
| LegacyFunctions.UnaryValue | rpn/functions.cpp:84-146 | `chs` negates; `1/x` gives the reciprocal, and the IEEE result of 1 / 0 at 0; `log` is the natural logarithm and `log10` the base-10 one; `10^x` and `e^x` are `pow(10, x)` and `pow(e, x)`; `sin` takes the angle in the current unit, and `cos` gives the cosine of it, or 0 when that is smaller than the machine epsilon; `tan` at a right angle gives 0 and elsewhere the tangent; the inverse functions are scaled out of radians by the angle unit |
| LegacyFunctions.ArithmeticValue | rpn/functions.cpp:69-102 | `chs`, `1/x`, `log`, `log10`, `10^x` and `e^x` give the negation, the reciprocal (the IEEE result of 1 / 0 at 0), the natural and base-10 logarithms, and `pow(10, x)` and `pow(e, x)` |
| LegacyFunctions.AngularValue | rpn/functions.cpp:104-146 | `sin`, `cos` and `tan` take their angle in the current unit; `cos` is 0 when the cosine is smaller than the machine epsilon; `tan` at exactly a right angle is 0 and elsewhere the tangent; `asin`, `acos` and `atan` are scaled out of radians by the angle unit |
| LegacyFunctions.ApplyBinary | rpn/functions.cpp:43-67 | a binary function pops x and then y (0 if missing), and pushes f(y, x) on the rest |
| LegacyFunctions.ApplyUnary | rpn/functions.cpp:84-146 | a unary function replaces the top (0 if missing) by f(top) and keeps the rest |
| LegacyFunctions.CosOrZero | rpn/functions.cpp:115-125 | a cosine below machine epsilon in size is shown as 0, and any other is kept |
| LegacyFunctions.SumAll | rpn/functions.cpp:33-41 | `sum` leaves only the sum of all values |
| LegacyFunctions.SwapTop | rpn/functions.cpp:161-167 | `swap` exchanges the two top values (padding with 0) and keeps the rest |
| LegacyFunctions.ValidSlotIndexesMemory | rpn/functions.cpp:181-204 | a slot the corrected check accepts indexes the memory |
| LegacyFunctions.NegativeSlotPassesCheck | rpn/functions.cpp:181-204 | slot -1 passes the check as written but indexes outside the memory, so both `5 -1 sto` and `-1 rcl` fail as written |
| LegacyFunctions.StoreAsWritten | rpn/functions.cpp:181-192 | `sto` as written indexes outside the memory exactly for a negative whole slot, and otherwise does what the corrected `sto` does |
| LegacyFunctions.RecallAsWritten | rpn/functions.cpp:195-204 | `rcl` as written indexes outside the memory exactly for a negative whole slot, and otherwise does what the corrected `rcl` does |
| LegacyFunctions.Store | rpn/functions.cpp:181-192 | `sto` consumes the slot and keeps the value on top; a valid slot receives the value and nothing else in the state changes |
| LegacyFunctions.SlotTestsAgreeExceptNegative | rpn/functions.cpp:181-204 | the corrected `sto` and `rcl` behave as the code does for every slot except negative whole numbers |
| LegacyFunctions.Recall | rpn/functions.cpp:195-204 | `rcl` replaces a valid slot by its content, and otherwise only consumes it |
| LegacyFunctions.RecallAfterStore | rpn/functions.cpp:181-204 | storing then recalling one slot leaves the value twice on top |
| LegacyFunctions.Run | rpn/functions.cpp:170-178 | only `sto` among the modelled functions changes the state; `pi` and `e` push their constants |
| LegacyFunctions.BinaryOperandOrder | rpn/functions.cpp:43-47 | after pushing a then b, a binary function computes f(a, b) on the stack below them |
| LegacyFunctions.BinaryShape | rpn/functions.cpp:28-82 | a binary function leaves one value fewer (at least one) |
| LegacyFunctions.UnaryShape | rpn/functions.cpp:69-146 | a unary function keeps the number of values (at least one) |
| LegacyFunctions.SumCollapsesStack | rpn/functions.cpp:33-41 | `sum` leaves the sum alone on the stack, 0 for an empty one |
| LegacyFunctions.SwapTwiceRestores | rpn/functions.cpp:161-167 | swapping twice restores a stack of two or more |
| LegacyFunctions.PopTopRemovesTop | rpn/functions.cpp:156-159 | `pop` removes the top and leaves an empty stack as it is |
| LegacyMain.TableNamesHaveFunctions | rpn/main.cpp:14-54 | every name in the table has a function |
| LegacyMain.OnlyTableNamesHaveFunctions | rpn/main.cpp:57-63 | no other name has one |
| LegacyMain.AliasesShareFunctions | rpn/main.cpp:14-54 | `+`/`add`, `^`/`**` and `%`/`mod` run the same function |
| LegacyMain.PopAliasesShareFunction | rpn/main.cpp:14-54 | `pop`, `cdr` and `d` run the same function |
| LegacyMain.MoreAliasesShareFunctions | rpn/main.cpp:14-54 | `eX`/`eeX` and `copy`/`cp` run the same function |
| LegacyMain.CallFunction | rpn/main.cpp:11-64 | an unknown name is an error with no effect; a known one runs its function once |
| LegacyMain.WithNumber | rpn/main.cpp:99-102 | the number read, if any, is pushed before the text after it is handled |
| LegacyMain.Step | rpn/main.cpp:93-132 | the loop stops exactly on end of input or `q`; `c` clears; `look`, `v`, `!v` and `v!` change only what they name; an empty entry, `q`, `c` and `look` leave the state as it was; an unknown name adds one error and changes nothing else |
| LegacyMain.Session | rpn/main.cpp:88-134 | a stopped loop ignores all further lines, and a loop still running has seen neither `q` nor end of input |
| LegacyMain.NothingAfterQuit | rpn/main.cpp:93-132 | after `q` or end of input, later lines have no effect |
| LegacyMain.EntryDispatch | rpn/main.cpp:111-131 | other text runs its function on the stack with the number pushed, or adds one error |
| Conversions.UnitsOfKey | rpn/conversions.cpp:44-45 | splitting a key at its first `_to_` gives back the two units it was built from |
| Conversions.KeyIsInjective | rpn/conversions.cpp:30 | two unit pairs whose first units both split cleanly (hold no `_to_`, not even across their end) and that have the same key are the same pair |
| Conversions.KeyMatchesOnlyItsPair | rpn/conversions.cpp:30-33 | a key whose first unit splits cleanly and whose second unit neither holds `_to_` nor starts with `to_` is the key of no other pair, whatever text the other pair holds |
| Conversions.KeyFindsOnlyItsEntry | rpn/conversions.cpp:30-40 | the text key built from any two user units finds a table entry only when they are exactly that entry's units |
| Conversions.TableUnitsSplitCleanly | rpn/conversions.cpp:12-27 | every unit of the table splits and ends cleanly, so the table may be keyed by unit pairs |
| Conversions.FindTo | rpn/conversions.cpp:44-45 | `find("_to_")` returns the first occurrence, or the end of the key |
| Conversions.StepThrough | rpn/conversions.cpp:47-58 | a two-step route exists exactly when an entry leaves the source unit and one table step (direct, or the reciprocal of the reverse entry) leads from its target to the wanted unit; its factor is the entry's factor times that step's, and is positive |
| Conversions.FirstRoute | rpn/conversions.cpp:43-61 | the entry the loop stops at is in the visiting order and offers a two-step route |
| Conversions.FirstRouteIsFirst | rpn/conversions.cpp:43-61 | no entry before the one chosen offers a route |
| Conversions.FirstRouteFindsOfferedRoute | rpn/conversions.cpp:43-61 | if any entry offers a route, one is chosen |
| Conversions.ConvertUnits | rpn/conversions.cpp:10-66 | the value popped is multiplied by the conversion factor, and the rest of the vector is kept |
| Conversions.FactorFor | rpn/conversions.cpp:33-64 | the factor is the direct entry, else the reciprocal of the reverse entry, else the first two-step route, else 1; it is always positive |
| Conversions.RouteThroughIntermediate | rpn/conversions.cpp:43-61 | without a direct or reverse entry, the factor is that of some two-step route when one exists |
| Conversions.NoRouteKeepsValue | rpn/conversions.cpp:63-64 | without any route, the value is popped unchanged |
| Conversions.ConvertingBackRestores | rpn/conversions.cpp:33-40 | converting with a direct entry and then back with its reciprocal restores the value |
| Conversions.InchesToFeet | rpn/conversions.cpp:37-40 | inches to feet uses the reciprocal of the 12 feet-to-inches factor |
| Conversions.InchesToCentimetres | rpn/conversions.cpp:43-61 | inches to centimetres goes through metres and gives 2.54 |
| LegacyHelp.HelpKeysAreOrdered | rpn/help.cpp:76-88 | the keys are listed in the map's ascending order |
| LegacyHelp.HelpKeysAreInTable | rpn/help.cpp:16-58 | every listed key is in the table |
| LegacyHelp.HelpTableKeysAreListed | rpn/help.cpp:16-58 | every table key is listed |
| LegacyHelp.Trim | rpn/help.cpp:61-73 | the trimmed text is a slice with only blanks outside it, and it is empty or starts and ends with a non-blank |
| LegacyHelp.TrimIsUnique | rpn/help.cpp:61-73 | any such slice is the trimmed text |
| LegacyHelp.TrimAsWritten | rpn/help.cpp:61-73 | the two loops of `trim` compute the trimmed text |
| LegacyHelp.TrimIsIdempotent | rpn/help.cpp:61-73 | trimming twice is trimming once |
| LegacyHelp.TrimIgnoresSurroundingSpace | rpn/help.cpp:61-73 | blanks around a trimmed key are removed and the key is kept |
| LegacyHelp.TextForHelpKey | rpn/help.cpp:91-98 | a key in the table gives its text, and any other is reported as not found |
| LegacyHelp.ReturnHelp | rpn/help.cpp:102-109 | `?` alone lists all keys; otherwise the text after `?` is trimmed and looked up |
| LegacyHelp.HelpForSpacedKey | rpn/help.cpp:102-109 | `?` followed by a key with blanks around it gives that key's help |
| LegacyHelp.TableKeysSurviveTrim | rpn/help.cpp:102-109 | every table key is unchanged by trimming, so each can be looked up |
| LegacyHelp.Pad | rpn/help.cpp:79 | a cell is the key followed by blanks up to 15 characters, and a longer key is not cut |
| LegacyHelp.Lines | rpn/help.cpp:76-88 | each line holds one to five keys, and all but the last hold five |
| LegacyHelp.LinesPartitionKeys | rpn/help.cpp:76-88 | the lines together hold the keys in order |
| LegacyHelp.PrintAllHelpKeys | rpn/help.cpp:76-88 | the loop writes the keys five per line in 15-wide cells, then the closing line |

## Left out

- Printing is not modelled. This covers the output of values, of the stack (`p`), of errors and of the operator help in `operators.cpp`. Errors are returned as values instead.
- The configuration file and the interactive run loop of the current calculator are not modelled. They consist of I/O only.
- The clipboard itself is not modelled. `copy` pipes the top through `popen`; whether that pipe works is the caller-supplied `host.clipboardWorks`, and `Operators.ApplyNullary` models both outcomes (success, or `ClipboardFailed`), each leaving the stack as it is.
- `rpn/readLineWithNumber.cpp`, `rpn/readLineWithVariant.cpp` and `rpn/errors.cpp` are not part of this model.
  - They read a line from the terminal and print messages.
  - A line read is the `LegacyMain.Line` datatype: the number found at its start, the text after it, and whether input ended.
- The results of `sin`, `log`, `pow`, `tgamma` and the other library functions are not modelled. They, and the NaN and infinity tests on them, come from the `Host` record, because they are floating-point library calls.
- Rounding of doubles is not modelled: values are exact reals.
- Basics.Trunc: does not model the 32-bit range of `int`, because converting a double outside that range is undefined in C++.
- NumberGrammar.DigitStringParses: covers conversions that `stod` completes. The `std::out_of_range` that `stod` throws when the value overflows (`1e400`) or underflows to 0 (`1e-400`) is not modelled, because doubles are exact reals here.
- NumberGrammar.ParsesIffMantissaDigit: `stod` also refuses a token with a mantissa digit whose value is out of the range of a double, overflowing (`1e400`) or underflowing (`1e-400`), by throwing `std::out_of_range`. The model's conversion has no range, so this lemma speaks only of the digit condition.
- NumberGrammar.NumeralIffConvertible: the tokens it accepts include out-of-range numerals such as `1e400` and `1e-400`, which `stod` refuses with `std::out_of_range`; range is not modelled, because doubles are exact reals here.
- Interpreter.ProcessTokenAsWritten: ends the process only on the tokens with no mantissa digit (`std::invalid_argument`). A numeral out of the range of a double, overflowing (`1e400`) or underflowing (`1e-400`), makes `stod` throw `std::out_of_range`, which nothing catches either, so the program ends there too, while the model pushes the exact value. `Interpreter.RunTokensAsWritten` and `Interpreter.ProcessLineAsWritten` inherit this.
- The registry is an ordinary value passed to the interpreter, not a process-wide singleton.
- Extraction.SortByLength: states the length order and the set of names, but not `std::sort`'s order among names of equal length, because that order is unspecified. `Extraction.LongestSuffixIsUnique` shows it cannot change the result.
- The return codes of the older calculator's functions are not modelled. `funcTan` returns `ERROR_INFINITY` at a right angle and the others return 0, but the name table stores each function as a `std::function<void(VectorWrapper&, State&)>` (rpn/main.cpp:14), so every return value is discarded.
- `DMS` conversion, `lerp` and the clipboard `copy` of the older calculator are not modelled. They are named in the table, but their bodies are not part of this model, so `LegacyFunctions.Run` takes their effect as a parameter (`Unseen`).
- Interpreter.ProcessToken: uses the corrected number test, so a token such as `.` is reported as invalid input, and `Interpreter.RunTokens` and `Interpreter.ProcessLine` inherit this. The program as written ends the process on such a token; `Interpreter.ProcessTokenAsWritten`, `Interpreter.RunTokensAsWritten` and `Interpreter.ProcessLineAsWritten` model that ending.
- LegacyFunctions.Run: dispatches `sto` and `rcl` to the corrected slot test, and `LegacyMain.CallFunction` and `LegacyMain.Step` inherit this. The code as written is `LegacyFunctions.StoreAsWritten` and `LegacyFunctions.RecallAsWritten`, which fail on a negative whole slot.
- LegacyVector.At: requires the vector to be no longer than `max_size`, because no `std::vector` is longer.
- `DoubleVector::getVector` is the `vec` field itself.
- The conversion table is keyed by unit pairs rather than by the string `from_to_to`. `Conversions.KeyFindsOnlyItsEntry` shows that this identifies the same entries: a text key finds an entry only for that entry's own units, whatever units the user types.
  - For a key without `_to_`, the source's `substr(npos + 4)` is not modelled, because no key in the table lacks `_to_`.
- The order in which the `std::unordered_map` of conversions is visited is unspecified in C++, so it is a parameter, constrained to list exactly the table's keys.
- LegacyHelp.TrimAsWritten: requires a non-empty string. On an empty string the source decrements an iterator past `begin()`, which is undefined behaviour.
- LegacyHelp.Pad: counts characters. `std::setw` counts bytes, which is the same for the table's keys because they are ASCII.
- The alias equalities of the help table (entries sharing one text) are not stated, because comparing entries of the 41-entry table is beyond what the verifier handles in reasonable time.

## Findings

| source | as written | input that shows it | evidently intended | confidence | as-written member | corrected member |
|---|---|---|---|---|---|---|
| rpn.cpp:165-194 | `isNumber` accepts a token whose mantissa has no digit, and `processToken` then calls `std::stod` on it (rpn.cpp:292 and 310), which throws `invalid_argument`; nothing catches it, so the process ends | `.`, `-.`, `.e5`, `.+` | only tokens with a digit in the mantissa count as numbers, so such a token is reported as invalid input | not executed | Interpreter.PointTokenEndsProcess | Interpreter.ProcessToken |
| rpn/functions.cpp:181-204 | `funcStore` and `funcRecall` accept any whole slot `<= 9`, including negative ones, and then index `state.memory` with it | slot `-1` (stack `5 -1 sto`, or `-1 rcl`) | slots 0 through 9 only, as the message says | not executed | LegacyFunctions.NegativeSlotPassesCheck | LegacyFunctions.SlotTestsAgreeExceptNegative |

=== FILE: angles.dfy ===
/** The calculator's angle mode and the conversions between the user's unit
    and the radians the C library works in. */
module Angles {

  /** `M_PI` and `M_E`, as the decimal literals that round to those doubles. */
  const Pi: real := 3.141592653589793
  const E: real := 2.718281828459045

  datatype AngleMode = Radians | Degrees | Gradians

  /** `setAngleMode`: the three mode names select a mode; any other name
      leaves the current one in place. */
  function SetAngleMode(current: AngleMode, name: string): (r: AngleMode)
    ensures name == "degrees" ==> r == Degrees
    ensures name == "radians" ==> r == Radians
    ensures name == "gradians" ==> r == Gradians
    ensures name !in {"degrees", "radians", "gradians"} ==> r == current
  {
    if name == "degrees" then Degrees
    else if name == "radians" then Radians
    else if name == "gradians" then Gradians
    else current
  }

  /** Number of user units in a half turn, or 0 in radians mode, where no
      conversion takes place. */
  function HalfTurn(mode: AngleMode): real {
    match mode
    case Radians => 0.0
    case Degrees => 180.0
    case Gradians => 200.0
  }

  /** `toRadians`: an angle in the current unit, in radians. */
  function ToRadians(mode: AngleMode, angle: real): (r: real)
    ensures mode != Radians ==> r * HalfTurn(mode) == angle * Pi
  {
    match mode
    case Radians => angle
    case Degrees => angle * Pi / 180.0
    case Gradians => angle * Pi / 200.0
  }

  /** `fromRadians`: an angle in radians, in the current unit. */
  function FromRadians(mode: AngleMode, angle: real): (r: real)
    ensures mode != Radians ==> r * Pi == angle * HalfTurn(mode)
  {
    match mode
    case Radians => angle
    case Degrees => angle * 180.0 / Pi
    case Gradians => angle * 200.0 / Pi
  }

  /** Converting to radians and back gives the angle back, in every mode. */
  lemma FromRadiansUndoesToRadians(mode: AngleMode, angle: real)
    ensures FromRadians(mode, ToRadians(mode, angle)) == angle
    ensures ToRadians(mode, FromRadians(mode, angle)) == angle
  {
    if mode != Radians {
      var h := HalfTurn(mode);
      var t := ToRadians(mode, angle);
      var f := FromRadians(mode, angle);
      CancelScale(angle, Pi, h, t);
      CancelScale(angle, h, Pi, f);
      assert FromRadians(mode, t) == t * h / Pi;
      assert ToRadians(mode, f) == f * Pi / h;
    }
  }

  /** Multiplying by `a / b` and then by `b / a` is the identity. */
  lemma CancelScale(x: real, a: real, b: real, y: real)
    requires a != 0.0 && b != 0.0 && y == x * a / b
    ensures y * b / a == x
  {
    assert y * b == x * a;
  }

  /** A half turn in the user's unit is `Pi` radians. */
  lemma HalfTurnIsPi(mode: AngleMode)
    requires mode != Radians
    ensures ToRadians(mode, HalfTurn(mode)) == Pi
  {
  }
}

=== FILE: basics.dfy ===
/** Definitions shared by both generations of the calculator: an optional value,
    the C library's character classes and the conversions C++ applies when a
    double is cast to an integer. */
module Basics {

  datatype Option<+T> = None | Some(value: T)

  /** The characters `isspace` accepts in the "C" locale. */
  predicate IsSpace(c: char) {
    c == ' ' || c == '\t' || c == '\n' || c == '\U{B}' || c == '\U{C}' || c == '\r'
  }

  /** `static_cast<int>` of a double: truncation toward zero.
      The 32-bit range of `int` is not modelled. */
  function Trunc(x: real): (r: int)
    ensures 0.0 <= x ==> r as real <= x < r as real + 1.0
    ensures x < 0.0 ==> r as real - 1.0 < x <= r as real
  {
    if x >= 0.0 then x.Floor else -((-x).Floor)
  }

  /** A double with no fractional part: `x == std::floor(x)`. */
  predicate IsWhole(x: real) {
    x == x.Floor as real
  }
}

=== FILE: calculator.dfy ===
/** The state of one `RPNCalculator`: its value stack, its indexed memory, its
    angle mode and its display precision (`scale`), and the errors an
    operation can report. */
module Calculator {
  import opened Basics
  import opened ValueStack
  import opened Angles

  /** Largest precision `scale` accepts, and the precision a new calculator starts with. */
  const MaxScale: int := 15

  datatype Calc = Calc(stack: Stack, memory: map<int, real>, angle: AngleMode, scale: int)

  /** The scale is a precision `std::setprecision` can use. */
  predicate ScaleInRange(c: Calc) {
    0 <= c.scale <= MaxScale
  }

  /** The constructor: empty stack and memory, radians, fifteen digits. */
  function Initial(): (c: Calc)
    ensures c.stack == [] && c.memory == map[]
    ensures c.angle == Radians && c.scale == MaxScale && ScaleInRange(c)
  {
    Calc([], map[], Radians, MaxScale)
  }

  /** The messages the calculator writes to standard error (and, for the scale
      range, to standard output) when an operation cannot proceed. */
  datatype Error =
    | DivisionByZero
    | ModuloByZero
    | NotANumber
    | Infinity
    | TangentUndefined
    | AsinDomain
    | AcosDomain
    | NonPositiveLogarithm
    | LogarithmBaseOne
    | NegativeSquareRoot
    | StackEmpty
    | NeedTwoElements
    | ClipboardFailed
    | NeedLocationAndValue
    | LocationNotInteger
    | NeedLocation
    | ScaleOutOfRange
    | InvalidInput(token: string)

  /** The state after one operation and the error it reported, if any. */
  datatype Outcome = Outcome(state: Calc, error: Option<Error>)

  function Ok(c: Calc): Outcome {
    Outcome(c, None)
  }

  function Failed(c: Calc, e: Error): Outcome {
    Outcome(c, Some(e))
  }

  /** The calculator with a value pushed on its stack. */
  function Push(c: Calc, v: real): (r: Calc)
    ensures r.stack == c.stack + [v] && r == c.(stack := r.stack)
  {
    c.(stack := c.stack + [v])
  }
}

=== FILE: conversions.dfy ===
/** `convert_units`: converts the value on top of a `DoubleVector` between two
    units with a table of factors keyed `<from>_to_<to>`, trying a direct
    entry, then the reverse entry, then a route through one intermediate
    unit. */
module Conversions {
  import opened Basics
  import opened LegacyVector

  /** The entry `<from>_to_<to>` of the table, held as its two units: the
      text before the first `_to_` of the key and the text after it (see
      `Units` and `KeyIsInjective`). */
  datatype Conversion = Conversion(from: string, to: string)

  /** `conversion_factors` */
  const ConversionFactors: map<Conversion, real> := map[
    Conversion("kg", "lb") := 2.20462,
    Conversion("m", "ft") := 3.28084,
    Conversion("m", "cm") := 100.0,
    Conversion("m", "mm") := 1000.0,
    Conversion("l", "gal") := 0.264172,
    Conversion("ft", "in") := 12.0,
    Conversion("in", "m") := 0.0254,
    Conversion("mil", "mm") := 0.0254,
    Conversion("mi", "nm") := 0.8689762,
    Conversion("mi", "km") := 1.609344,
    Conversion("deg", "rad") := 0.01745329
  ]

  /** A table of factors, each of which can be divided by. */
  predicate Positive(factors: map<Conversion, real>) {
    forall c | c in factors :: factors[c] > 0.0
  }

  /** An order in which the table may be iterated: every entry exactly once.
      `std::unordered_map` fixes no particular one. */
  predicate IsIterationOrder(factors: map<Conversion, real>, order: seq<Conversion>) {
    && (forall i, j | 0 <= i < j < |order| :: order[i] != order[j])
    && (forall c | c in order :: c in factors)
    && (forall c | c in factors :: c in order)
  }

  // ---------------------------------------------------------------------------
  // Keys as text
  // ---------------------------------------------------------------------------

  /** `from + "_to_" + to` */
  function Key(from: string, to: string): string {
    from + "_to_" + to
  }

  /** `key.find("_to_")` from position `i` on: the first position where
      `_to_` starts, or `|key|` when there is none. */
  function FindTo(key: string, i: nat): (r: nat)
    requires i <= |key|
    ensures i <= r <= |key|
    ensures r < |key| ==> ToAt(key, r)
    decreases |key| - i
  {
    if i + 4 > |key| then |key|
    else if ToAt(key, i) then i
    else FindTo(key, i + 1)
  }

  /** `_to_` starts nowhere in `s`. */
  predicate NoTo(s: string) {
    forall p: nat | p + 4 <= |s| :: !ToAt(s, p)
  }

  /** `_to_` starts at position `p` of `key`. */
  predicate ToAt(key: string, p: nat) {
    p + 4 <= |key| && key[p] == '_' && key[p + 1] == 't' && key[p + 2] == 'o' && key[p + 3] == '_'
  }

  /** The two units of a key: the text before its first `_to_` and the text
      after it. Every key of the table holds `_to_`; without one the key
      would be returned whole. */
  function Units(key: string): (string, string) {
    var p := FindTo(key, 0);
    if p < |key| then (key[..p], key[p + 4..]) else (key, "")
  }

  /** Searching from `i` finds `p` when `_to_` starts at `p` and nowhere
      between `i` and `p`. */
  lemma {:induction false} FindsFirst(key: string, i: nat, p: nat)
    requires i <= p && ToAt(key, p)
    requires forall q: nat | i <= q < p :: !ToAt(key, q)
    ensures FindTo(key, i) == p
    decreases p - i
  {
    if i < p {
      FindsFirst(key, i + 1, p);
    }
  }

  /** A unit the key's split gives back: `_to_` appears nowhere in it, not
      even across its end into the `_` that follows it in a key (`a_to`
      would not do: `a_to_to_b` splits into `a` and `to_b`). */
  predicate SplitsCleanly(unit: string) {
    NoTo(unit + "_")
  }

  /** Splitting the key made from two units gives them back when the first
      splits cleanly. */
  lemma UnitsOfKey(from: string, to: string)
    requires SplitsCleanly(from)
    ensures Units(Key(from, to)) == (from, to)
  {
    var key := Key(from, to);
    var ended := from + "_";
    assert ToAt(key, |from|);
    forall p: nat | p < |from|
      ensures !ToAt(key, p)
    {
      if p + 4 <= |ended| {
        assert !ToAt(ended, p);
        assert key[p] == ended[p] && key[p + 1] == ended[p + 1] && key[p + 2] == ended[p + 2] && key[p + 3] == ended[p + 3];
      } else {
        assert key[|from|] == '_';
      }
    }
    FindsFirst(key, 0, |from|);
    assert key[..|from|] == from && key[|from| + 4..] == to;
  }

  /** Keys whose first units split cleanly are equal only when the units
      are, so a table keyed by text is a table keyed by pairs of units. */
  lemma KeyIsInjective(a: string, b: string, c: string, d: string)
    requires SplitsCleanly(a) && SplitsCleanly(c) && Key(a, b) == Key(c, d)
    ensures a == c && b == d
  {
    UnitsOfKey(a, b);
    UnitsOfKey(c, d);
  }

  /** A unit that `_to_` cannot reach into from the left: `_to_` starts
      nowhere in `_` followed by the unit (so the unit neither holds `_to_`
      nor begins with `to_`). */
  predicate EndsCleanly(unit: string) {
    NoTo("_" + unit)
  }

  /** No `_to_` starts inside a cleanly splitting first unit. */
  lemma NoToInFirstUnit(c: string, d: string, p: nat)
    requires SplitsCleanly(c) && p < |c|
    ensures !ToAt(Key(c, d), p)
  {
    var key := Key(c, d);
    var ended := c + "_";
    if p + 4 <= |ended| {
      assert !ToAt(ended, p);
      assert key[p] == ended[p] && key[p + 1] == ended[p + 1] && key[p + 2] == ended[p + 2] && key[p + 3] == ended[p + 3];
    } else {
      assert key[|c|] == '_';
    }
  }

  /** No `_to_` starts after the separator's first character when the second
      unit ends cleanly. */
  lemma NoToAfterSeparator(c: string, d: string, p: nat)
    requires EndsCleanly(d) && |c| < p
    ensures !ToAt(Key(c, d), p)
  {
    var key := Key(c, d);
    if p < |c| + 3 {
      assert key[|c| + 1] == 't' && key[|c| + 2] == 'o';
    } else if p + 4 <= |key| {
      var rest := "_" + d;
      var q := p - |c| - 3;
      assert !ToAt(rest, q);
      assert key[p] == rest[q] && key[p + 1] == rest[q + 1] && key[p + 2] == rest[q + 2] && key[p + 3] == rest[q + 3];
    }
  }

  /** A key built from a pair whose units split and end cleanly, as every
      table entry's do, is built from no other pair: whatever text the user
      gives as the two units, the lookup finds that entry only for its own
      units. */
  lemma KeyMatchesOnlyItsPair(a: string, b: string, c: string, d: string)
    requires SplitsCleanly(c) && EndsCleanly(d) && Key(a, b) == Key(c, d)
    ensures a == c && b == d
  {
    var key := Key(c, d);
    assert ToAt(Key(a, b), |a|);
    if |a| < |c| {
      NoToInFirstUnit(c, d, |a|);
      assert false;
    } else if |a| > |c| {
      NoToAfterSeparator(c, d, |a|);
      assert false;
    }
    assert key[..|a|] == a && key[..|c|] == c;
    assert key[|a| + 4..] == b && key[|c| + 4..] == d;
  }

  /** Every unit of the table splits and ends cleanly. */
  lemma TableUnitsSplitCleanly()
    ensures forall c | c in ConversionFactors :: SplitsCleanly(c.from)
    ensures forall c | c in ConversionFactors :: EndsCleanly(c.to)
  {
  }

  /** Looking up `from + "_to_" + to` in the table finds an entry only when
      `from` and `to` are exactly that entry's units, whatever text they are. */
  lemma KeyFindsOnlyItsEntry(from: string, to: string, e: Conversion)
    requires e in ConversionFactors && Key(from, to) == Key(e.from, e.to)
    ensures Conversion(from, to) == e
  {
    TableUnitsSplitCleanly();
    KeyMatchesOnlyItsPair(from, to, e.from, e.to);
  }

  // ---------------------------------------------------------------------------
  // The routes
  // ---------------------------------------------------------------------------

  /** One step of the table from `a` to `b`: the entry `<a>_to_<b>`, or else
      the reciprocal of the entry `<b>_to_<a>`. */
  function OneStep(factors: map<Conversion, real>, a: string, b: string): Option<real>
    requires Positive(factors)
  {
    if Conversion(a, b) in factors then Some(factors[Conversion(a, b)])
    else if Conversion(b, a) in factors then Some(1.0 / factors[Conversion(b, a)])
    else None
  }

  /** What the entry `via` offers as the first step from `from` towards `to`:
      its factor times the factor `<mid>_to_<to>`, or else its factor divided
      by the factor `<to>_to_<mid>`, where `mid` is the unit it converts to.
      That is the entry's factor times one step from `mid` to `to`, and it is
      positive. */
  function StepThrough(factors: map<Conversion, real>, via: Conversion, from: string, to: string): (r: Option<real>)
    requires Positive(factors)
    ensures r.Some? <==> via in factors && via.from == from && OneStep(factors, via.to, to).Some?
    ensures r.Some? ==> r.value == factors[via] * OneStep(factors, via.to, to).value && r.value > 0.0
  {
    var mid := via.to;
    if via.from != from || via !in factors then None
    else if Conversion(mid, to) in factors then Some(factors[via] * factors[Conversion(mid, to)])
    else if Conversion(to, mid) in factors then Some(factors[via] / factors[Conversion(to, mid)])
    else None
  }

  /** The loop over the table: the position, in iteration order, of the
      first entry that offers a route through one intermediate unit. */
  function FirstRoute(factors: map<Conversion, real>, order: seq<Conversion>, from: string, to: string): (r: Option<nat>)
    requires Positive(factors)
    ensures r.Some? ==> r.value < |order| && StepThrough(factors, order[r.value], from, to).Some?
    decreases |order|
  {
    if |order| == 0 then None
    else if StepThrough(factors, order[0], from, to).Some? then Some(0)
    else match FirstRoute(factors, order[1..], from, to)
      case None => None
      case Some(i) => Some(i + 1)
  }

  /** No entry before the one the loop stops at offers a route ... */
  lemma {:induction false} FirstRouteIsFirst(factors: map<Conversion, real>, order: seq<Conversion>, from: string, to: string, j: nat)
    requires Positive(factors) && FirstRoute(factors, order, from, to).Some?
    requires j < FirstRoute(factors, order, from, to).value
    ensures StepThrough(factors, order[j], from, to).None?
    decreases |order|
  {
    if j > 0 {
      FirstRouteIsFirst(factors, order[1..], from, to, j - 1);
    }
  }

  /** ... and the loop runs to its end only when no entry offers one. */
  lemma {:induction false} FirstRouteFindsOfferedRoute(factors: map<Conversion, real>, order: seq<Conversion>, from: string, to: string, i: nat)
    requires Positive(factors) && i < |order| && StepThrough(factors, order[i], from, to).Some?
    ensures FirstRoute(factors, order, from, to).Some?
    decreases |order|
  {
    if i > 0 && StepThrough(factors, order[0], from, to).None? {
      assert order[1..][i - 1] == order[i];
      FirstRouteFindsOfferedRoute(factors, order[1..], from, to, i - 1);
    }
  }

  /** `convert_units`: the converted value and the vector without its top,
      which is popped exactly once on every path. `order` is the order in
      which the loop visits the table. */
  function ConvertUnits(factors: map<Conversion, real>, order: seq<Conversion>, dv: DoubleVector, from: string, to: string): (r: (real, DoubleVector))
    requires Positive(factors)
    ensures r.1 == Pop(dv).1 && r.0 == FactorFor(factors, order, from, to) * X(dv)
  {
    var (value, rest) := Pop(dv);
    (FactorFor(factors, order, from, to) * value, rest)
  }

  /** The factor the popped value is multiplied by. The direct entry comes
      first, then the reverse entry, whose factor is inverted, then a route
      through one intermediate unit; with no route the value is returned as
      it is. */
  function FactorFor(factors: map<Conversion, real>, order: seq<Conversion>, from: string, to: string): (r: real)
    requires Positive(factors)
    ensures r > 0.0
    ensures Conversion(from, to) in factors ==> r == factors[Conversion(from, to)]
    ensures Conversion(from, to) !in factors && Conversion(to, from) in factors ==>
              r * factors[Conversion(to, from)] == 1.0
    ensures Conversion(from, to) !in factors && Conversion(to, from) !in factors && FirstRoute(factors, order, from, to).None? ==>
              r == 1.0
  {
    var direct, reverse := Conversion(from, to), Conversion(to, from);
    if direct in factors then factors[direct]
    else if reverse in factors then 1.0 / factors[reverse]
    else
      match FirstRoute(factors, order, from, to)
      case Some(i) => StepThrough(factors, order[i], from, to).value
      case None => 1.0
  }

  /** With neither the direct nor the reverse entry, the factor is what an
      entry of the table offers as a route, whichever one the iteration
      happens to reach first ... */
  lemma RouteThroughIntermediate(factors: map<Conversion, real>, order: seq<Conversion>, from: string, to: string)
    requires Positive(factors) && IsIterationOrder(factors, order)
    requires Conversion(from, to) !in factors && Conversion(to, from) !in factors
    requires exists via :: StepThrough(factors, via, from, to).Some?
    ensures exists via :: StepThrough(factors, via, from, to) == Some(FactorFor(factors, order, from, to))
  {
    var via :| StepThrough(factors, via, from, to).Some?;
    var k :| 0 <= k < |order| && order[k] == via;
    FirstRouteFindsOfferedRoute(factors, order, from, to, k);
    var i := FirstRoute(factors, order, from, to).value;
    assert StepThrough(factors, order[i], from, to) == Some(FactorFor(factors, order, from, to));
  }

  /** ... and the value is returned unchanged only when no entry offers a
      route. */
  lemma NoRouteKeepsValue(factors: map<Conversion, real>, order: seq<Conversion>, dv: DoubleVector, from: string, to: string)
    requires Positive(factors)
    requires Conversion(from, to) !in factors && Conversion(to, from) !in factors
    requires forall via :: StepThrough(factors, via, from, to).None?
    ensures ConvertUnits(factors, order, dv, from, to) == Pop(dv)
  {
  }

  /** Converting with a direct entry and converting the result back, which
      finds no direct entry and so uses the reverse one, gives the value back. */
  lemma ConvertingBackRestores(factors: map<Conversion, real>, order: seq<Conversion>, dv: DoubleVector, from: string, to: string)
    requires Positive(factors)
    requires Conversion(from, to) in factors && Conversion(to, from) !in factors
    ensures var (there, rest) := ConvertUnits(factors, order, dv, from, to);
            ConvertUnits(factors, order, Push(rest, there), to, from) == (X(dv), rest)
  {
    var x := X(dv);
    var f := FactorFor(factors, order, from, to);
    var g := FactorFor(factors, order, to, from);
    assert g * f == 1.0;
    var (there, rest) := ConvertUnits(factors, order, dv, from, to);
    assert there == f * x;
    var pushed := Push(rest, there);
    assert X(pushed) == there && Pop(pushed).1 == rest;
    var (back, rest2) := ConvertUnits(factors, order, pushed, to, from);
    assert back == g * there && rest2 == rest;
    InverseCancels(g, f, x);
    assert back == x;
    assert ConvertUnits(factors, order, dv, from, to) == (there, rest);
    assert ConvertUnits(factors, order, Push(rest, there), to, from) == (x, rest);
  }

  /** Multiplying by a factor and then by its inverse. */
  lemma InverseCancels(g: real, f: real, x: real)
    requires g * f == 1.0
    ensures g * (f * x) == x
  {
    assert g * (f * x) == (g * f) * x;
  }

  /** Every factor of the table is positive. */
  lemma FactorsArePositive()
    ensures Positive(ConversionFactors)
  {
  }

  /** Inches become feet through the reverse entry `ft_to_in`. */
  lemma InchesToFeet(order: seq<Conversion>)
    ensures Positive(ConversionFactors) && FactorFor(ConversionFactors, order, "in", "ft") * 12.0 == 1.0
  {
  }

  /** Inches become centimetres through `in_to_m` and then `m_to_cm`, in
      whatever order the table is visited: no other entry starts from
      inches. */
  lemma InchesToCentimetres(order: seq<Conversion>)
    requires IsIterationOrder(ConversionFactors, order)
    ensures Positive(ConversionFactors) && FactorFor(ConversionFactors, order, "in", "cm") == 2.54
  {
    var inches := Conversion("in", "m");
    InchesToMetresToCentimetres();
    forall c | c in ConversionFactors && c.from == "in"
      ensures c == inches
    {
      OnlyEntryFromInches(c);
    }
    OnlyRoute(ConversionFactors, order, "in", "cm", inches);
  }

  /** The facts of the table the conversion of inches to centimetres uses. */
  lemma InchesToMetresToCentimetres()
    ensures Positive(ConversionFactors)
    ensures Conversion("in", "cm") !in ConversionFactors && Conversion("cm", "in") !in ConversionFactors
    ensures StepThrough(ConversionFactors, Conversion("in", "m"), "in", "cm") == Some(2.54)
  {
    assert Conversion("m", "cm") in ConversionFactors && Conversion("in", "m") in ConversionFactors;
  }

  /** When a single entry of the table converts from `from` and it offers a
      route, the order of iteration does not matter. */
  lemma OnlyRoute(factors: map<Conversion, real>, order: seq<Conversion>, from: string, to: string, via: Conversion)
    requires Positive(factors) && IsIterationOrder(factors, order)
    requires Conversion(from, to) !in factors && Conversion(to, from) !in factors
    requires StepThrough(factors, via, from, to).Some?
    requires forall c | c in factors && c.from == from :: c == via
    ensures Some(FactorFor(factors, order, from, to)) == StepThrough(factors, via, from, to)
  {
    RouteThroughIntermediate(factors, order, from, to);
  }

  /** `in_to_m` is the only entry that converts from inches. */
  lemma OnlyEntryFromInches(c: Conversion)
    requires c in ConversionFactors && c.from == "in"
    ensures c == Conversion("in", "m")
  {
  }
}

=== FILE: extraction.dfy ===
/** `extractOperator`: the operator a token such as `1+` or `45tan` ends with.
    The candidates are the registry's names and the two special commands
    `sto` and `rcl`; the longest candidate that is a suffix of the token wins. */
module Extraction {

  /** `token.substr(token.length() - op.length()) == op`, guarded by the
      length test that precedes it. */
  predicate EndsWith(token: string, op: string) {
    |op| <= |token| && token[|token| - |op|..] == op
  }

  /** `op` is a candidate the token ends with, and no candidate the token ends
      with is longer. */
  predicate IsLongestSuffix(token: string, candidates: set<string>, op: string) {
    && op in candidates
    && EndsWith(token, op)
    && forall o | o in candidates && EndsWith(token, o) :: |o| <= |op|
  }

  /** Two suffixes of one token of the same length are the same string. */
  lemma SuffixesOfEqualLength(token: string, a: string, b: string)
    requires EndsWith(token, a) && EndsWith(token, b) && |a| == |b|
    ensures a == b
  {
  }

  /** There is at most one longest candidate suffix, so the result does not
      depend on the order in which candidates of equal length are tried. */
  lemma LongestSuffixIsUnique(token: string, candidates: set<string>, a: string, b: string)
    requires IsLongestSuffix(token, candidates, a) && IsLongestSuffix(token, candidates, b)
    ensures a == b
  {
    SuffixesOfEqualLength(token, a, b);
  }

  /** The longest non-empty candidate among the token's suffixes of at most
      `n` characters, or the empty string when there is none. */
  function SuffixUpTo(token: string, candidates: set<string>, n: nat): (r: string)
    requires n <= |token|
    ensures r != "" ==> r in candidates && EndsWith(token, r) && |r| <= n
    ensures r != "" ==> forall o | o in candidates && EndsWith(token, o) && |o| <= n :: |o| <= |r|
    ensures r == "" ==> forall o | o in candidates && EndsWith(token, o) && |o| <= n :: o == ""
    decreases n
  {
    if n == 0 then ""
    else if token[|token| - n..] in candidates then token[|token| - n..]
    else SuffixUpTo(token, candidates, n - 1)
  }

  /** The reference definition: the longest non-empty candidate the token
      ends with, or the empty string. */
  function LongestSuffix(token: string, candidates: set<string>): (r: string)
    ensures r != "" ==> IsLongestSuffix(token, candidates, r)
    ensures r == "" ==> forall o | o in candidates && EndsWith(token, o) :: o == ""
  {
    SuffixUpTo(token, candidates, |token|)
  }

  /** The names `extractOperator` tries: the registry's and `sto`, `rcl`. */
  function CandidateSet(names: set<string>): (c: set<string>)
    ensures forall o :: o in c <==> o in names || o == "sto" || o == "rcl"
  {
    names + {"sto", "rcl"}
  }

  /** The same, for the registry's names listed in a sequence. */
  function Candidates(names: seq<string>): (c: set<string>)
    ensures forall o :: o in c <==> o in names || o == "sto" || o == "rcl"
  {
    CandidateSet(set n | n in names)
  }

  // ---------------------------------------------------------------------------
  // The search as the source performs it
  // ---------------------------------------------------------------------------

  /** The order `std::sort` establishes with `a.length() > b.length()`:
      lengths never increase along the sequence. */
  predicate LongestFirst(ops: seq<string>) {
    forall i, j | 0 <= i < j < |ops| :: |ops[i]| >= |ops[j]|
  }

  /** Inserts `x` before the first shorter name. */
  function InsertByLength(x: string, ops: seq<string>): (r: seq<string>)
    requires LongestFirst(ops)
    ensures LongestFirst(r) && |r| == |ops| + 1
    ensures forall o :: o in r <==> o == x || o in ops
  {
    if |ops| == 0 || |x| > |ops[0]| then [x] + ops
    else
      var rest := InsertByLength(x, ops[1..]);
      HeadIsLongest(ops);
      forall k | 0 <= k < |rest|
        ensures |rest[k]| <= |ops[0]|
      {
        assert rest[k] in rest;
        if rest[k] != x {
          var m :| 0 <= m < |ops| - 1 && ops[1..][m] == rest[k];
          assert ops[m + 1] in ops;
        }
      }
      [ops[0]] + rest
  }

  /** No entry of a longest-first sequence is longer than its first. */
  lemma HeadIsLongest(ops: seq<string>)
    requires LongestFirst(ops) && |ops| > 0
    ensures forall o | o in ops :: |o| <= |ops[0]|
  {
    forall o | o in ops
      ensures |o| <= |ops[0]|
    {
      var k :| 0 <= k < |ops| && ops[k] == o;
    }
  }

  /** A longest-first arrangement of the names. `std::sort` is not stable, so
      the source fixes no order among names of equal length; this is one of
      the orders it may produce, and by `LongestSuffixIsUnique` the choice
      does not affect the result. */
  function SortByLength(ops: seq<string>): (r: seq<string>)
    ensures LongestFirst(r) && |r| == |ops|
    ensures forall o :: o in r <==> o in ops
  {
    if |ops| == 0 then [] else InsertByLength(ops[0], SortByLength(ops[1..]))
  }

  /** `extractOperator`: sorts the candidates longest first and returns the
      first one the token ends with, with its starting position. */
  method ExtractOperator(token: string, names: seq<string>) returns (op: string, opStart: nat)
    ensures op == LongestSuffix(token, Candidates(names))
    ensures op != "" ==> opStart + |op| == |token| && token[opStart..] == op
  {
    var ops := SortByLength(names + ["sto", "rcl"]);
    assert forall o :: o in ops <==> o in Candidates(names);
    var i := 0;
    while i < |ops|
      invariant 0 <= i <= |ops|
      invariant forall k | 0 <= k < i :: !EndsWith(token, ops[k])
    {
      if |token| >= |ops[i]| {
        var pos := |token| - |ops[i]|;
        if token[pos..] == ops[i] {
          FirstMatchIsLongest(token, ops, i);
          op, opStart := ops[i], pos;
          var reference := LongestSuffix(token, Candidates(names));
          if op != "" {
            LongestSuffixIsUnique(token, Candidates(names), op, reference);
          }
          return;
        }
      }
      i := i + 1;
    }
    op, opStart := "", 0;
  }

  /** In a longest-first sequence, the first entry the token ends with is at
      least as long as every entry the token ends with. */
  lemma FirstMatchIsLongest(token: string, ops: seq<string>, i: nat)
    requires LongestFirst(ops) && i < |ops|
    requires EndsWith(token, ops[i])
    requires forall k | 0 <= k < i :: !EndsWith(token, ops[k])
    ensures forall o | o in ops && EndsWith(token, o) :: |o| <= |ops[i]|
  {
    forall o | o in ops && EndsWith(token, o)
      ensures |o| <= |ops[i]|
    {
      var k :| 0 <= k < |ops| && ops[k] == o;
      assert k >= i;
    }
  }
}

=== FILE: host.dfy ===
/** The parts of the C library the calculator calls but whose values this
    model does not compute: the transcendental functions, the NaN and infinity tests on their results, and the
    clipboard. Each is a field of a `Host` value passed to every operation, so
    every statement proved here holds whatever those functions return. */
module MathHost {

  datatype Host = Host(
    sin: real -> real,
    cos: real -> real,
    tan: real -> real,
    asin: real -> real,
    acos: real -> real,
    atan: real -> real,
    atan2: (real, real) -> real,
    ln: real -> real,
    log10: real -> real,
    log2: real -> real,
    sqrt: real -> real,
    exp: real -> real,
    /** `std::isinf(std::exp(x))` */
    expIsInf: real -> bool,
    pow: (real, real) -> real,
    /** `std::isnan(std::pow(y, x))` */
    powIsNaN: (real, real) -> bool,
    /** `std::isinf(std::pow(y, x))` */
    powIsInf: (real, real) -> bool,
    tgamma: real -> real,
    /** `std::isnan(std::tgamma(x))` */
    gammaIsNaN: real -> bool,
    /** `std::isinf(std::tgamma(x))` */
    gammaIsInf: real -> bool,
    /** Whether one of the platform's clipboard commands accepts the text. */
    clipboardWorks: bool,
    /** The IEEE result of dividing a number by zero (an infinity or NaN). */
    divideByZero: real -> real,
    /** The IEEE result of `std::fmod` by zero (NaN). */
    fmodByZero: real -> real
  )
}

=== FILE: interpreter.dfy ===
/** `processToken` and `processLine`: how one token, and one input line, act
    on the calculator. The registry is a parameter; the lemmas that depend on
    its contents assume the table `initializeOperators` builds. */
module Interpreter {
  import opened Basics
  import opened ValueStack
  import opened Calculator
  import opened NumberGrammar
  import opened MathHost
  import opened Operators
  import opened Registry
  import opened Extraction
  import opened Tokenizer

  // ---------------------------------------------------------------------------
  // The special commands
  // ---------------------------------------------------------------------------

  /** `sto`: with a location on top and a value below it, stores the value at
      the location. The location is consumed; the value stays on the stack. */
  function Sto(c: Calc): (r: Outcome)
    ensures |c.stack| < 2 ==> r == Failed(c, NeedLocationAndValue)
    ensures |c.stack| >= 2 && !IsWhole(Peek(c.stack)) ==> r == Failed(c, LocationNotInteger)
    ensures r.error.None? ==>
              && r.state.stack == c.stack[..|c.stack| - 1]
              && Recall(r.state.memory, Basics.Trunc(Peek(c.stack))) == Peek(r.state.stack)
              && r.state.angle == c.angle && r.state.scale == c.scale
    ensures r.error.None? ==>
              forall other | other != Basics.Trunc(Peek(c.stack)) :: Recall(r.state.memory, other) == Recall(c.memory, other)
  {
    if |c.stack| < 2 then Failed(c, NeedLocationAndValue)
    else
      var (location, rest) := Pop(c.stack);
      if !IsWhole(location) then Failed(c.(stack := rest + [location]), LocationNotInteger)
      else Ok(c.(stack := rest, memory := Store(c.memory, Basics.Trunc(location), Peek(rest))))
  }

  /** `rcl`: replaces the location on top by the value stored there, or 0. A
      fractional location is truncated toward zero. */
  function Rcl(c: Calc): (r: Outcome)
    ensures |c.stack| == 0 ==> r == Failed(c, NeedLocation)
    ensures |c.stack| > 0 ==> r.error.None? && |r.state.stack| == |c.stack|
    ensures |c.stack| > 0 ==> Peek(r.state.stack) == Recall(c.memory, Basics.Trunc(Peek(c.stack)))
    ensures |c.stack| > 0 ==> r.state.stack[..|c.stack| - 1] == c.stack[..|c.stack| - 1]
    ensures r.state.memory == c.memory && r.state.angle == c.angle && r.state.scale == c.scale
  {
    if |c.stack| == 0 then Failed(c, NeedLocation)
    else
      var (location, rest) := Pop(c.stack);
      Ok(c.(stack := rest + [Recall(c.memory, Basics.Trunc(location))]))
  }

  /** `scale`: with a value on top, takes it (truncated) as the new display
      precision if it lies in 0..15; otherwise reports the range and pushes the
      truncated value back. On an empty stack it only shows the scale. */
  function Scale(c: Calc): (r: Outcome)
    ensures ScaleInRange(c) ==> ScaleInRange(r.state)
    ensures |c.stack| == 0 ==> r == Ok(c)
    ensures |c.stack| > 0 && 0 <= Basics.Trunc(Peek(c.stack)) <= MaxScale ==>
              r == Ok(c.(stack := c.stack[..|c.stack| - 1], scale := Basics.Trunc(Peek(c.stack))))
    ensures |c.stack| > 0 && !(0 <= Basics.Trunc(Peek(c.stack)) <= MaxScale) ==>
              r == Failed(c.(stack := c.stack[..|c.stack| - 1] + [Basics.Trunc(Peek(c.stack)) as real]), ScaleOutOfRange)
  {
    if |c.stack| == 0 then Ok(c)
    else
      var (top, rest) := Pop(c.stack);
      var n := Basics.Trunc(top);
      if 0 <= n <= MaxScale then Ok(c.(stack := rest, scale := n))
      else Failed(c.(stack := rest + [n as real]), ScaleOutOfRange)
  }

  // ---------------------------------------------------------------------------
  // Tokens
  // ---------------------------------------------------------------------------

  /** The words handled before anything else. */
  predicate IsSpecialCommand(token: string) {
    token == "sto" || token == "rcl" || token == "scale"
  }

  /** The operator a token ends with, as `extractOperator` finds it. */
  function SuffixOperator(table: Table, token: string): string {
    LongestSuffix(token, CandidateSet(table.Keys))
  }

  /** The text before the operator a token ends with. */
  function NumberPart(table: Table, token: string): string {
    var op := SuffixOperator(table, token);
    if |op| <= |token| then token[..|token| - |op|] else ""
  }

  /** A token of the form `<number><operator>`, such as `1+` or `45tan`: it is
      longer than one character, ends with an operator name or `sto`/`rcl`,
      and what precedes that name is a number. */
  function Fuses(table: Table, token: string): (r: bool)
    ensures r ==> && SuffixOperator(table, token) in CandidateSet(table.Keys)
                  && token == NumberPart(table, token) + SuffixOperator(table, token)
                  && NumberPart(table, token) != "" && IsNumeral(NumberPart(table, token))
  {
    var op := SuffixOperator(table, token);
    if |token| > 1 && op != "" && |op| < |token| && IsNumeral(NumberPart(table, token)) then
      assert IsLongestSuffix(token, CandidateSet(table.Keys), op);
      assert token == token[..|token| - |op|] + token[|token| - |op|..];
      true
    else false
  }

  /** `sto`, `rcl` and `scale`, which the calculator handles itself. */
  function SpecialCommand(c: Calc, token: string): (r: Outcome)
    requires IsSpecialCommand(token)
    ensures ScaleInRange(c) ==> ScaleInRange(r.state)
    ensures r.state.scale != c.scale ==> token == "scale"
    ensures r.state.memory != c.memory ==> EndsWith(token, "sto")
  {
    if token == "sto" then
      assert EndsWith(token, "sto");
      Sto(c)
    else if token == "rcl" then Rcl(c)
    else Scale(c)
  }

  /** A number with an operator attached: the number is pushed, then the
      operator runs, or `sto`/`rcl` when the name is one of those. */
  function FusedToken(host: Host, table: Table, c: Calc, token: string): (r: Outcome)
    requires Fuses(table, token)
    ensures ScaleInRange(c) ==> ScaleInRange(r.state)
    ensures r.state.scale == c.scale
    ensures r.state.memory != c.memory ==> EndsWith(token, "sto")
  {
    var op := SuffixOperator(table, token);
    var pushed := Push(c, NumeralValue(NumberPart(table, token)));
    if op in table then Apply(host, pushed, table[op].body)
    else if op == "sto" then
      assert EndsWith(token, op);
      Sto(pushed)
    else Rcl(pushed)
  }

  /** A token with no operator attached: a number is pushed, an operator
      name runs its operator, and anything else is invalid input. */
  function PlainToken(host: Host, table: Table, c: Calc, token: string): (r: Outcome)
    ensures r.state.scale == c.scale && r.state.memory == c.memory
  {
    if IsNumeral(token) then Ok(Push(c, NumeralValue(token)))
    else if token in table then Apply(host, c, table[token].body)
    else Failed(c, InvalidInput(token))
  }

  /** `processToken`: in this order, the special commands, a number with an
      operator attached, a number, an operator, and otherwise an error. The
      number test is the corrected one (see `ProcessTokenAsWritten`). Only
      `scale` changes the scale, which stays in 0..15, and only a token ending
      in `sto` changes the memory. */
  function ProcessToken(host: Host, table: Table, c: Calc, token: string): (r: Outcome)
    ensures ScaleInRange(c) ==> ScaleInRange(r.state)
    ensures r.state.scale != c.scale ==> token == "scale"
    ensures r.state.memory != c.memory ==> EndsWith(token, "sto")
  {
    if token == "" then Ok(c)
    else if IsSpecialCommand(token) then SpecialCommand(c, token)
    else if Fuses(table, token) then FusedToken(host, table, c, token)
    else PlainToken(host, table, c, token)
  }

  // ---------------------------------------------------------------------------
  // The dispatch as written
  // ---------------------------------------------------------------------------

  /** The fusion test as written: what precedes the operator passes
      `isNumber`. */
  predicate FusesAsWritten(table: Table, token: string) {
    var op := SuffixOperator(table, token);
    |token| > 1 && op != "" && |op| < |token| && IsNumber(NumberPart(table, token))
  }

  /** The tokens on which `processToken` as written ends the process: the text
      it hands to `std::stod` passes `isNumber` but holds no mantissa digit. */
  predicate EndsProcess(table: Table, token: string) {
    && token != "" && !IsSpecialCommand(token)
    && if FusesAsWritten(table, token) then !IsNumeral(NumberPart(table, token))
       else IsNumber(token) && !IsNumeral(token)
  }

  /** `processToken` exactly as written: the number test is `isNumber`, and
      the text it lets through is converted by `std::stod`. `None` is the end
      of the process when the conversion throws `std::invalid_argument`,
      which nothing catches. Where the process survives, the corrected
      dispatch does the same. The `std::out_of_range` that `std::stod`
      throws on a numeral beyond the range of a double is not modelled:
      values are exact reals. */
  function ProcessTokenAsWritten(host: Host, table: Table, c: Calc, token: string): (r: Option<Outcome>)
    ensures r.None? <==> EndsProcess(table, token)
    ensures r.Some? ==> r.value == ProcessToken(host, table, c, token)
  {
    if token == "" then Some(Ok(c))
    else if token == "sto" then Some(Sto(c))
    else if token == "rcl" then Some(Rcl(c))
    else if token == "scale" then Some(Scale(c))
    else if FusesAsWritten(table, token) then
      var op := SuffixOperator(table, token);
      var number := NumberPart(table, token);
      NumeralIffConvertible(number);
      match ParseDecimal(number)
      case None => None
      case Some(v) =>
        var pushed := Push(c, v);
        Some(if op in table then Apply(host, pushed, table[op].body)
             else if op == "sto" then Sto(pushed)
             else Rcl(pushed))
    else
      NumeralIffConvertible(token);
      NumeralIffConvertible(NumberPart(table, token));
      if IsNumber(token) then
        match ParseDecimal(token)
        case None => None
        case Some(v) => Some(Ok(Push(c, v)))
      else if token in table then Some(Apply(host, c, table[token].body))
      else Some(Failed(c, InvalidInput(token)))
  }

  /** A bare point passes `isNumber` and ends the process as written, while
      the corrected dispatch reports it as invalid input. */
  lemma PointTokenEndsProcess(host: Host, table: Table, c: Calc)
    requires "." !in table
    ensures ProcessTokenAsWritten(host, table, c, ".").None?
    ensures ProcessToken(host, table, c, ".") == Failed(c, InvalidInput("."))
  {
    PointAcceptedButUnconvertible();
    NumeralIffConvertible(".");
  }

  /** The errors one token reports: its error, if any. */
  function TokenErrors(o: Outcome): seq<Error> {
    if o.error.Some? then [o.error.value] else []
  }

  /** The token sequence as written: `None` once a token ends the process. */
  function RunTokensAsWritten(host: Host, table: Table, c: Calc, tokens: seq<string>): (r: Option<(Calc, seq<Error>)>)
    ensures r.None? <==> exists k | 0 <= k < |tokens| :: EndsProcess(table, tokens[k])
    ensures r.Some? ==> r.value == RunTokens(host, table, c, tokens)
    decreases |tokens|
  {
    if |tokens| == 0 then Some((c, []))
    else
      match ProcessTokenAsWritten(host, table, c, tokens[0])
      case None => None
      case Some(first) =>
        match RunTokensAsWritten(host, table, first.state, tokens[1..])
        case None =>
          var k :| 0 <= k < |tokens[1..]| && EndsProcess(table, tokens[1..][k]);
          assert EndsProcess(table, tokens[k + 1]);
          None
        case Some((final, errors)) =>
          assert forall k | 1 <= k < |tokens| :: tokens[k] == tokens[1..][k - 1];
          Some((final, TokenErrors(first) + errors))
  }

  /** `processStatement` over all tokens of a line: each token acts on the
      state the previous one left; the errors are reported in order. */
  function RunTokens(host: Host, table: Table, c: Calc, tokens: seq<string>): (r: (Calc, seq<Error>))
    ensures ScaleInRange(c) ==> ScaleInRange(r.0)
    ensures (forall k | 0 <= k < |tokens| :: tokens[k] != "scale") ==> r.0.scale == c.scale
    ensures |r.1| <= |tokens|
    decreases |tokens|
  {
    if |tokens| == 0 then (c, [])
    else
      var first := ProcessToken(host, table, c, tokens[0]);
      var (final, errors) := RunTokens(host, table, first.state, tokens[1..]);
      (final, TokenErrors(first) + errors)
  }

  /** The calculator with the zeros at the bottom of its stack removed. */
  function Strip(c: Calc): (r: Calc)
    ensures r.stack == StripBottomZeros(c.stack) && r == c.(stack := r.stack)
  {
    c.(stack := StripBottomZeros(c.stack))
  }

  /** `processLine`: a line of nothing but blanks and tabs duplicates the top
      (if any); any other line runs its tokens. Either way the bottom zeros
      are removed at the end. */
  function ProcessLine(host: Host, table: Table, c: Calc, line: string): (r: (Calc, seq<Error>))
    ensures r.0.stack == [] || r.0.stack[0] != 0.0
    ensures ScaleInRange(c) ==> ScaleInRange(r.0)
  {
    if IsBlankLine(line) then
      (Strip(if |c.stack| == 0 then c else Push(c, Peek(c.stack))), [])
    else
      var (final, errors) := RunTokens(host, table, c, LineTokens(line));
      (Strip(final), errors)
  }

  /** `processLine` as written: `None` once a token of the line ends the
      process; a blank line never does. */
  function ProcessLineAsWritten(host: Host, table: Table, c: Calc, line: string): (r: Option<(Calc, seq<Error>)>)
    ensures r.None? <==> !IsBlankLine(line) && exists k | 0 <= k < |LineTokens(line)| :: EndsProcess(table, LineTokens(line)[k])
    ensures r.Some? ==> r.value == ProcessLine(host, table, c, line)
  {
    if IsBlankLine(line) then
      Some((Strip(if |c.stack| == 0 then c else Push(c, Peek(c.stack))), []))
    else
      match RunTokensAsWritten(host, table, c, LineTokens(line))
      case None => None
      case Some((final, errors)) => Some((Strip(final), errors))
  }

  // ---------------------------------------------------------------------------
  // Properties
  // ---------------------------------------------------------------------------

  /** A registered name that is not a number runs its operator. */
  lemma OperatorTokenApplies(host: Host, table: Table, c: Calc, op: string)
    requires op in table && op != "" && !IsNumeral(op) && !IsSpecialCommand(op)
    ensures ProcessToken(host, table, c, op) == Apply(host, c, table[op].body)
  {
    OperatorNameDoesNotFuse(table, op);
  }

  /** A token that is neither a number, nor a registered name, nor a number
      with a name attached, reports invalid input and changes nothing. */
  lemma UnknownTokenIsReported(host: Host, table: Table, c: Calc, token: string)
    requires token != "" && !IsSpecialCommand(token) && token !in table
    requires !Fuses(table, token) && !IsNumeral(token)
    ensures ProcessToken(host, table, c, token) == Failed(c, InvalidInput(token))
    ensures !IsNumber(token) && !FusesAsWritten(table, token) ==>
              ProcessTokenAsWritten(host, table, c, token) == Some(Failed(c, InvalidInput(token)))
  {
  }

  /** A number with an operator name attached pushes the number and runs the
      operator. */
  lemma FusedTokenApplies(host: Host, table: Table, c: Calc, token: string)
    requires !IsSpecialCommand(token) && Fuses(table, token)
    requires SuffixOperator(table, token) in table
    ensures ProcessToken(host, table, c, token)
         == Apply(host, Push(c, NumeralValue(NumberPart(table, token))), table[SuffixOperator(table, token)].body)
  {
  }

  /** A number with no operator name at its end pushes its value. */
  lemma NumberPushesItsValue(host: Host, table: Table, c: Calc, token: string)
    requires IsNumeral(token) && !Fuses(table, token) && !IsSpecialCommand(token)
    ensures ProcessToken(host, table, c, token) == Ok(Push(c, NumeralValue(token)))
  {
  }

  /** A registered name is the longest candidate its own text ends with, so
      an operator token never splits into a number and an operator. */
  lemma OperatorNameDoesNotFuse(table: Table, op: string)
    requires op in table
    ensures !Fuses(table, op)
  {
    var found := SuffixOperator(table, op);
    assert EndsWith(op, op) by {
      assert op[|op| - |op|..] == op;
    }
    if found != "" {
      assert |op| <= |found|;
    } else {
      assert op == "";
    }
  }

  /** The fusion rule: `<number><operator>` acts as `<number>` followed by
      `<operator>`, when the number carries no operator name of its own and
      the operator is the longest name the token ends with. */
  lemma FusedTokenIsNumberThenOperator(host: Host, table: Table, c: Calc, number: string, op: string)
    requires op in table && op != "" && !IsNumeral(op) && !IsSpecialCommand(op)
    requires IsNumeral(number) && !Fuses(table, number) && !IsSpecialCommand(number)
    requires SuffixOperator(table, number + op) == op
    ensures ProcessToken(host, table, c, number + op)
         == ProcessToken(host, table, ProcessToken(host, table, c, number).state, op)
  {
    var token := number + op;
    MantissaDigitMeansNonEmpty(number);
    assert token[..|token| - |op|] == number;
    assert NumberPart(table, token) == number;
    NumeralIsNotSpecial(number, op);
    NumberPushesItsValue(host, table, c, number);
    var pushed := Push(c, NumeralValue(number));
    FusedTokenApplies(host, table, c, token);
    OperatorTokenApplies(host, table, pushed, op);
  }

  /** A numeral holds a digit, so it is not empty. */
  lemma MantissaDigitMeansNonEmpty(t: string)
    requires IsNumeral(t)
    ensures |t| > 0
  {
    var k :| SignLength(t) <= k < |t| && IsDigit(t[k]) && forall m | SignLength(t) <= m < k :: !IsExponentMark(t[m]);
  }

  /** A numeral followed by anything is not one of the special words, which
      hold no digit. */
  lemma NumeralIsNotSpecial(number: string, op: string)
    requires IsNumeral(number)
    ensures !IsSpecialCommand(number + op)
  {
    var k :| SignLength(number) <= k < |number| && IsDigit(number[k]) && forall m | SignLength(number) <= m < k :: !IsExponentMark(number[m]);
    var t := number + op;
    assert IsDigit(t[k]);
    SpecialCommandsHaveNoDigit(t);
  }

  lemma SpecialCommandsHaveNoDigit(t: string)
    ensures IsSpecialCommand(t) ==> forall i | 0 <= i < |t| :: !IsDigit(t[i])
  {
  }

  /** `sto` followed by pushing the location and `rcl` brings the stored value
      back: the pair leaves the value twice on the stack. */
  lemma StoreThenRecall(host: Host, table: Table, c: Calc, value: real, location: real)
    requires IsWhole(location)
    ensures var stored := ProcessToken(host, table, c.(stack := c.stack + [value, location]), "sto");
            var recalled := ProcessToken(host, table, Push(stored.state, location), "rcl");
            && stored.error.None? && recalled.error.None?
            && recalled.state.stack == c.stack + [value, value]
  {
    var s := c.stack + [value, location];
    assert s[..|s| - 1] == c.stack + [value];
    assert Pop(s) == (location, c.stack + [value]);
    assert Peek(c.stack + [value]) == value;
    var stored := ProcessToken(host, table, c.(stack := s), "sto");
    assert stored == Sto(c.(stack := s));
    assert stored.state.stack == c.stack + [value];
    var t := c.stack + [value, location];
    assert Push(stored.state, location).stack == t;
    assert ProcessToken(host, table, Push(stored.state, location), "rcl") == Rcl(Push(stored.state, location));
    RecallAfterStore(c.memory, Basics.Trunc(location), value, 0);
  }

  /** An error leaves the state as it was once bottom zeros are removed,
      except that a rejected `scale` pushes its value back truncated and an
      operator attached to a number keeps the number. */
  lemma ErrorsChangeNothingVisible(host: Host, table: Table, c: Calc, token: string)
    requires token != "scale" && !Fuses(table, token)
    ensures var r := ProcessToken(host, table, c, token);
            r.error.Some? ==> Strip(r.state) == Strip(c)
  {
    var r := ProcessToken(host, table, c, token);
    if token == "sto" {
      if |c.stack| >= 2 {
        assert Pop(c.stack).1 + [Pop(c.stack).0] == c.stack;
      }
    } else if token == "rcl" {
    } else if token != "" && !IsNumeral(token) && token in table {
      FailureInvisibleAfterStrip(host, c, table[token].body);
    }
  }

  /** The scale stays in 0..15 over a whole line. */
  lemma LineKeepsScaleInRange(host: Host, table: Table, c: Calc, line: string)
    requires ScaleInRange(c)
    ensures ScaleInRange(ProcessLine(host, table, c, line).0)
  {
  }

  /** A blank line duplicates the top, and on an empty stack only shows 0. */
  lemma BlankLineDuplicatesTop(host: Host, table: Table, c: Calc, line: string)
    requires IsBlankLine(line)
    ensures |c.stack| > 0 && c.stack[0] != 0.0 ==>
              ProcessLine(host, table, c, line).0.stack == c.stack + [c.stack[|c.stack| - 1]]
    ensures |c.stack| == 0 ==> ProcessLine(host, table, c, line).0 == c
    ensures ProcessLine(host, table, c, line).1 == []
  {
    if |c.stack| > 0 && c.stack[0] != 0.0 {
      var s := c.stack + [c.stack[|c.stack| - 1]];
      assert s[0] != 0.0;
    }
  }

  /** Splitting a line at `;` and then at white space gives the same state
      as reading its tokens in one pass with `;` as white space. */
  lemma LineIsItsTokens(host: Host, table: Table, c: Calc, line: string)
    requires !IsBlankLine(line)
    ensures ProcessLine(host, table, c, line) ==
      var (final, errors) := RunTokens(host, table, c, Fields(line, TokenBreaks));
      (Strip(final), errors)
  {
    TokensIgnoreStatementBoundaries(line);
  }

  /** The three words are handled by the calculator itself, before any
      other reading of the token, as written too. */
  lemma SpecialTokensRunTheirCommands(host: Host, table: Table, c: Calc)
    ensures ProcessToken(host, table, c, "sto") == Sto(c)
    ensures ProcessToken(host, table, c, "rcl") == Rcl(c)
    ensures ProcessToken(host, table, c, "scale") == Scale(c)
    ensures ProcessTokenAsWritten(host, table, c, "sto") == Some(Sto(c))
    ensures ProcessTokenAsWritten(host, table, c, "rcl") == Some(Rcl(c))
    ensures ProcessTokenAsWritten(host, table, c, "scale") == Some(Scale(c))
  {
  }

  /** One token: the state it leaves, and its error if it reports one. */
  lemma RunSingleToken(host: Host, table: Table, c: Calc, token: string)
    ensures var o := ProcessToken(host, table, c, token);
            RunTokens(host, table, c, [token]) == (o.state, TokenErrors(o))
    ensures RunTokens(host, table, c, [token]).1 == [] <==> ProcessToken(host, table, c, token).error.None?
  {
    var o := ProcessToken(host, table, c, token);
    assert [token][1..] == [];
    assert RunTokens(host, table, o.state, []) == (o.state, []);
    assert TokenErrors(o) + [] == TokenErrors(o);
  }

  /** Tokens read in turn by any reading of one token: the loop of
      `processStatement` with the reading left open. */
  function RunWith(step: (Calc, string) -> Outcome, c: Calc, tokens: seq<string>): (r: (Calc, seq<Error>))
    ensures |r.1| <= |tokens|
    decreases |tokens|
  {
    if |tokens| == 0 then (c, [])
    else
      var first := step(c, tokens[0]);
      var rest := RunWith(step, first.state, tokens[1..]);
      (rest.0, TokenErrors(first) + rest.1)
  }

  /** Running `a + b` is running `a`, then `b` from where `a` left off, with
      the errors of `a` first; this holds for any reading of one token. */
  lemma {:induction false} RunWithAppend(step: (Calc, string) -> Outcome, c: Calc, a: seq<string>, b: seq<string>)
    ensures RunWith(step, c, a + b)
         == (RunWith(step, RunWith(step, c, a).0, b).0, RunWith(step, c, a).1 + RunWith(step, RunWith(step, c, a).0, b).1)
    decreases |a|
  {
    if |a| == 0 {
      assert a + b == b;
      assert RunWith(step, c, a) == (c, []);
      assert [] + RunWith(step, c, b).1 == RunWith(step, c, b).1;
    } else {
      var first := step(c, a[0]);
      assert (a + b)[0] == a[0];
      assert (a + b)[1..] == a[1..] + b;
      RunWithAppend(step, first.state, a[1..], b);
      var rest := RunWith(step, first.state, a[1..]);
      var after := RunWith(step, rest.0, b);
      assert TokenErrors(first) + (rest.1 + after.1) == (TokenErrors(first) + rest.1) + after.1;
    }
  }

  /** `processToken` as a step of the loop. */
  function TokenStep(host: Host, table: Table): (Calc, string) -> Outcome {
    (d: Calc, token: string) => ProcessToken(host, table, d, token)
  }

  /** `RunTokens` is the loop with `processToken` as its step. */
  lemma {:induction false} RunTokensIsRunWith(host: Host, table: Table, c: Calc, tokens: seq<string>)
    ensures RunTokens(host, table, c, tokens) == RunWith(TokenStep(host, table), c, tokens)
    decreases |tokens|
  {
    if |tokens| > 0 {
      var first := ProcessToken(host, table, c, tokens[0]);
      RunTokensIsRunWith(host, table, first.state, tokens[1..]);
    }
  }

  /** Running `a + b` is running `a`, then `b` on the state `a` leaves; the
      errors of `a` are reported before those of `b`. */
  lemma RunTokensAppend(host: Host, table: Table, c: Calc, a: seq<string>, b: seq<string>)
    ensures RunTokens(host, table, c, a + b)
         == (RunTokens(host, table, RunTokens(host, table, c, a).0, b).0,
             RunTokens(host, table, c, a).1 + RunTokens(host, table, RunTokens(host, table, c, a).0, b).1)
  {
    var middle := RunTokens(host, table, c, a).0;
    RunTokensIsRunWith(host, table, c, a + b);
    RunTokensIsRunWith(host, table, c, a);
    RunTokensIsRunWith(host, table, middle, b);
    RunWithAppend(TokenStep(host, table), c, a, b);
  }

  /** A line whose tokens are `a + b` reports the errors of `a`, then those
      of `b`, and leaves the state `b` leaves after `a`. */
  lemma LineRunsTokensInOrder(host: Host, table: Table, c: Calc, line: string, a: seq<string>, b: seq<string>)
    requires !IsBlankLine(line) && LineTokens(line) == a + b
    ensures var middle := RunTokens(host, table, c, a);
            var final := RunTokens(host, table, middle.0, b);
            ProcessLine(host, table, c, line) == (Strip(final.0), middle.1 + final.1)
  {
    RunTokensAppend(host, table, c, a, b);
  }

  // ---------------------------------------------------------------------------
  // Tokens read with the registry built at start-up
  // ---------------------------------------------------------------------------

  /** `1e+` is not read as an unfinished exponent: it ends with the operator
      `+`, and `1e` passes the number test and converts to 1, so the token
      pushes 1 and adds. */
  lemma ExponentMarkBeforeOperator(host: Host, table: Table, c: Calc, token: string)
    requires IsInitialRegistry(table) && token == "1e+"
    ensures ProcessToken(host, table, c, token) == Apply(host, Push(c, 1.0), BinaryBody(Add))
  {
    OneEPlusEndsWithPlus(table);
    OnePlusAdds(host, table, c, token);
  }

  lemma OnePlusAdds(host: Host, table: Table, c: Calc, token: string)
    requires SuffixOperator(table, "1e+") == "+" && "+" in table && table["+"].body == BinaryBody(Add)
    requires token == "1e+"
    ensures ProcessToken(host, table, c, token) == Apply(host, Push(c, 1.0), BinaryBody(Add))
  {
    OneEIsOne();
    assert token == "1e" + "+";
    NumberWithOperator(host, table, c, "1e", "+");
  }

  /** A token made of a number and the longest name it ends with pushes the
      number's value and runs the operator. */
  lemma NumberWithOperator(host: Host, table: Table, c: Calc, number: string, op: string)
    requires IsNumeral(number) && op in table && op != "" && SuffixOperator(table, number + op) == op
    ensures ProcessToken(host, table, c, number + op)
         == Apply(host, Push(c, NumeralValue(number)), table[op].body)
  {
    var token := number + op;
    MantissaDigitMeansNonEmpty(number);
    assert token[..|token| - |op|] == number;
    NumeralIsNotSpecial(number, op);
    FusedTokenApplies(host, table, c, token);
  }

  /** The longest name `1e+` ends with is `+`. */
  lemma OneEPlusEndsWithPlus(table: Table)
    requires IsInitialRegistry(table)
    ensures SuffixOperator(table, "1e+") == "+"
    ensures "+" in table && table["+"].body == BinaryBody(Add)
  {
    OneEPlusIsNotFiled();
    EPlusIsNotFiled();
    Unregistered(table, "1e+");
    Unregistered(table, "e+");
    PlusIsAdd(table);
    LongestSuffixOfOneEPlus(table);
  }

  lemma PlusIsAdd(table: Table)
    requires IsInitialRegistry(table)
    ensures "+" in table && table["+"].body == BinaryBody(Add)
  {
    InitialLookup(table, "+");
  }

  lemma LongestSuffixOfOneEPlus(table: Table)
    requires "1e+" !in table && "e+" !in table && "+" in table
    ensures SuffixOperator(table, "1e+") == "+"
  {
    assert "1e+"[3 - 3..] == "1e+" && "1e+"[3 - 2..] == "e+" && "1e+"[3 - 1..] == "+";
  }

  /** A name the register functions do not file is not in the table. */
  lemma Unregistered(table: Table, name: string)
    requires IsInitialRegistry(table) && RegisteredOperator(name).None?
    ensures name !in table
  {
    InitialLookup(table, name);
  }

  /** `1e` passes the number test and converts to 1. */
  lemma OneEIsOne()
    ensures IsNumeral("1e") && NumeralValue("1e") == 1.0
  {
    var t := "1e";
    LoneMarksAccepted();
    assert IsDigit(t[0]);
    assert MantissaHasDigit(t);
    assert SignLength(t) == 0;
    assert DigitRunEnd(t, 1) == 1 && DigitRunEnd(t, 0) == 1 && DigitRunEnd(t, 2) == 2;
    assert ExponentValue(t, 1) == 0;
    assert t[0..1] == "1" && t[1..1] == "";
    assert DigitsValue("1") == 1;
    WholeMagnitude("1");
  }

  /** `1e` passes the number test, yet it is not read as the number 1: it
      ends with the constant `e`, so it pushes 1 and then e. */
  lemma ExponentMarkIsConstantE(host: Host, table: Table, c: Calc, token: string)
    requires IsInitialRegistry(table) && token == "1e"
    ensures IsNumeral(token) && NumeralValue(token) == 1.0
    ensures ProcessToken(host, table, c, token) == Apply(host, Push(c, 1.0), NullaryBody(PushE))
  {
    OneEIsNotFiled();
    Unregistered(table, "1e");
    ConstantEIsRegistered(table);
    OneEAddsE(host, table, c, token);
  }

  lemma ConstantEIsRegistered(table: Table)
    requires IsInitialRegistry(table)
    ensures "e" in table && table["e"].body == NullaryBody(PushE)
  {
    InitialLookup(table, "e");
    ConstantEIsFiled();
  }

  lemma OneEAddsE(host: Host, table: Table, c: Calc, token: string)
    requires "1e" !in table && "e" in table && table["e"].body == NullaryBody(PushE)
    requires token == "1e"
    ensures IsNumeral(token) && NumeralValue(token) == 1.0
    ensures ProcessToken(host, table, c, token) == Apply(host, Push(c, 1.0), NullaryBody(PushE))
  {
    OneEIsOne();
    LongestSuffixOfOneE(table);
    assert "1" + "e" == token;
    OneIsOne();
    NumberWithOperator(host, table, c, "1", "e");
  }

  lemma LongestSuffixOfOneE(table: Table)
    requires "1e" !in table && "e" in table
    ensures SuffixOperator(table, "1e") == "e"
  {
    assert "1e"[2 - 2..] == "1e" && "1e"[2 - 1..] == "e";
  }

  lemma OneIsOne()
    ensures IsNumeral("1") && NumeralValue("1") == 1.0
  {
  }

  /** A number with `sto` attached pushes the number and stores: the number
      is the location, the value below it is stored. */
  lemma NumberWithStore(host: Host, table: Table, c: Calc, number: string)
    requires IsNumeral(number) && "sto" !in table && SuffixOperator(table, number + "sto") == "sto"
    ensures ProcessToken(host, table, c, number + "sto") == Sto(Push(c, NumeralValue(number)))
  {
    var token := number + "sto";
    MantissaDigitMeansNonEmpty(number);
    assert token[..|token| - 3] == number;
    NumeralIsNotSpecial(number, "sto");
  }

  /** A number with `rcl` attached pushes the number and recalls from it. */
  lemma NumberWithRecall(host: Host, table: Table, c: Calc, number: string)
    requires IsNumeral(number) && "rcl" !in table && "sto" !in table
    requires SuffixOperator(table, number + "rcl") == "rcl"
    ensures ProcessToken(host, table, c, number + "rcl") == Rcl(Push(c, NumeralValue(number)))
  {
    var token := number + "rcl";
    MantissaDigitMeansNonEmpty(number);
    assert token[..|token| - 3] == number;
    NumeralIsNotSpecial(number, "rcl");
  }

  /** `5sto` stores the value under the top at location 5. */
  lemma StoreAtFive(host: Host, table: Table, c: Calc, token: string)
    requires IsInitialRegistry(table) && token == "5sto"
    ensures ProcessToken(host, table, c, token) == Sto(Push(c, 5.0))
  {
    FiveStoIsNotFiled();
    Unregistered(table, "5sto");
    SpecialCommandsAreNotOperators(table, "sto");
    FiveStoStores(host, table, c, token);
  }

  lemma FiveStoStores(host: Host, table: Table, c: Calc, token: string)
    requires "5sto" !in table && "sto" !in table && token == "5sto"
    ensures ProcessToken(host, table, c, token) == Sto(Push(c, 5.0))
  {
    LongestSuffixOfFiveSto(table);
    assert "5" + "sto" == token;
    FiveIsFive();
    NumberWithStore(host, table, c, "5");
  }

  lemma LongestSuffixOfFiveSto(table: Table)
    requires "5sto" !in table
    ensures SuffixOperator(table, "5sto") == "sto"
  {
    assert "5sto"[4 - 4..] == "5sto" && "5sto"[4 - 3..] == "sto";
  }

  lemma FiveIsFive()
    ensures IsNumeral("5") && NumeralValue("5") == 5.0
  {
  }
}

=== FILE: legacy_containers.dfy ===
/** `VectorWrapper`, the stack of the older calculator: a vector whose last
    element is the top (`x`), where popping or looking at an empty vector
    yields 0. */
module LegacyWrapper {

  datatype Wrapper = Wrapper(vec: seq<real>)

  /** `push_back`: the value becomes the new top. */
  function PushBack(w: Wrapper, value: real): (r: Wrapper)
    ensures |r.vec| == |w.vec| + 1 && r.vec[..|w.vec|] == w.vec && Look(r) == value
  {
    Wrapper(w.vec + [value])
  }

  /** `clear` */
  function Clear(w: Wrapper): (r: Wrapper)
    ensures |r.vec| == 0 && Look(r) == 0.0
  {
    Wrapper([])
  }

  /** `pop`: the top and the vector without it, or 0 and the unchanged empty
      vector. */
  function Pop(w: Wrapper): (r: (real, Wrapper))
    ensures |w.vec| == 0 ==> r == (0.0, w)
    ensures |w.vec| > 0 ==> r.1.vec + [r.0] == w.vec
  {
    if |w.vec| == 0 then (0.0, w) else (w.vec[|w.vec| - 1], Wrapper(w.vec[..|w.vec| - 1]))
  }

  /** `look`: the top, or 0 on an empty vector; nothing is removed. */
  function Look(w: Wrapper): (r: real)
    ensures r == Pop(w).0
  {
    if |w.vec| == 0 then 0.0 else w.vec[|w.vec| - 1]
  }

  /** Popping what was just pushed gives it back and restores the vector. */
  lemma PopUndoesPushBack(w: Wrapper, value: real)
    ensures Pop(PushBack(w, value)) == (value, w)
  {
    assert (w.vec + [value])[..|w.vec|] == w.vec;
  }

  /** `print`: one line per element, bottom first, each labelled with its
      distance from the top, so that the top is labelled 0 and the bottom
      `size - 1`. */
  method Print(w: Wrapper) returns (lines: seq<(int, real)>)
    ensures |lines| == |w.vec|
    ensures forall k | 0 <= k < |lines| :: lines[k] == (|w.vec| - 1 - k, w.vec[k])
    ensures |w.vec| > 0 ==> lines[|lines| - 1] == (0, Look(w)) && lines[0].0 == |w.vec| - 1
  {
    var size := |w.vec|;
    lines := [];
    var i := size - 1;
    while i >= 0
      invariant -1 <= i < size
      invariant |lines| == size - 1 - i
      invariant forall k | 0 <= k < |lines| :: lines[k] == (size - 1 - k, w.vec[k])
    {
      lines := lines + [(i, w.vec[size - i - 1])];
      i := i - 1;
    }
  }
}

/** `DoubleVector`, the stack of the unit conversions: the same top-at-end
    vector, with accessors for the first three values from the top. */
module LegacyVector {
  import ValueStack
  import LegacyWrapper

  datatype DoubleVector = DoubleVector(vec: seq<real>)

  /** The range of the C++ `int` parameter of `at`. */
  newtype Int32 = n: int | -0x8000_0000 <= n < 0x8000_0000

  /** The most elements a `std::vector<double>` can hold on a 64-bit
      platform (`max_size`); no vector is longer. */
  const MaxElements: nat := 0x0FFF_FFFF_FFFF_FFFF

  /** `x`: the top, or 0 on an empty vector. The two legacy classes each
      define this accessor (`look` in `VectorWrapper`), so it is modelled
      twice on purpose; `SameTopAsWrapper` shows the two agree. */
  function X(v: DoubleVector): (r: real)
    ensures r == Pop(v).0
  {
    if |v.vec| == 0 then 0.0 else v.vec[|v.vec| - 1]
  }

  /** `y`: the value under the top, or 0 with fewer than two values. */
  function Y(v: DoubleVector): (r: real)
    ensures r == X(Pop(v).1)
  {
    if |v.vec| < 2 then 0.0 else v.vec[|v.vec| - 2]
  }

  /** `z`: the third value from the top, or 0 with fewer than three values. */
  function Z(v: DoubleVector): (r: real)
    ensures r == Y(Pop(v).1)
  {
    if |v.vec| < 3 then 0.0 else v.vec[|v.vec| - 3]
  }

  /** `push` */
  function Push(v: DoubleVector, value: real): (r: DoubleVector)
    ensures X(r) == value && Pop(r).1 == v
  {
    assert (v.vec + [value])[..|v.vec|] == v.vec;
    DoubleVector(v.vec + [value])
  }

  /** `pop`: the top and the vector without it, or 0 and the unchanged empty
      vector. */
  function Pop(v: DoubleVector): (r: (real, DoubleVector))
    ensures |v.vec| == 0 ==> r == (0.0, v)
    ensures |v.vec| > 0 ==> r.1.vec + [r.0] == v.vec
  {
    if |v.vec| == 0 then (0.0, v)
    else (v.vec[|v.vec| - 1], DoubleVector(v.vec[..|v.vec| - 1]))
  }

  /** Both legacy vectors read and pop the top the same way: `x` is
      `look`, and `pop` returns the same value and remaining values. */
  lemma SameTopAsWrapper(v: DoubleVector)
    ensures X(v) == LegacyWrapper.Look(LegacyWrapper.Wrapper(v.vec))
    ensures Pop(v).0 == LegacyWrapper.Pop(LegacyWrapper.Wrapper(v.vec)).0
    ensures Pop(v).1.vec == LegacyWrapper.Pop(LegacyWrapper.Wrapper(v.vec)).1.vec
  {
  }

  /** `size` */
  function Size(v: DoubleVector): (r: nat)
    decreases |v.vec|
    ensures r == 0 <==> v.vec == []
    ensures r > 0 ==> r == Size(Pop(v).1) + 1
  {
    |v.vec|
  }

  /** The value an `int` takes when compared with an `unsigned long`: modulo
      2^64, so a negative index becomes a huge one. */
  function Unsigned(n: Int32): (r: nat)
    ensures n >= 0 ==> r == n as int
    ensures n < 0 ==> r >= 0x1_0000_0000_0000_0000 - 0x8000_0000
  {
    (n as int) % 0x1_0000_0000_0000_0000
  }

  /** `at(n)`: the value `n` places below the top, or 0 when the vector is
      not longer than `n` (in the unsigned comparison the source makes). */
  function At(v: DoubleVector, n: Int32): (r: real)
    requires |v.vec| <= MaxElements
    ensures 0 <= n as int < |v.vec| ==> r == v.vec[|v.vec| - 1 - n as int]
    ensures |v.vec| <= n as int ==> r == 0.0
    ensures n < 0 ==> r == 0.0
  {
    if |v.vec| > Unsigned(n) then v.vec[|v.vec| - (n as int + 1)] else 0.0
  }

  /** `at(0)`, `at(1)` and `at(2)` are `x`, `y` and `z`, and `at(n + 1)` looks
      past the top to what lies below it. */
  lemma AtCountsFromTop(v: DoubleVector, n: Int32)
    requires |v.vec| <= MaxElements && 0 <= n < 0x7FFF_FFFF
    ensures At(v, 0) == X(v) && At(v, 1) == Y(v) && At(v, 2) == Z(v)
    ensures At(v, n + 1) == At(Pop(v).1, n)
  {
  }

  /** `removeLeadingZeros`: erases the first element while it is 0. The first
      element is the bottom of the stack, so this removes the zeros at the
      bottom and keeps everything above them in order. */
  method RemoveLeadingZeros(v: DoubleVector) returns (r: DoubleVector)
    ensures r.vec == ValueStack.StripBottomZeros(v.vec)
  {
    var vec := v.vec;
    while |vec| > 0 && vec[0] == 0.0
      invariant ValueStack.StripBottomZeros(vec) == ValueStack.StripBottomZeros(v.vec)
    {
      vec := vec[1..];
    }
    r := DoubleVector(vec);
  }
}

=== FILE: legacy_functions.dfy ===
/** The functions of the older calculator (`rpn/functions.cpp`). Each pops its
    operands from the `VectorWrapper`, reading a missing operand as 0, and
    pushes its result; only `sto` touches the run state. */
module LegacyFunctions {
  import opened Basics
  import opened MathHost
  import opened LegacyWrapper
  import Angles
  import Rounding
  import ValueStack

  /** `MEMORY_SIZE` */
  const MemorySize: nat := 100

  /** `memory[MEMORY_SIZE]`: slots 0 to 99. */
  type Memory = m: seq<real> | |m| == MemorySize witness seq(MemorySize, _ => 0.0)

  /** The run state: the angle unit (0 degrees, 1 radians, anything else
      gradians), the two display flags, the end-of-input flag and the memory. */
  datatype State = State(drg: int, verbose: bool, interactive: bool, eof: bool, memory: Memory)

  /** `State runState = {0}`: every field zero. */
  function InitialState(): (s: State)
    ensures s.drg == 0 && !s.verbose && !s.interactive && !s.eof
    ensures forall k | 0 <= k < MemorySize :: s.memory[k] == 0.0
  {
    State(0, false, false, false, seq(MemorySize, _ => 0.0))
  }

  /** The functions of the dispatch table. `Copy`, `DmsToDeg`, `DegToDms` and
      `Lerp` are named there but defined outside the files modelled. */
  datatype Func =
    | BinaryFunc(b: BinaryOp) | UnaryFunc(u: UnaryOp)
    | Sum | PopTop | Swap | PiConst | EConst | StoreMem | RecallMem
    | Copy | DmsToDeg | DegToDms | Lerp

  /** The functions that pop two values and push one. */
  datatype BinaryOp = Add | Subtract | Multiply | Divide | Power | Root | Modulo | ArcTan2

  /** The functions that pop one value and push one. */
  datatype UnaryOp = Log | Log10 | TenToX | EToX | Reciprocal | Chs | Sin | ArcSin | Cos | ArcCos | Tan | ArcTan

  predicate DefinedElsewhere(f: Func) {
    f.Copy? || f.DmsToDeg? || f.DegToDms? || f.Lerp?
  }

  /** What a function defined outside the modelled files does to the stack
      and the state. */
  type Unseen = (Func, Wrapper, State) -> (Wrapper, State)

  // ---------------------------------------------------------------------------
  // Conversions and tests
  // ---------------------------------------------------------------------------

  /** `drgConversion`: the factor from the current unit to radians. The
      gradian factor is the literal 0.01570796, which falls just short of
      pi / 200. */
  function DrgConversion(state: State): (r: real)
    ensures r > 0.0
    ensures state.drg == 0 ==> r * 180.0 == Angles.Pi
    ensures state.drg == 1 ==> r == 1.0
    ensures state.drg != 0 && state.drg != 1 ==> 0.0 < Angles.Pi / 200.0 - r < 0.00000001
  {
    if state.drg == 0 then Angles.Pi / 180.0
    else if state.drg == 1 then 1.0
    else 0.01570796
  }

  /** `isInteger`: the number equals its conversion to `int`, which truncates
      toward zero. */
  predicate IsInteger(number: real) {
    number == Trunc(number) as real
  }

  /** The truncation test and the floor test agree: a number equals its
      truncation exactly when it has no fractional part. */
  lemma IsIntegerIffWhole(number: real)
    ensures IsInteger(number) <==> IsWhole(number)
  {
    if number < 0.0 && IsWhole(number) {
      assert (-number).Floor == -number.Floor;
    }
    if number < 0.0 && IsInteger(number) {
      assert number.Floor == Trunc(number);
    }
  }

  /** `std::numeric_limits<double>::epsilon()`, 2^-52. */
  const Epsilon: real := 1.0 / 4503599627370496.0

  // ---------------------------------------------------------------------------
  // Shapes of the stack effects
  // ---------------------------------------------------------------------------

  /** Pops one operand (0 if missing) and pushes `f` of it. */
  function Unary(w: Wrapper, f: real -> real): (r: Wrapper)
    ensures |r.vec| == if |w.vec| == 0 then 1 else |w.vec|
    ensures r.vec[..|r.vec| - 1] == Pop(w).1.vec
    ensures Look(r) == f(Look(w))
  {
    var (x, rest) := Pop(w);
    PushBack(rest, f(x))
  }

  /** Pops `x`, the top, then `y`, the value below it (each 0 if missing),
      and pushes `f(y, x)`. */
  function Binary(w: Wrapper, f: (real, real) -> real): (r: Wrapper)
    ensures |r.vec| == if |w.vec| < 2 then 1 else |w.vec| - 1
    ensures r.vec[..|r.vec| - 1] == Pop(Pop(w).1).1.vec
    ensures Look(r) == f(Look(Pop(w).1), Look(w))
  {
    var (x, afterX) := Pop(w);
    var (y, rest) := Pop(afterX);
    PushBack(rest, f(y, x))
  }

  /** IEEE division: a quotient, or the infinity or NaN a zero divisor gives. */
  function IeeeDivide(host: Host, y: real, x: real): (r: real)
    ensures x != 0.0 ==> r * x == y
  {
    if x == 0.0 then host.divideByZero(y) else y / x
  }

  /** `std::fmod`, or the NaN a zero divisor gives. */
  function IeeeFmod(host: Host, y: real, x: real): (r: real)
    ensures x != 0.0 ==> r == Rounding.Fmod(y, x)
  {
    if x == 0.0 then host.fmodByZero(y) else Rounding.Fmod(y, x)
  }

  // ---------------------------------------------------------------------------
  // The functions
  // ---------------------------------------------------------------------------

  /** The result of a binary function, `y` being the value below the top
      and `x` the top: `funcAdd` to `funcModulo` and `funcArcTan2`. */
  function BinaryValue(host: Host, op: BinaryOp, state: State, y: real, x: real): (r: real)
    ensures op == Add ==> r - x == y
    ensures op == Subtract ==> r + x == y
    ensures op == Divide && x != 0.0 ==> r * x == y
    ensures op == Modulo && x != 0.0 ==> -Rounding.AbsR(x) < r < Rounding.AbsR(x)
    ensures op == ArcTan2 ==> r * DrgConversion(state) == host.atan2(y, x)
    ensures op == Multiply ==> r == y * x
    ensures op == Divide ==> r == IeeeDivide(host, y, x)
    ensures op == Power ==> r == host.pow(y, x)
    ensures op == Root && x != 0.0 ==> r == host.pow(y, 1.0 / x)
    ensures op == Root && x == 0.0 ==> r == host.pow(y, host.divideByZero(1.0))
    ensures op == Modulo ==> r == IeeeFmod(host, y, x)
  {
    match op
    case Add => y + x
    case Subtract => y - x
    case Multiply => y * x
    case Divide => IeeeDivide(host, y, x)
    case Power => host.pow(y, x)
    case Root => host.pow(y, IeeeDivide(host, 1.0, x))
    case Modulo =>
      if x == 0.0 then IeeeFmod(host, y, x)
      else
        Rounding.FmodSignAndSize(y, x);
        IeeeFmod(host, y, x)
    case ArcTan2 => host.atan2(y, x) / DrgConversion(state)
  }

  /** The trigonometric functions, whose angles are converted with
      `drgConversion`. */
  predicate IsAngular(op: UnaryOp) {
    op in {Sin, ArcSin, Cos, ArcCos, Tan, ArcTan}
  }

  /** The result of a unary function of the top `x`: `funcLog10` to
      `funcArcTan`. Angles are converted with `drgConversion`; a cosine
      smaller than machine epsilon in size is shown as 0, and the tangent of
      exactly a quarter turn pushes 0. */
  function UnaryValue(host: Host, op: UnaryOp, state: State, x: real): (r: real)
    ensures op == Chs ==> r + x == 0.0
    ensures op == Reciprocal && x != 0.0 ==> r * x == 1.0
    ensures op == Sin ==> r == host.sin(x * DrgConversion(state))
    ensures op == Cos ==> r == 0.0 || r == host.cos(x * DrgConversion(state))
    ensures op == Tan && x * DrgConversion(state) == Angles.Pi / 2.0 ==> r == 0.0
    ensures op in {ArcSin, ArcCos, ArcTan} ==>
              r * DrgConversion(state) == (if op == ArcSin then host.asin(x) else if op == ArcCos then host.acos(x) else host.atan(x))
    ensures op == Log ==> r == host.ln(x)
    ensures op == Log10 ==> r == host.log10(x)
    ensures op == TenToX ==> r == host.pow(10.0, x)
    ensures op == EToX ==> r == host.pow(Angles.E, x)
    ensures op == Reciprocal && x == 0.0 ==> r == host.divideByZero(1.0)
    ensures op == Cos ==> r == CosOrZero(host.cos(x * DrgConversion(state)))
    ensures op == Tan && x * DrgConversion(state) != Angles.Pi / 2.0 ==> r == host.tan(x * DrgConversion(state))
  {
    if IsAngular(op) then AngularValue(host, op, state, x) else ArithmeticValue(host, op, x)
  }

  /** `funcLog10` to `funcChs`: no angle unit is involved. */
  function ArithmeticValue(host: Host, op: UnaryOp, x: real): (r: real)
    requires !IsAngular(op)
    ensures op == Chs ==> r + x == 0.0
    ensures op == Reciprocal && x != 0.0 ==> r * x == 1.0
    ensures op == Reciprocal && x == 0.0 ==> r == host.divideByZero(1.0)
    ensures op == Log ==> r == host.ln(x)
    ensures op == Log10 ==> r == host.log10(x)
    ensures op == TenToX ==> r == host.pow(10.0, x)
    ensures op == EToX ==> r == host.pow(Angles.E, x)
  {
    match op
    case Log => host.ln(x)
    case Log10 => host.log10(x)
    case TenToX => host.pow(10.0, x)
    case EToX => host.pow(Angles.E, x)
    case Reciprocal => IeeeDivide(host, 1.0, x)
    case Chs => x * -1.0
  }

  /** `funcSin` to `funcArcTan`: the argument of the direct functions is
      scaled into radians, and the result of the inverse ones out of them. */
  function AngularValue(host: Host, op: UnaryOp, state: State, x: real): (r: real)
    requires IsAngular(op)
    ensures op == Sin ==> r == host.sin(x * DrgConversion(state))
    ensures op == Cos ==> r == CosOrZero(host.cos(x * DrgConversion(state)))
    ensures op == Cos ==> r == 0.0 || r == host.cos(x * DrgConversion(state))
    ensures op == Tan && x * DrgConversion(state) == Angles.Pi / 2.0 ==> r == 0.0
    ensures op == Tan && x * DrgConversion(state) != Angles.Pi / 2.0 ==> r == host.tan(x * DrgConversion(state))
    ensures op in {ArcSin, ArcCos, ArcTan} ==>
              r * DrgConversion(state) == (if op == ArcSin then host.asin(x) else if op == ArcCos then host.acos(x) else host.atan(x))
  {
    var k := DrgConversion(state);
    match op
    case Sin => host.sin(x * k)
    case ArcSin => host.asin(x) / k
    case Cos => CosOrZero(host.cos(x * k))
    case ArcCos => host.acos(x) / k
    case Tan => if x * k == Angles.Pi / 2.0 then 0.0 else host.tan(x * k)
    case ArcTan => host.atan(x) / k
  }

  /** A binary function applied to the stack. */
  function ApplyBinary(host: Host, op: BinaryOp, w: Wrapper, state: State): (r: Wrapper)
    ensures |r.vec| == (if |w.vec| < 2 then 1 else |w.vec| - 1)
    ensures r.vec[..|r.vec| - 1] == Pop(Pop(w).1).1.vec
    ensures Look(r) == BinaryValue(host, op, state, Look(Pop(w).1), Look(w))
  {
    Binary(w, (y, x) => BinaryValue(host, op, state, y, x))
  }

  /** A unary function applied to the stack. */
  function ApplyUnary(host: Host, op: UnaryOp, w: Wrapper, state: State): (r: Wrapper)
    ensures |r.vec| == (if |w.vec| == 0 then 1 else |w.vec|)
    ensures r.vec[..|r.vec| - 1] == Pop(w).1.vec
    ensures Look(r) == UnaryValue(host, op, state, Look(w))
  {
    Unary(w, x => UnaryValue(host, op, state, x))
  }

  /** The epsilon test of `funcCos`. */
  function CosOrZero(result: real): (r: real)
    ensures r == 0.0 || r == result
    ensures r == 0.0 <==> -Epsilon < result < Epsilon
  {
    if -Epsilon < result < Epsilon then 0.0 else result
  }

  /** `funcSum`: pops every value, adding it to a running total, and pushes
      the total. */
  function SumAll(w: Wrapper): (r: Wrapper)
    ensures r.vec == [ValueStack.SumOf(w.vec)]
  {
    Wrapper([ValueStack.SumFromTop(w.vec, 0.0)])
  }

  /** `funcSwap`: pops `x` then `y` (each 0 if missing) and pushes `x` then
      `y`, so `y` ends on top. */
  function SwapTop(w: Wrapper): (r: Wrapper)
    ensures |w.vec| >= 2 ==> |r.vec| == |w.vec| && r.vec[..|w.vec| - 2] == w.vec[..|w.vec| - 2]
    ensures |w.vec| < 2 ==> |r.vec| == 2
    ensures Look(r) == Look(Pop(w).1) && Look(Pop(r).1) == Look(w)
  {
    var (x, afterX) := Pop(w);
    var (y, rest) := Pop(afterX);
    var below := PushBack(rest, x);
    PopUndoesPushBack(below, y);
    PopUndoesPushBack(rest, x);
    assert |w.vec| >= 2 ==> rest.vec == w.vec[..|w.vec| - 2];
    PushBack(below, y)
  }

  // ---------------------------------------------------------------------------
  // Memory
  // ---------------------------------------------------------------------------

  /** The slot test of `funcStore` and `funcRecall` as written: a whole
      number no greater than 9. Nothing bounds it from below. */
  predicate SlotCheckAsWritten(slot: real) {
    IsInteger(slot) && slot <= 9.0
  }

  /** The evidently intended test, matching the message "Memory must be an
      integer from 0 through 9". */
  predicate ValidSlot(slot: real) {
    IsInteger(slot) && 0.0 <= slot <= 9.0
  }

  /** A valid slot is an index into the memory. */
  lemma ValidSlotIndexesMemory(slot: real)
    requires ValidSlot(slot)
    ensures 0 <= Trunc(slot) <= 9 < MemorySize
  {
  }

  /** `funcStore` as written: pops the slot and the value, writes the value
      at the slot if it passes the check, and pushes the value back. A slot
      that passes the check but lies outside the memory writes out of bounds,
      which has no defined result (`None`). */
  function StoreAsWritten(w: Wrapper, state: State): (r: Option<(Wrapper, State)>)
    ensures r.None? <==> SlotCheckAsWritten(Look(w)) && Trunc(Look(w)) < 0
    ensures r.Some? ==> r.value == Store(w, state)
  {
    var (slot, afterSlot) := Pop(w);
    var (value, rest) := Pop(afterSlot);
    assert slot == Look(w) && value == Look(Pop(w).1);
    if SlotCheckAsWritten(slot) then
      var i := Trunc(slot);
      if 0 <= i < MemorySize then
        assert ValidSlot(slot);
        Some((KeepValue(w), state.(memory := state.memory[i := value])))
      else None
    else
      assert !ValidSlot(slot);
      Some((KeepValue(w), state))
  }

  /** A negative slot passes the check and writes before the start of the
      memory, `5 -1 sto`, or reads there, `-1 rcl`. */
  lemma NegativeSlotPassesCheck(state: State)
    ensures SlotCheckAsWritten(-1.0) && !ValidSlot(-1.0)
    ensures StoreAsWritten(Wrapper([5.0, -1.0]), state).None?
    ensures RecallAsWritten(Wrapper([-1.0]), state).None?
  {
    assert Trunc(-1.0) == -1;
  }

  /** `funcStore` with the slot test it evidently intends: the stack loses
      only the slot, and a valid slot receives the value. */
  function Store(w: Wrapper, state: State): (r: (Wrapper, State))
    ensures Pop(r.0) == Pop(Pop(w).1)
    ensures |w.vec| >= 2 ==> r.0.vec == w.vec[..|w.vec| - 1]
    ensures ValidSlot(Look(w)) ==> r.1 == state.(memory := state.memory[Trunc(Look(w)) := Look(Pop(w).1)])
    ensures !ValidSlot(Look(w)) ==> r.1 == state
  {
    var (slot, afterSlot) := Pop(w);
    var (value, rest) := Pop(afterSlot);
    (KeepValue(w), if ValidSlot(slot) then state.(memory := state.memory[Trunc(slot) := value]) else state)
  }

  /** The stack after `funcStore`: the slot is gone and the value, popped and
      pushed back, is on top again. */
  function KeepValue(w: Wrapper): (r: Wrapper)
    ensures Pop(r) == Pop(Pop(w).1)
    ensures |w.vec| >= 2 ==> r.vec == w.vec[..|w.vec| - 1]
  {
    var (value, rest) := Pop(Pop(w).1);
    PopUndoesPushBack(rest, value);
    PushBack(rest, value)
  }

  /** The written and the corrected `sto` and `rcl` agree on every slot that
      is not a negative whole number. */
  lemma SlotTestsAgreeExceptNegative(w: Wrapper, state: State)
    requires !(IsInteger(Look(w)) && Look(w) < 0.0)
    ensures StoreAsWritten(w, state) == Some(Store(w, state))
    ensures RecallAsWritten(w, state) == Some(Recall(w, state))
  {
  }

  /** `funcRecall` with the corrected slot test: pops the slot and pushes the
      value stored there; an invalid slot is only removed. */
  function Recall(w: Wrapper, state: State): (r: Wrapper)
    ensures ValidSlot(Look(w)) ==> r == PushBack(Pop(w).1, state.memory[Trunc(Look(w))])
    ensures !ValidSlot(Look(w)) ==> r == Pop(w).1
  {
    var (slot, rest) := Pop(w);
    if ValidSlot(slot) then PushBack(rest, state.memory[Trunc(slot)]) else rest
  }

  /** `funcRecall` as written: pops the slot and, when it passes the check,
      pushes what the memory holds there. A slot that passes the check but
      lies outside the memory reads out of bounds, which has no defined
      result (`None`). */
  function RecallAsWritten(w: Wrapper, state: State): (r: Option<Wrapper>)
    ensures r.None? <==> SlotCheckAsWritten(Look(w)) && Trunc(Look(w)) < 0
    ensures r.Some? ==> r.value == Recall(w, state)
  {
    var (slot, rest) := Pop(w);
    if SlotCheckAsWritten(slot) then
      var i := Trunc(slot);
      if 0 <= i < MemorySize then Some(PushBack(rest, state.memory[i])) else None
    else Some(rest)
  }

  /** `value slot sto slot rcl` leaves the value twice on the stack. */
  lemma RecallAfterStore(w: Wrapper, state: State, value: real, slot: real)
    requires ValidSlot(slot)
    ensures var (stored, after) := Store(PushBack(PushBack(w, value), slot), state);
            Recall(PushBack(stored, slot), after).vec == w.vec + [value, value]
  {
    var s := PushBack(PushBack(w, value), slot);
    PopUndoesPushBack(PushBack(w, value), slot);
    PopUndoesPushBack(w, value);
    var (stored, after) := Store(s, state);
    assert stored == PushBack(w, value);
    PopUndoesPushBack(stored, slot);
  }

  // ---------------------------------------------------------------------------
  // Dispatch
  // ---------------------------------------------------------------------------

  /** Runs one function of the table on the stack and the state; a function
      defined outside the modelled files does what `unseen` says. Only `sto`
      and those functions can change the state. */
  function Run(host: Host, unseen: Unseen, f: Func, w: Wrapper, state: State): (r: (Wrapper, State))
    ensures !DefinedElsewhere(f) && !f.StoreMem? ==> r.1 == state
    ensures f.PiConst? ==> Pop(r.0) == (Angles.Pi, w)
    ensures f.EConst? ==> Pop(r.0) == (Angles.E, w)
  {
    match f
    case BinaryFunc(op) => (ApplyBinary(host, op, w, state), state)
    case UnaryFunc(op) => (ApplyUnary(host, op, w, state), state)
    case Sum => (SumAll(w), state)
    case PopTop => (Pop(w).1, state)
    case Swap => (SwapTop(w), state)
    case PiConst => PopUndoesPushBack(w, Angles.Pi); (PushBack(w, Angles.Pi), state)
    case EConst => PopUndoesPushBack(w, Angles.E); (PushBack(w, Angles.E), state)
    case StoreMem => Store(w, state)
    case RecallMem => (Recall(w, state), state)
    case Copy | DmsToDeg | DegToDms | Lerp => unseen(f, w, state)
  }

  /** The right-hand operand of every binary function is the top: `a b -`
      is `a - b`, `a b /` is `a / b`, `a b ^` is `a` to the power `b`. */
  lemma BinaryOperandOrder(host: Host, unseen: Unseen, w: Wrapper, state: State, op: BinaryOp, a: real, b: real)
    ensures var r := Run(host, unseen, BinaryFunc(op), PushBack(PushBack(w, a), b), state).0;
            && r == PushBack(w, BinaryValue(host, op, state, a, b))
            && (op == Subtract ==> Look(r) == a - b)
            && (op == Divide && b != 0.0 ==> Look(r) * b == a)
            && (op == Power ==> Look(r) == host.pow(a, b))
            && (op == Modulo && b != 0.0 ==> Look(r) == Rounding.Fmod(a, b))
  {
    OperandsOfPushed(w, a, b);
  }

  /** After pushing `a` and then `b`, the top is `b` and the value below it `a`. */
  lemma OperandsOfPushed(w: Wrapper, a: real, b: real)
    ensures var s := PushBack(PushBack(w, a), b);
            Look(s) == b && Look(Pop(s).1) == a && Pop(Pop(s).1).1 == w
  {
    PopUndoesPushBack(PushBack(w, a), b);
    PopUndoesPushBack(w, a);
  }

  /** Every binary function pops two values (0 for each one missing) and
      pushes one, leaving the rest of the stack as it was. */
  lemma BinaryShape(host: Host, unseen: Unseen, f: Func, w: Wrapper, state: State)
    requires f.BinaryFunc?
    ensures var r := Run(host, unseen, f, w, state);
            && r.1 == state
            && |r.0.vec| == (if |w.vec| < 2 then 1 else |w.vec| - 1)
            && r.0.vec[..|r.0.vec| - 1] == Pop(Pop(w).1).1.vec
  {
  }

  /** Every unary function replaces the top (0 if missing) by one value,
      leaving the rest of the stack as it was. */
  lemma UnaryShape(host: Host, unseen: Unseen, f: Func, w: Wrapper, state: State)
    requires f.UnaryFunc?
    ensures var r := Run(host, unseen, f, w, state);
            && r.1 == state
            && |r.0.vec| == (if |w.vec| == 0 then 1 else |w.vec|)
            && r.0.vec[..|r.0.vec| - 1] == Pop(w).1.vec
  {
  }

  /** `sum` leaves exactly one value: the sum of the stack, or 0 when empty. */
  lemma SumCollapsesStack(host: Host, unseen: Unseen, w: Wrapper, state: State)
    ensures Run(host, unseen, Sum, w, state).0.vec == [ValueStack.SumOf(w.vec)]
    ensures w.vec == [] ==> Run(host, unseen, Sum, w, state).0.vec == [0.0]
  {
  }

  /** `swp` exchanges the top two values, so doing it twice restores a stack
      of two or more values. */
  lemma SwapTwiceRestores(host: Host, unseen: Unseen, w: Wrapper, state: State)
    requires |w.vec| >= 2
    ensures var once := Run(host, unseen, Swap, w, state).0;
            && once.vec == w.vec[..|w.vec| - 2] + [w.vec[|w.vec| - 1], w.vec[|w.vec| - 2]]
            && Run(host, unseen, Swap, once, state).0 == w
  {
    var n := |w.vec|;
    var once := SwapTop(w);
    assert once.vec == w.vec[..n - 2] + [w.vec[n - 1], w.vec[n - 2]];
    var twice := SwapTop(once);
    assert twice.vec == w.vec;
  }

  /** `pop` removes the top and does nothing to an empty stack. */
  lemma PopTopRemovesTop(host: Host, unseen: Unseen, w: Wrapper, state: State)
    ensures |w.vec| == 0 ==> Run(host, unseen, PopTop, w, state).0 == w
    ensures |w.vec| > 0 ==> Run(host, unseen, PopTop, w, state).0.vec == w.vec[..|w.vec| - 1]
  {
  }
}

=== FILE: legacy_help.dfy ===
/** The help of the older calculator (`rpn/help.cpp`): a table from keys to
    one-line descriptions, `trim`, the lookup of one key and the listing of
    all keys five to a line. */
module LegacyHelp {
  import opened Basics
  import Registry

  /** `dataMap` */
  const HelpTable: map<string, string> := map[
    "tenX" := "x=10^x",
    "add" := "x=(x + y)",
    "+" := "x=(x + y)",
    "acos" := "x=ArcCos(x)",
    "arccos" := "x=ArcCos(x)",
    "asin" := "x=ArcSin(x)",
    "arcsin" := "x=ArcSin(x)",
    "atan" := "x=ArcTan(x)",
    "arctan" := "x=ArcTan(x)",
    "atan2" := "x=ArcTan(y/x)",
    "arctan2" := "x=ArcTan(y/x)",
    "chs" := "x=-1 * x",
    "copy" := "copy x to clipboard",
    "cp" := "copy x to clipboard",
    "cos" := "x=cos(x)",
    "dms" := "x:deg -> z:deg, y:min, x:sec",
    "/" := "x=x/y",
    "deg" := "z:deg, y:min, x:sec -> x:deg",
    "e" := "Constant e",
    "eX" := "x=e^x",
    "lerp" := "funcLerp",
    "log" := "x = log(x)",
    "log10" := "x = log10(x)",
    "%" := "x = x % y",
    "mod" := "x = x % y",
    "*" := "x = x * y",
    "pi" := "Constant pi",
    "cdr" := "discard x",
    "d" := "discard x",
    "pop" := "discard x",
    "**" := "x = y^x",
    "^" := "x = y^x",
    "rcl" := "x = memory location x",
    "r" := "x = 1/x",
    "root" := "x = y^(1/x)",
    "sin" := "x=sin(x)",
    "sto" := "store y in location x",
    "-" := "x = x - y",
    "sum" := "x = sum of stack",
    "swp" := "swap x and y",
    "tan" := "x=tan(x)"
  ]

  /** The keys of `dataMap` in the order a `std::map` visits them: ascending
      by character code. */
  const HelpKeys: seq<string> := [
    "%", "*", "**", "+", "-", "/", "^", "acos",
    "add", "arccos", "arcsin", "arctan", "arctan2", "asin", "atan", "atan2",
    "cdr", "chs", "copy", "cos", "cp", "d", "deg", "dms",
    "e", "eX", "lerp", "log", "log10", "mod", "pi", "pop",
    "r", "rcl", "root", "sin", "sto", "sum", "swp", "tan",
    "tenX"
  ]

  /** The listing is in the order of `operator<`. */
  lemma HelpKeysAreOrdered()
    ensures forall i | 0 <= i < |HelpKeys| - 1 :: Registry.StringLess(HelpKeys[i], HelpKeys[i + 1])
  {
    FirstHelpKeysAreOrdered();
    LastHelpKeysAreOrdered();
  }

  /** The first half of the listing is in order ... */
  lemma FirstHelpKeysAreOrdered()
    ensures forall i | 0 <= i < 20 :: Registry.StringLess(HelpKeys[i], HelpKeys[i + 1])
  {
    HelpKeysOrderedToTen();
    HelpKeysOrderedToTwenty();
  }

  /** ... and so is the second. */
  lemma LastHelpKeysAreOrdered()
    ensures forall i | 20 <= i < |HelpKeys| - 1 :: Registry.StringLess(HelpKeys[i], HelpKeys[i + 1])
  {
    HelpKeysOrderedToThirty();
    HelpKeysOrderedToEnd();
  }

  lemma HelpKeysOrderedToTen()
    ensures forall i | 0 <= i < 10 :: Registry.StringLess(HelpKeys[i], HelpKeys[i + 1])
  {
  }

  lemma HelpKeysOrderedToTwenty()
    ensures forall i | 10 <= i < 20 :: Registry.StringLess(HelpKeys[i], HelpKeys[i + 1])
  {
  }

  lemma HelpKeysOrderedToThirty()
    ensures forall i | 20 <= i < 30 :: Registry.StringLess(HelpKeys[i], HelpKeys[i + 1])
  {
  }

  lemma HelpKeysOrderedToEnd()
    ensures forall i | 30 <= i < |HelpKeys| - 1 :: Registry.StringLess(HelpKeys[i], HelpKeys[i + 1])
  {
  }

  /** Every key listed is in the table ... */
  lemma HelpKeysAreInTable()
    ensures forall k | k in HelpKeys :: k in HelpTable
  {
  }

  /** ... and every key of the table is listed. */
  lemma HelpTableKeysAreListed()
    ensures forall k | k in HelpTable :: k in HelpKeys
  {
  }

  // ---------------------------------------------------------------------------
  // trim
  // ---------------------------------------------------------------------------

  /** The first position at or after `i` whose character is not white
      space, or the length of `s` when there is none. */
  function SkipSpace(s: string, i: nat): (r: nat)
    requires i <= |s|
    ensures i <= r <= |s|
    ensures forall k | i <= k < r :: IsSpace(s[k])
    ensures r < |s| ==> !IsSpace(s[r])
    decreases |s| - i
  {
    if i < |s| && IsSpace(s[i]) then SkipSpace(s, i + 1) else i
  }

  /** The end, at or before `j` but not before `lo`, of the text before a
      run of white space that reaches `j`. */
  function SkipSpaceBack(s: string, lo: nat, j: nat): (r: nat)
    requires lo <= j <= |s|
    ensures lo <= r <= j
    ensures forall k | r <= k < j :: IsSpace(s[k])
    ensures r > lo ==> !IsSpace(s[r - 1])
    decreases j
  {
    if j > lo && IsSpace(s[j - 1]) then SkipSpaceBack(s, lo, j - 1) else j
  }

  /** `s` without white space at either end: the part of `s` between its
      first and its last character that is not white space. */
  function Trim(s: string): (r: string)
    ensures exists i, j | 0 <= i <= j <= |s| :: r == s[i..j]
              && (forall k | 0 <= k < i :: IsSpace(s[k]))
              && (forall k | j <= k < |s| :: IsSpace(s[k]))
    ensures r == [] || (!IsSpace(r[0]) && !IsSpace(r[|r| - 1]))
  {
    var start := SkipSpace(s, 0);
    var end := SkipSpaceBack(s, start, |s|);
    assert forall k | 0 <= k < start :: IsSpace(s[k]);
    s[start..end]
  }

  /** `SkipSpace` stops at the first character that is not white space. */
  lemma {:induction false} SkipSpaceStopsAt(s: string, from: nat, i: nat)
    requires from <= i <= |s|
    requires forall k | from <= k < i :: IsSpace(s[k])
    requires i == |s| || !IsSpace(s[i])
    ensures SkipSpace(s, from) == i
    decreases i - from
  {
    if from < i {
      SkipSpaceStopsAt(s, from + 1, i);
    }
  }

  /** `SkipSpaceBack` stops after the last character that is not white space. */
  lemma {:induction false} SkipSpaceBackStopsAt(s: string, lo: nat, j: nat, e: nat)
    requires lo <= e <= j <= |s|
    requires forall k | e <= k < j :: IsSpace(s[k])
    requires e == lo || !IsSpace(s[e - 1])
    ensures SkipSpaceBack(s, lo, j) == e
    decreases j
  {
    if e < j {
      SkipSpaceBackStopsAt(s, lo, j - 1, e);
    }
  }

  /** A slice with only white space around it, and none at its ends, is the
      trimmed text. */
  lemma TrimIsUnique(s: string, i: nat, j: nat)
    requires i <= j <= |s|
    requires forall k | 0 <= k < i :: IsSpace(s[k])
    requires forall k | j <= k < |s| :: IsSpace(s[k])
    requires i < j ==> !IsSpace(s[i]) && !IsSpace(s[j - 1])
    ensures Trim(s) == s[i..j]
  {
    if i < j {
      SkipSpaceStopsAt(s, 0, i);
      SkipSpaceBackStopsAt(s, i, |s|, j);
    } else {
      SkipSpaceStopsAt(s, 0, |s|);
      SkipSpaceBackStopsAt(s, |s|, |s|, |s|);
    }
  }

  /** `trim` as written: one iterator walks forward over leading white
      space, the other backward from the last character while it is white
      space and still after the first. The argument must not be empty: the
      backward walk starts by stepping before the end. */
  method TrimAsWritten(s: string) returns (r: string)
    requires |s| > 0
    ensures r == Trim(s)
  {
    var start := 0;
    while start < |s| && IsSpace(s[start])
      invariant 0 <= start <= |s|
      invariant forall k | 0 <= k < start :: IsSpace(s[k])
    {
      start := start + 1;
    }
    var end := |s| - 1;
    while end - start > 0 && IsSpace(s[end])
      invariant start - 1 <= end < |s|
      invariant start < |s| ==> start <= end
      invariant forall k | end < k < |s| :: IsSpace(s[k])
    {
      end := end - 1;
    }
    if start < |s| {
      TrimIsUnique(s, start, end + 1);
    } else {
      TrimIsUnique(s, |s|, |s|);
    }
    r := s[start..end + 1];
  }

  /** Trimming twice trims no more than trimming once. */
  lemma TrimIsIdempotent(s: string)
    ensures Trim(Trim(s)) == Trim(s)
  {
    var t := Trim(s);
    TrimIsUnique(t, 0, |t|);
  }

  /** White space around a trimmed key does not change it. */
  lemma TrimIgnoresSurroundingSpace(before: string, key: string, after: string)
    requires forall k | 0 <= k < |before| :: IsSpace(before[k])
    requires forall k | 0 <= k < |after| :: IsSpace(after[k])
    requires key == Trim(key)
    ensures Trim(before + key + after) == key
  {
    var s := before + key + after;
    var i := |before|;
    var j := |before| + |key|;
    assert forall k | 0 <= k < i :: s[k] == before[k];
    assert forall k | j <= k < |s| :: s[k] == after[k - j];
    assert s[i..j] == key;
    TrimIsUnique(s, i, j);
  }

  // ---------------------------------------------------------------------------
  // Looking up a key
  // ---------------------------------------------------------------------------

  /** What a request for help shows. */
  datatype HelpReply = AllKeys | HelpText(text: string) | KeyNotFound

  /** `printTextForHelpKey`: the key's description, or "Key not found". */
  function TextForHelpKey(key: string): (r: HelpReply)
    ensures r.HelpText? <==> key in HelpTable
    ensures r.HelpText? ==> r.text == HelpTable[key]
    ensures r.KeyNotFound? <==> key !in HelpTable
  {
    if key in HelpTable then HelpText(HelpTable[key]) else KeyNotFound
  }

  /** `returnHelp`: an entry of one character (the `?`) lists every key;
      a longer one looks up the rest of the entry, trimmed. */
  function ReturnHelp(entry: string): (r: HelpReply)
    ensures |entry| <= 1 <==> r.AllKeys?
    ensures |entry| > 1 ==> r == TextForHelpKey(Trim(entry[1..]))
  {
    if |entry| > 1 then TextForHelpKey(Trim(entry[1..])) else AllKeys
  }

  /** A request names its key after the `?`, with white space around it
      allowed. */
  lemma HelpForSpacedKey(before: string, key: string, after: string)
    requires forall k | 0 <= k < |before| :: IsSpace(before[k])
    requires forall k | 0 <= k < |after| :: IsSpace(after[k])
    requires key == Trim(key) && |before + key + after| > 0
    ensures ReturnHelp("?" + before + key + after) == TextForHelpKey(key)
  {
    var entry := "?" + before + key + after;
    assert entry[1..] == before + key + after;
    TrimIgnoresSurroundingSpace(before, key, after);
  }

  /** `s` is not empty and has no white space at either end. */
  predicate Trimmed(s: string) {
    s != [] && !IsSpace(s[0]) && !IsSpace(s[|s| - 1])
  }

  /** No key of the table starts or ends with white space. */
  lemma HelpKeysAreTrimmed()
    ensures forall i | 0 <= i < |HelpKeys| :: Trimmed(HelpKeys[i])
  {
    FirstKeysAreTrimmed();
    MiddleKeysAreTrimmed();
    LastKeysAreTrimmed();
  }

  lemma FirstKeysAreTrimmed()
    ensures forall i | 0 <= i < 14 :: Trimmed(HelpKeys[i])
  {
  }

  lemma MiddleKeysAreTrimmed()
    ensures forall i | 14 <= i < 28 :: Trimmed(HelpKeys[i])
  {
  }

  lemma LastKeysAreTrimmed()
    ensures forall i | 28 <= i < |HelpKeys| :: Trimmed(HelpKeys[i])
  {
  }

  /** So each key of the table is found when it is asked for. */
  lemma TableKeysSurviveTrim(key: string)
    requires key in HelpTable
    ensures Trim(key) == key
  {
    HelpTableKeysAreListed();
    var i :| 0 <= i < |HelpKeys| && HelpKeys[i] == key;
    HelpKeysAreTrimmed();
    TrimmedSurvivesTrim(key);
  }

  /** Text with no white space at either end is its own trimmed form. */
  lemma TrimmedSurvivesTrim(s: string)
    requires Trimmed(s)
    ensures Trim(s) == s
  {
    TrimIsUnique(s, 0, |s|);
    assert s[0..|s|] == s;
  }

  // ---------------------------------------------------------------------------
  // Listing every key
  // ---------------------------------------------------------------------------

  /** The width of a column of the key listing. */
  const ColumnWidth: nat := 15

  /** The keys listed on one line. */
  const KeysPerLine: nat := 5

  /** The line that closes the listing. */
  const Footer: string := "For additional help, type \"? <key>\""

  /** `n` spaces. */
  function Spaces(n: nat): (r: string)
    ensures |r| == n && forall k | 0 <= k < n :: r[k] == ' '
  {
    if n == 0 then "" else Spaces(n - 1) + " "
  }

  /** `setw(15) << left << key`: the key followed by spaces up to the column
      width; a longer key is written whole. */
  function Pad(key: string): (r: string)
    ensures |r| == if |key| < ColumnWidth then ColumnWidth else |key|
    ensures r[..|key|] == key && forall k | |key| <= k < |r| :: r[k] == ' '
  {
    if |key| < ColumnWidth then key + Spaces(ColumnWidth - |key|) else key
  }

  /** The keys written one after the other, each padded to its column. */
  function Cells(keys: seq<string>): string {
    if keys == [] then "" else Cells(keys[..|keys| - 1]) + Pad(keys[|keys| - 1])
  }

  /** The keys cut into lines of `KeysPerLine`, the last holding what is
      left. */
  function Lines(keys: seq<string>): (r: seq<seq<string>>)
    ensures forall i | 0 <= i < |r| :: 0 < |r[i]| <= KeysPerLine
    ensures forall i | 0 <= i < |r| - 1 :: |r[i]| == KeysPerLine
  {
    if keys == [] then []
    else if |keys| <= KeysPerLine then [keys]
    else [keys[..KeysPerLine]] + Lines(keys[KeysPerLine..])
  }

  /** The keys of the lines, in order. */
  function Flatten(lines: seq<seq<string>>): seq<string> {
    if lines == [] then [] else lines[0] + Flatten(lines[1..])
  }

  /** Cutting into lines loses, adds and reorders no key. */
  lemma {:induction false} LinesPartitionKeys(keys: seq<string>)
    ensures Flatten(Lines(keys)) == keys
    decreases |keys|
  {
    if |keys| > KeysPerLine {
      var lines := Lines(keys);
      LinesPartitionKeys(keys[KeysPerLine..]);
      assert lines[1..] == Lines(keys[KeysPerLine..]);
      assert keys[..KeysPerLine] + keys[KeysPerLine..] == keys;
    } else if keys != [] {
      assert Flatten([keys]) == keys + Flatten([]);
    }
  }

  /** The lines written out, each ended by a newline. */
  function Rendered(lines: seq<seq<string>>): string {
    if lines == [] then "" else Cells(lines[0]) + "\n" + Rendered(lines[1..])
  }

  /** Writing one more line appends it. */
  lemma {:induction false} RenderedAppend(lines: seq<seq<string>>, line: seq<string>)
    ensures Rendered(lines + [line]) == Rendered(lines) + Cells(line) + "\n"
    decreases |lines|
  {
    if lines == [] {
      assert [] + [line] == [line];
    } else {
      RenderedAppend(lines[1..], line);
      assert (lines + [line])[0] == lines[0];
      assert (lines + [line])[1..] == lines[1..] + [line];
      var head, rest, last := Cells(lines[0]) + "\n", Rendered(lines[1..]), Cells(line) + "\n";
      assert Rendered(lines + [line]) == head + (rest + last);
      AppendIsAssociative(head, rest, last);
      AppendIsAssociative(head + rest, Cells(line), "\n");
    }
  }

  /** A prefix of whole lines followed by the rest, when the rest fits on
      one line. */
  lemma {:induction false} LinesOfPrefix(keys: seq<string>, m: nat)
    requires m % KeysPerLine == 0 && m < |keys| <= m + KeysPerLine
    ensures Lines(keys) == Lines(keys[..m]) + [keys[m..]]
    decreases m
  {
    if m > 0 {
      var rest := keys[KeysPerLine..];
      LinesOfPrefix(rest, m - KeysPerLine);
      assert rest[..m - KeysPerLine] == keys[..m][KeysPerLine..];
      assert rest[m - KeysPerLine..] == keys[m..];
      assert keys[..m][..KeysPerLine] == keys[..KeysPerLine];
    }
  }

  /** What `printAllHelpKeys` writes for the given keys. */
  function Listing(keys: seq<string>): string {
    Rendered(Lines(keys)) + Footer + "\n"
  }

  /** Text written in pieces is the same however the pieces are grouped. */
  lemma AppendIsAssociative(a: string, b: string, c: string)
    ensures (a + b) + c == a + (b + c)
  {
  }

  /** The key goes after the keys already on the current line. */
  lemma CellsAppend(keys: seq<string>, m: nat, count: nat)
    requires m <= count < |keys|
    ensures Cells(keys[m..count]) + Pad(keys[count]) == Cells(keys[m..count + 1])
  {
    assert keys[m..count + 1][..count - m] == keys[m..count];
  }

  /** A fifth key closes the line. */
  lemma CloseLine(keys: seq<string>, m: nat)
    requires m % KeysPerLine == 0 && m + KeysPerLine <= |keys|
    ensures Rendered(Lines(keys[..m])) + Cells(keys[m..m + KeysPerLine]) + "\n"
            == Rendered(Lines(keys[..m + KeysPerLine]))
  {
    var prefix := keys[..m + KeysPerLine];
    LinesOfPrefix(prefix, m);
    assert prefix[..m] == keys[..m] && prefix[m..] == keys[m..m + KeysPerLine];
    RenderedAppend(Lines(keys[..m]), keys[m..m + KeysPerLine]);
  }

  /** What the listing loop has written after `count` keys. */
  function Written(keys: seq<string>, count: nat): string
    requires count <= |keys|
  {
    if count == 0 then ""
    else if count % KeysPerLine == 0 then Written(keys, count - 1) + Pad(keys[count - 1]) + "\n"
    else Written(keys, count - 1) + Pad(keys[count - 1])
  }

  /** Where the line holding key number `count` starts. */
  lemma LineStart(count: nat)
    ensures var m := count - count % KeysPerLine;
            m % KeysPerLine == 0 && m <= count < m + KeysPerLine
  {
  }

  /** Only the position after a line's fifth key is a multiple of five. */
  lemma InsideLine(m: nat, count: nat)
    requires m % KeysPerLine == 0 && m <= count <= m + KeysPerLine
    ensures count % KeysPerLine == 0 <==> count == m || count == m + KeysPerLine
  {
    var q := m / KeysPerLine;
    assert m == 5 * q;
    OffsetRemainder(q, count - m);
  }

  /** The remainder of a multiple of five plus an offset of at most five. */
  lemma OffsetRemainder(q: nat, d: nat)
    requires d <= 5
    ensures (5 * q + d) % 5 == 0 <==> d == 0 || d == 5
  {
    if d < 5 {
      assert (5 * q + d) % 5 == d;
    } else {
      assert 5 * q + d == 5 * (q + 1);
    }
  }

  /** A key that does not end a line is written after the others of its
      line. */
  lemma WrittenNextKey(keys: seq<string>, m: nat, count: nat, lines: string)
    requires m < count <= |keys| && count % KeysPerLine != 0
    requires Written(keys, count - 1) == lines + Cells(keys[m..count - 1])
    ensures Written(keys, count) == lines + Cells(keys[m..count])
  {
    CellsAppend(keys, m, count - 1);
    AppendIsAssociative(lines, Cells(keys[m..count - 1]), Pad(keys[count - 1]));
  }

  /** The fifth key of a line is followed by a newline. */
  lemma WrittenLastKey(keys: seq<string>, m: nat, lines: string)
    requires m + KeysPerLine <= |keys| && (m + KeysPerLine) % KeysPerLine == 0
    requires Written(keys, m + KeysPerLine - 1) == lines + Cells(keys[m..m + KeysPerLine - 1])
    ensures Written(keys, m + KeysPerLine) == lines + Cells(keys[m..m + KeysPerLine]) + "\n"
  {
    CellsAppend(keys, m, m + KeysPerLine - 1);
    AppendIsAssociative(lines, Cells(keys[m..m + KeysPerLine - 1]), Pad(keys[m + KeysPerLine - 1]));
  }

  /** A line with no keys yet adds nothing. */
  lemma NoCellsYet(text: string, keys: seq<string>, n: nat)
    requires n <= |keys|
    ensures text + Cells(keys[n..n]) == text
  {
    assert keys[n..n] == [];
  }

  /** One more key on a line that is not yet full. */
  lemma WrittenOnSameLine(keys: seq<string>, m: nat, count: nat)
    requires m % KeysPerLine == 0 && m < count <= |keys| && count < m + KeysPerLine
    requires Written(keys, count - 1) == Rendered(Lines(keys[..m])) + Cells(keys[m..count - 1])
    ensures Written(keys, count) == Rendered(Lines(keys[..m])) + Cells(keys[m..count])
  {
    InsideLine(m, count);
    WrittenNextKey(keys, m, count, Rendered(Lines(keys[..m])));
  }

  /** The key that fills a line closes it. */
  lemma WrittenOnNewLine(keys: seq<string>, previous: nat, count: nat)
    requires previous % KeysPerLine == 0 && count == previous + KeysPerLine <= |keys|
    requires Written(keys, count - 1)
             == Rendered(Lines(keys[..previous])) + Cells(keys[previous..count - 1])
    ensures Written(keys, count) == Rendered(Lines(keys[..count])) + Cells(keys[count..count])
  {
    InsideLine(previous, count);
    WrittenLastKey(keys, previous, Rendered(Lines(keys[..previous])));
    CloseLine(keys, previous);
    NoCellsYet(Rendered(Lines(keys[..count])), keys, count);
  }

  /** After `count` keys the loop has written the whole lines so far, the
      first `m` keys, and the keys of the line not yet closed. */
  lemma {:induction false} WrittenLines(keys: seq<string>, count: nat, m: nat)
    requires m % KeysPerLine == 0 && m <= count <= |keys| && count < m + KeysPerLine
    ensures Written(keys, count) == Rendered(Lines(keys[..m])) + Cells(keys[m..count])
  {
    if count > m {
      WrittenLines(keys, count - 1, m);
      WrittenOnSameLine(keys, m, count);
    } else if count > 0 {
      WrittenLines(keys, count - 1, m - KeysPerLine);
      WrittenOnNewLine(keys, m - KeysPerLine, count);
    } else {
      assert keys[..0] == [] && keys[0..0] == [];
    }
  }

  /** A last line that is not full is closed by one more newline. */
  lemma WrittenPartialLine(keys: seq<string>, m: nat)
    requires m % KeysPerLine == 0 && m < |keys| < m + KeysPerLine
    requires Written(keys, |keys|) == Rendered(Lines(keys[..m])) + Cells(keys[m..|keys|])
    ensures Written(keys, |keys|) + "\n" == Rendered(Lines(keys))
  {
    assert keys[m..|keys|] == keys[m..];
    LinesOfPrefix(keys, m);
    RenderedAppend(Lines(keys[..m]), keys[m..]);
  }

  /** When the keys fill their last line, that line is already closed. */
  lemma WrittenFullLines(keys: seq<string>)
    requires Written(keys, |keys|) == Rendered(Lines(keys[..|keys|])) + Cells(keys[|keys|..|keys|])
    ensures Written(keys, |keys|) == Rendered(Lines(keys))
  {
    assert keys[..|keys|] == keys;
    NoCellsYet(Rendered(Lines(keys)), keys, |keys|);
  }

  /** `printAllHelpKeys`: each key padded to its column, a newline after
      every fifth, a newline closing a last line that is not full, and then
      the footer. */
  method PrintAllHelpKeys(keys: seq<string>) returns (out: string)
    ensures out == Listing(keys)
  {
    out := "";
    var count := 0;
    while count < |keys|
      invariant count <= |keys| && out == Written(keys, count)
    {
      out := out + Pad(keys[count]);
      count := count + 1;
      if count % KeysPerLine == 0 {
        out := out + "\n";
      }
    }
    var m := count - count % KeysPerLine;
    LineStart(count);
    WrittenLines(keys, count, m);
    if count % KeysPerLine != 0 {
      WrittenPartialLine(keys, m);
      out := out + "\n";
    } else {
      WrittenFullLines(keys);
    }
    out := out + Footer + "\n";
  }
}

=== FILE: legacy_main.dfy ===
/** The older calculator's driver (`rpn/main.cpp`): the table from names to
    functions, and one turn of the read loop, which pushes the number read
    from the line and then handles the text after it. */
module LegacyMain {
  import opened Basics
  import opened MathHost
  import opened LegacyWrapper
  import opened LegacyFunctions

  /** The names of `functionTable` for arithmetic, powers and logarithms ... */
  const ArithmeticFunctionNames: set<string> := {
    "+", "add", "sum", "-", "*", "/", "^", "**", "root", "log", "log10", "tenX", "eX", "eeX",
    "r", "chs", "mod", "%"
  }

  /** ... and for trigonometry, the stack, constants, memory and conversions. */
  const OtherFunctionNames: set<string> := {
    "sin", "asin", "cos", "acos", "tan", "atan", "atan2",
    "pop", "cdr", "d", "swp", "pi", "e", "sto", "rcl", "copy", "cp", "deg", "dms", "lerp"
  }

  /** The names of `functionTable`. */
  const FunctionNames: set<string> := ArithmeticFunctionNames + OtherFunctionNames

  /** `functionTable`: the function a name runs, if it has one. */
  function FunctionFor(name: string): Option<Func> {
    if ArithmeticFunction(name).Some? then ArithmeticFunction(name) else OtherFunction(name)
  }

  /** The entries of `functionTable` under `ArithmeticFunctionNames`. */
  function ArithmeticFunction(name: string): Option<Func> {
    if name == "+" || name == "add" then Some(BinaryFunc(Add))
    else if name == "sum" then Some(Sum)
    else if name == "-" then Some(BinaryFunc(Subtract))
    else if name == "*" then Some(BinaryFunc(Multiply))
    else if name == "/" then Some(BinaryFunc(Divide))
    else if name == "^" || name == "**" then Some(BinaryFunc(Power))
    else if name == "root" then Some(BinaryFunc(Root))
    else if name == "log" then Some(UnaryFunc(Log))
    else if name == "log10" then Some(UnaryFunc(Log10))
    else if name == "tenX" then Some(UnaryFunc(TenToX))
    else if name == "eX" || name == "eeX" then Some(UnaryFunc(EToX))
    else if name == "r" then Some(UnaryFunc(Reciprocal))
    else if name == "chs" then Some(UnaryFunc(Chs))
    else if name == "mod" || name == "%" then Some(BinaryFunc(Modulo))
    else None
  }

  /** The entries of `functionTable` under `OtherFunctionNames`. */
  function OtherFunction(name: string): Option<Func> {
    if name == "sin" then Some(UnaryFunc(Sin))
    else if name == "asin" then Some(UnaryFunc(ArcSin))
    else if name == "cos" then Some(UnaryFunc(Cos))
    else if name == "acos" then Some(UnaryFunc(ArcCos))
    else if name == "tan" then Some(UnaryFunc(Tan))
    else if name == "atan" then Some(UnaryFunc(ArcTan))
    else if name == "atan2" then Some(BinaryFunc(ArcTan2))
    else if name == "pop" || name == "cdr" || name == "d" then Some(PopTop)
    else if name == "swp" then Some(Swap)
    else if name == "pi" then Some(PiConst)
    else if name == "e" then Some(EConst)
    else if name == "sto" then Some(StoreMem)
    else if name == "rcl" then Some(RecallMem)
    else if name == "copy" || name == "cp" then Some(Copy)
    else if name == "deg" then Some(DmsToDeg)
    else if name == "dms" then Some(DegToDms)
    else if name == "lerp" then Some(Lerp)
    else None
  }

  /** Every name of the table has a function ... */
  lemma TableNamesHaveFunctions(name: string)
    requires name in FunctionNames
    ensures FunctionFor(name).Some?
  {
    ArithmeticFunctionNamed(name);
    OtherFunctionNamed(name);
  }

  /** ... and no other name has one. */
  lemma OnlyTableNamesHaveFunctions(name: string)
    requires name !in FunctionNames
    ensures FunctionFor(name).None?
  {
    ArithmeticFunctionNamed(name);
    OtherFunctionNamed(name);
  }

  /** The arithmetic entries are exactly those under their names. */
  lemma ArithmeticFunctionNamed(name: string)
    ensures ArithmeticFunction(name).Some? <==> name in ArithmeticFunctionNames
  {
  }

  /** The other entries are exactly those under their names. */
  lemma OtherFunctionNamed(name: string)
    ensures OtherFunction(name).Some? <==> name in OtherFunctionNames
  {
  }

  /** The names that share a function. */
  lemma AliasesShareFunctions()
    ensures FunctionFor("+") == FunctionFor("add") == Some(BinaryFunc(Add))
    ensures FunctionFor("^") == FunctionFor("**") == Some(BinaryFunc(Power))
    ensures FunctionFor("%") == FunctionFor("mod") == Some(BinaryFunc(Modulo))
  {
  }

  /** `pop`, `cdr` and `d` all discard the top. */
  lemma PopAliasesShareFunction()
    ensures FunctionFor("pop") == FunctionFor("cdr") == FunctionFor("d") == Some(PopTop)
  {
  }

  /** More names that share a function. */
  lemma MoreAliasesShareFunctions()
    ensures FunctionFor("eX") == FunctionFor("eeX") == Some(UnaryFunc(EToX))
    ensures FunctionFor("copy") == FunctionFor("cp") == Some(Copy)
  {
    ExponentialAliases();
    CopyAliases();
  }

  lemma ExponentialAliases()
    ensures FunctionFor("eX") == FunctionFor("eeX") == Some(UnaryFunc(EToX))
  {
  }

  lemma CopyAliases()
    ensures FunctionFor("copy") == FunctionFor("cp") == Some(Copy)
  {
  }

  /** The outcome of `callFunction`. */
  datatype Called = Ran(stack: Wrapper, state: State) | UnknownFunction

  /** `callFunction`: runs the function the name is mapped to, once, or
      throws `UNKNOWN_FUNCTION` without running anything. */
  function CallFunction(host: Host, unseen: Unseen, name: string, w: Wrapper, state: State): (r: Called)
    ensures r.UnknownFunction? <==> FunctionFor(name).None?
    ensures r.Ran? ==> (r.stack, r.state) == Run(host, unseen, FunctionFor(name).value, w, state)
  {
    match FunctionFor(name)
    case None => UnknownFunction
    case Some(f) => var (stack, next) := Run(host, unseen, f, w, state); Ran(stack, next)
  }

  // ---------------------------------------------------------------------------
  // The read loop
  // ---------------------------------------------------------------------------

  /** What one read of a line yields: the number at its start, if any, the
      text after it, and whether input ended. */
  datatype Line = Line(number: Option<real>, entry: string, atEof: bool)

  /** The loop's variables: the stack, the run state, the loop flag and the
      errors reported so far. */
  datatype Loop = Loop(stack: Wrapper, state: State, running: bool, errors: seq<Called>)

  /** The words the loop handles itself. */
  predicate IsLoopCommand(entry: string) {
    entry == "" || entry == "q" || entry == "c" || entry == "look" || entry == "v" || entry == "!v" || entry == "v!"
  }

  /** The stack once the line's number, if any, has been pushed. */
  function WithNumber(w: Wrapper, number: Option<real>): (r: Wrapper)
    ensures number.None? ==> r == w
    ensures number.Some? ==> Pop(r) == (number.value, w)
  {
    match number
    case None => w
    case Some(v) => PopUndoesPushBack(w, v); PushBack(w, v)
  }

  /** One turn of the loop of `main`: end of input clears the loop flag but
      the line just read is still handled; the number is pushed first; then
      `q` stops, `c` clears, `look` only prints, `v` and `!v`/`v!` switch
      verbose output, and any other text goes to `callFunction`, whose error
      is reported and not passed on. */
  function Step(host: Host, unseen: Unseen, loop: Loop, line: Line): (r: Loop)
    ensures r.running <==> loop.running && !line.atEof && line.entry != "q"
    ensures line.entry == "c" ==> r.stack.vec == []
    ensures line.entry in {"", "q", "look", "v", "!v", "v!"} ==> r.stack == WithNumber(loop.stack, line.number)
    ensures IsLoopCommand(line.entry) ==> r.errors == loop.errors
    ensures IsLoopCommand(line.entry) ==> r.state.(verbose := loop.state.verbose) == loop.state
    ensures line.entry in {"", "q", "c", "look"} ==> r.state == loop.state
    ensures line.entry == "v" ==> r.state.verbose
    ensures line.entry == "!v" || line.entry == "v!" ==> !r.state.verbose
    ensures !IsLoopCommand(line.entry) && FunctionFor(line.entry).None? ==>
              r.stack == WithNumber(loop.stack, line.number) && r.state == loop.state
              && r.errors == loop.errors + [UnknownFunction]
  {
    var running := loop.running && !line.atEof;
    var stack := WithNumber(loop.stack, line.number);
    var entry := line.entry;
    if entry == "" then loop.(stack := stack, running := running)
    else if entry == "q" then loop.(stack := stack, running := false)
    else if entry == "c" then loop.(stack := Clear(stack), running := running)
    else if entry == "look" then loop.(stack := stack, running := running)
    else if entry == "v" then loop.(stack := stack, state := loop.state.(verbose := true), running := running)
    else if entry == "!v" || entry == "v!" then
      loop.(stack := stack, state := loop.state.(verbose := false), running := running)
    else
      match CallFunction(host, unseen, entry, stack, loop.state)
      case UnknownFunction => loop.(stack := stack, running := running, errors := loop.errors + [UnknownFunction])
      case Ran(after, next) => Loop(after, next, running, loop.errors)
  }

  /** The loop over the lines read, until the loop flag is cleared or the
      lines run out. */
  function Session(host: Host, unseen: Unseen, loop: Loop, lines: seq<Line>): (r: Loop)
    ensures !loop.running ==> r == loop
    ensures r.running ==> forall k | 0 <= k < |lines| :: lines[k].entry != "q" && !lines[k].atEof
    decreases |lines|
  {
    if !loop.running || |lines| == 0 then loop
    else Session(host, unseen, Step(host, unseen, loop, lines[0]), lines[1..])
  }

  /** Once `q` is read, or input ends, no later line has any effect. */
  lemma {:induction false} NothingAfterQuit(host: Host, unseen: Unseen, loop: Loop, line: Line, rest: seq<Line>)
    requires loop.running && (line.entry == "q" || line.atEof)
    ensures Session(host, unseen, loop, [line] + rest) == Step(host, unseen, loop, line)
  {
    assert ([line] + rest)[0] == line && ([line] + rest)[1..] == rest;
    assert !Step(host, unseen, loop, line).running;
  }

  /** An unknown name changes nothing but the error list, and a known one
      runs its function on the stack with the number pushed. */
  lemma EntryDispatch(host: Host, unseen: Unseen, loop: Loop, line: Line)
    requires !IsLoopCommand(line.entry)
    ensures FunctionFor(line.entry).Some? ==>
              var (stack, state) := Run(host, unseen, FunctionFor(line.entry).value, WithNumber(loop.stack, line.number), loop.state);
              var r := Step(host, unseen, loop, line);
              r.stack == stack && r.state == state && r.errors == loop.errors
    ensures FunctionFor(line.entry).None? && line.number.None? ==>
              Step(host, unseen, loop, line) == loop.(running := loop.running && !line.atEof, errors := loop.errors + [UnknownFunction])
  {
  }
}

=== FILE: number_grammar.dfy ===
/** The numeric-literal recogniser of the calculator (`isNumber`) and the
    conversion `std::stod` applies to an accepted token. */
module NumberGrammar {
  import opened Basics

  predicate IsDigit(c: char) { '0' <= c <= '9' }
  predicate IsSign(c: char) { c == '+' || c == '-' }
  predicate IsExponentMark(c: char) { c == 'e' || c == 'E' }

  /** Where the body of a token starts: after a leading sign, if any. */
  function SignLength(t: string): nat {
    if |t| > 0 && IsSign(t[0]) then 1 else 0
  }

  // ---------------------------------------------------------------------------
  // The recogniser, character by character as the source's loop runs
  // ---------------------------------------------------------------------------

  /** The scanning loop of `isNumber` from position `i`, with its two flags.
      A sign right after an exponent mark is skipped over, and rejects the token
      when nothing follows it. */
  function ScanFrom(t: string, start: nat, i: nat, hasDecimal: bool, hasExponent: bool): (r: bool)
    requires start <= i <= |t|
    ensures r ==> forall k | i <= k < |t| :: IsDigit(t[k]) || t[k] == '.' || IsExponentMark(t[k]) || IsSign(t[k])
    ensures r && (hasDecimal || hasExponent) ==> forall k | i <= k < |t| :: t[k] != '.'
    ensures r && hasExponent ==> forall k | i <= k < |t| :: !IsExponentMark(t[k])
    ensures r && i == start < |t| ==> !IsExponentMark(t[i])
    decreases |t| - i
  {
    if i == |t| then true
    else if t[i] == '.' then
      if hasDecimal || hasExponent then false
      else ScanFrom(t, start, i + 1, true, hasExponent)
    else if IsExponentMark(t[i]) then
      if hasExponent || i == start then false
      else if i + 1 < |t| && IsSign(t[i + 1]) then
        if i + 2 >= |t| then false
        else ScanFrom(t, start, i + 2, hasDecimal, true)
      else ScanFrom(t, start, i + 1, hasDecimal, true)
    else if IsDigit(t[i]) then ScanFrom(t, start, i + 1, hasDecimal, hasExponent)
    else false
  }

  /** `isNumber`: the empty token and a lone sign are rejected up front. */
  function IsNumber(t: string): (r: bool)
    ensures r ==> SignLength(t) < |t| && !IsExponentMark(t[SignLength(t)])
    ensures r ==> forall k | SignLength(t) <= k < |t| :: IsDigit(t[k]) || t[k] == '.' || IsExponentMark(t[k]) || IsSign(t[k])
  {
    if |t| == 0 then false
    else if IsSign(t[0]) && |t| == 1 then false
    else ScanFrom(t, SignLength(t), SignLength(t), false, false)
  }

  // ---------------------------------------------------------------------------
  // The same language, stated position by position
  // ---------------------------------------------------------------------------

  /** The character at `k` is one the grammar admits: a digit, a point, an
      exponent mark, or a sign that directly follows an exponent mark and is
      itself followed by something. */
  predicate AdmittedAt(t: string, s: nat, k: nat)
    requires s <= k < |t|
  {
    || IsDigit(t[k])
    || t[k] == '.'
    || IsExponentMark(t[k])
    || (IsSign(t[k]) && k > s && IsExponentMark(t[k - 1]) && k + 1 < |t|)
  }

  /** The positions `s .. n-1` of `t` obey the grammar: admitted characters,
      at most one point, at most one exponent mark with no point after it, and
      no exponent mark in first position. */
  predicate PrefixOk(t: string, s: nat, n: nat)
    requires s <= n <= |t|
  {
    && (s < n ==> !IsExponentMark(t[s]))
    && (forall k | s <= k < n :: AdmittedAt(t, s, k))
    && (forall k, j | s <= k < j < n :: t[k] == '.' ==> t[j] != '.')
    && (forall k, j | s <= k < j < n :: IsExponentMark(t[k]) ==> !IsExponentMark(t[j]) && t[j] != '.')
  }

  /** A numeric token: an optional sign followed by a non-empty body obeying the grammar. */
  predicate NumeralShape(t: string) {
    var s := SignLength(t);
    s < |t| && PrefixOk(t, s, |t|)
  }

  /** No point among positions `s .. i-1`. */
  predicate NoPointBefore(t: string, s: nat, i: nat)
    requires s <= i <= |t|
  {
    forall k | s <= k < i :: t[k] != '.'
  }

  /** No exponent mark among positions `s .. i-1`. */
  predicate NoExponentBefore(t: string, s: nat, i: nat)
    requires s <= i <= |t|
  {
    forall k | s <= k < i :: !IsExponentMark(t[k])
  }

  /** The grammar holds of a shorter prefix whenever it holds of a longer one. */
  lemma PrefixOkShrinks(t: string, s: nat, m: nat, n: nat)
    requires s <= m <= n <= |t|
    requires PrefixOk(t, s, n)
    ensures PrefixOk(t, s, m)
  {
  }

  /** Extending a good prefix by one admitted character that repeats neither
      the point nor the exponent mark keeps it good. */
  lemma PrefixOkGrows(t: string, s: nat, n: nat)
    requires s <= n < |t|
    requires PrefixOk(t, s, n)
    requires AdmittedAt(t, s, n)
    requires n == s ==> !IsExponentMark(t[n])
    requires t[n] == '.' ==> NoPointBefore(t, s, n) && NoExponentBefore(t, s, n)
    requires IsExponentMark(t[n]) ==> NoExponentBefore(t, s, n)
    ensures PrefixOk(t, s, n + 1)
  {
  }

  /** The scanning loop decides exactly the position-by-position grammar, from
      any point reached with flags that record what it has seen. */
  lemma {:induction false} ScanFromDecidesShape(t: string, s: nat, i: nat, d: bool, e: bool)
    requires s <= i <= |t|
    requires PrefixOk(t, s, i)
    requires d <==> !NoPointBefore(t, s, i)
    requires e <==> !NoExponentBefore(t, s, i)
    requires !(s < i < |t| && IsExponentMark(t[i - 1]) && IsSign(t[i]))
    ensures ScanFrom(t, s, i, d, e) <==> PrefixOk(t, s, |t|)
    decreases |t| - i, 1
  {
    if i == |t| {
    } else if t[i] == '.' {
      ScanPoint(t, s, i, d, e);
    } else if IsExponentMark(t[i]) {
      ScanExponent(t, s, i, d, e);
    } else if IsDigit(t[i]) {
      PrefixOkGrows(t, s, i);
      ScanFromDecidesShape(t, s, i + 1, d, e);
    } else {
      assert !AdmittedAt(t, s, i);
    }
  }

  lemma {:induction false} ScanPoint(t: string, s: nat, i: nat, d: bool, e: bool)
    requires s <= i < |t| && t[i] == '.'
    requires PrefixOk(t, s, i)
    requires d <==> !NoPointBefore(t, s, i)
    requires e <==> !NoExponentBefore(t, s, i)
    ensures ScanFrom(t, s, i, d, e) <==> PrefixOk(t, s, |t|)
    decreases |t| - i, 0
  {
    if d {
      var k :| s <= k < i && t[k] == '.';
      assert !PrefixOk(t, s, |t|) by { assert t[k] == '.' && t[i] == '.'; }
    } else if e {
      var k :| s <= k < i && IsExponentMark(t[k]);
      assert !PrefixOk(t, s, |t|) by { assert IsExponentMark(t[k]) && t[i] == '.'; }
    } else {
      PrefixOkGrows(t, s, i);
      assert !NoPointBefore(t, s, i + 1) by { assert t[i] == '.'; }
      ScanFromDecidesShape(t, s, i + 1, true, e);
    }
  }

  lemma {:induction false} ScanExponent(t: string, s: nat, i: nat, d: bool, e: bool)
    requires s <= i < |t| && IsExponentMark(t[i])
    requires PrefixOk(t, s, i)
    requires d <==> !NoPointBefore(t, s, i)
    requires e <==> !NoExponentBefore(t, s, i)
    ensures ScanFrom(t, s, i, d, e) <==> PrefixOk(t, s, |t|)
    decreases |t| - i, 0
  {
    if e {
      var k :| s <= k < i && IsExponentMark(t[k]);
      assert !PrefixOk(t, s, |t|) by { assert IsExponentMark(t[k]) && IsExponentMark(t[i]); }
    } else if i == s {
    } else {
      PrefixOkGrows(t, s, i);
      assert !NoExponentBefore(t, s, i + 1) by { assert IsExponentMark(t[i]); }
      if i + 1 < |t| && IsSign(t[i + 1]) {
        if i + 2 >= |t| {
          assert !AdmittedAt(t, s, i + 1);
        } else {
          PrefixOkGrows(t, s, i + 1);
          ScanFromDecidesShape(t, s, i + 2, d, true);
        }
      } else {
        ScanFromDecidesShape(t, s, i + 1, d, true);
      }
    }
  }

  /** `isNumber` accepts exactly the tokens of the grammar. */
  lemma IsNumberIffShape(t: string)
    ensures IsNumber(t) <==> NumeralShape(t)
  {
    if |t| > 0 && !(IsSign(t[0]) && |t| == 1) {
      ScanFromDecidesShape(t, SignLength(t), SignLength(t), false, false);
    }
  }

  /** Edge cases of the recogniser as written: the empty token and a lone sign
      are rejected, while a bare point, a signed bare point and a mantissa
      followed by an exponent mark with no digits are accepted. */
  lemma RecogniserEdgeCases()
    ensures !IsNumber("") && !IsNumber("+") && !IsNumber("-")
    ensures IsNumber(".") && IsNumber("+.") && IsNumber("1e")
    ensures !IsNumber("1e+") && !IsNumber("e5") && IsNumber("-2.5E-3")
  {
    BareSignsRejected();
    LoneMarksAccepted();
    ExponentEdgeCases();
  }

  lemma BareSignsRejected()
    ensures !IsNumber("") && !IsNumber("+") && !IsNumber("-")
  {
  }

  lemma LoneMarksAccepted()
    ensures IsNumber(".") && IsNumber("+.") && IsNumber("1e")
  {
  }

  lemma ExponentEdgeCases()
    ensures !IsNumber("1e+") && !IsNumber("e5") && IsNumber("-2.5E-3")
  {
  }

  // ---------------------------------------------------------------------------
  // std::stod on a token: the longest prefix of the form
  //   [sign] digits [ '.' digits ] [ (e|E) [sign] digits ]
  // with at least one mantissa digit; an exponent mark with no digit after it
  // is not part of the converted prefix. Values are exact (no rounding).
  // ---------------------------------------------------------------------------

  /** The end of the run of digits starting at `i`. */
  function DigitRunEnd(t: string, i: nat): (j: nat)
    requires i <= |t|
    ensures i <= j <= |t|
    ensures forall k | i <= k < j :: IsDigit(t[k])
    ensures j < |t| ==> !IsDigit(t[j])
    decreases |t| - i
  {
    if i < |t| && IsDigit(t[i]) then DigitRunEnd(t, i + 1) else i
  }

  predicate AllDigits(ds: string) {
    forall k | 0 <= k < |ds| :: IsDigit(ds[k])
  }

  /** The value of a string of decimal digits. */
  function DigitsValue(ds: string): nat
    requires AllDigits(ds)
  {
    if |ds| == 0 then 0
    else 10 * DigitsValue(ds[..|ds| - 1]) + ((ds[|ds| - 1] as int) - ('0' as int))
  }

  function Pow10(n: nat): (r: nat)
    ensures r >= 1
  {
    if n == 0 then 1 else 10 * Pow10(n - 1)
  }

  /** 10 raised to an integer power, as an exact real. */
  function Scale10(n: int): (r: real)
    ensures r > 0.0
  {
    if n >= 0 then Pow10(n) as real else 1.0 / Pow10(-n) as real
  }

  /** The exponent strtod reads at position `j`, or 0 when no exponent with a
      digit starts there. */
  function ExponentValue(t: string, j: nat): int
    requires j <= |t|
  {
    if j < |t| && IsExponentMark(t[j]) then
      var k := if j + 1 < |t| && IsSign(t[j + 1]) then j + 2 else j + 1;
      var end := DigitRunEnd(t, k);
      if end == k then 0
      else if k == j + 2 && t[j + 1] == '-' then -(DigitsValue(t[k..end]) as int)
      else DigitsValue(t[k..end])
    else 0
  }

  /** `std::stod`: `None` is the `std::invalid_argument` it throws when no
      conversion can be performed. Overflow is not modelled. */
  function ParseDecimal(t: string): (r: Option<real>)
    ensures r.Some? ==> exists k | SignLength(t) <= k < |t| :: IsDigit(t[k])
    ensures r.Some? && SignLength(t) == 1 && t[0] == '-' ==> r.value <= 0.0
    ensures r.Some? && !(SignLength(t) == 1 && t[0] == '-') ==> r.value >= 0.0
  {
    var s := SignLength(t);
    var i := DigitRunEnd(t, s);
    var f := if i < |t| && t[i] == '.' then i + 1 else i;
    var j := DigitRunEnd(t, f);
    if i == s && j == f then None
    else
      assert if i > s then IsDigit(t[s]) else IsDigit(t[f]);
      var magnitude := Magnitude(t[s..i], t[f..j], ExponentValue(t, j));
      Some(if s == 1 && t[0] == '-' then -magnitude else magnitude)
  }

  /** The value of the digits before the point, the digits after it and the
      exponent. */
  function Magnitude(whole: string, fraction: string, exponent: int): (r: real)
    requires AllDigits(whole) && AllDigits(fraction)
    ensures r >= 0.0
  {
    var mantissa := DigitsValue(whole) as real + DigitsValue(fraction) as real / Pow10(|fraction|) as real;
    assert mantissa >= 0.0;
    mantissa * Scale10(exponent)
  }

  /** A mantissa digit occurs before any exponent mark. */
  predicate MantissaHasDigit(t: string) {
    exists k | SignLength(t) <= k < |t| ::
      IsDigit(t[k]) && forall m | SignLength(t) <= m < k :: !IsExponentMark(t[m])
  }

  /** A plain digit string converts to its decimal value. */
  lemma DigitStringParses(t: string)
    requires |t| > 0 && AllDigits(t)
    ensures ParseDecimal(t) == Some(DigitsValue(t) as real)
  {
    var i := |t|;
    assert SignLength(t) == 0;
    assert DigitRunEnd(t, 0) == i;
    assert DigitRunEnd(t, i) == i;
    assert ExponentValue(t, i) == 0;
    assert t[0..i] == t && t[i..i] == "";
    WholeMagnitude(t);
  }

  /** Digits with no fraction and no exponent have their plain value. */
  lemma WholeMagnitude(whole: string)
    requires AllDigits(whole)
    ensures Magnitude(whole, "", 0) == DigitsValue(whole) as real
  {
    assert DigitsValue("") == 0 && Pow10(0) == 1 && Scale10(0) == 1.0;
  }

  /** In a good body that opens with a point, a non-digit right after the point
      can only be the exponent mark. */
  lemma PointThenNonDigit(t: string, s: nat)
    requires s + 1 < |t| && PrefixOk(t, s, |t|)
    requires t[s] == '.' && !IsDigit(t[s + 1])
    ensures IsExponentMark(t[s + 1])
  {
    assert AdmittedAt(t, s, s + 1);
  }

  /** For an accepted token, the conversion succeeds exactly when the mantissa
      holds a digit. */
  lemma ParsesIffMantissaDigit(t: string)
    requires IsNumber(t)
    ensures ParseDecimal(t).Some? <==> MantissaHasDigit(t)
  {
    IsNumberIffShape(t);
    var s := SignLength(t);
    var i := DigitRunEnd(t, s);
    var f := if i < |t| && t[i] == '.' then i + 1 else i;
    var j := DigitRunEnd(t, f);
    if i > s {
      assert IsDigit(t[s]);
    } else if j > f {
      assert t[s] == '.' && IsDigit(t[s + 1]);
      assert forall m | s <= m < s + 1 :: !IsExponentMark(t[m]);
    } else if t[s] != '.' {
      assert false;
    } else if MantissaHasDigit(t) {
      var k :| s <= k < |t| && IsDigit(t[k]) && forall m | s <= m < k :: !IsExponentMark(t[m]);
      PointThenNonDigit(t, s);
      assert false;
    }
  }

  // ---------------------------------------------------------------------------
  // The corrected recogniser
  // ---------------------------------------------------------------------------

  /** `isNumber` as written lets through a bare point (alone, signed, or before
      an exponent), which `std::stod` cannot convert: the exception it throws is
      not caught anywhere, so such a token ends the process. */
  lemma PointAcceptedButUnconvertible()
    ensures IsNumber(".") && ParseDecimal(".").None?
    ensures IsNumber("-.") && ParseDecimal("-.").None?
    ensures IsNumber(".e5") && ParseDecimal(".e5").None?
  {
  }

  /** The recogniser the rest of the model uses: `isNumber` plus a mantissa digit. */
  predicate IsNumeral(t: string) {
    IsNumber(t) && MantissaHasDigit(t)
  }

  /** Every token the corrected recogniser accepts converts to a value. */
  lemma NumeralAlwaysParses(t: string)
    ensures IsNumeral(t) ==> ParseDecimal(t).Some?
  {
    if IsNumeral(t) {
      ParsesIffMantissaDigit(t);
    }
  }

  /** The value a numeral token pushes. */
  function NumeralValue(t: string): real
    requires IsNumeral(t)
  {
    NumeralAlwaysParses(t);
    ParseDecimal(t).value
  }

  /** The corrected recogniser differs from `isNumber` only on tokens that
      cannot be converted. */
  lemma NumeralIffConvertible(t: string)
    ensures IsNumeral(t) <==> IsNumber(t) && ParseDecimal(t).Some?
  {
    if IsNumber(t) {
      ParsesIffMantissaDigit(t);
    }
  }
}

=== FILE: operators.dfy ===
/** The bodies of the registered operators, grouped as the registry's
    `register*` functions group them. An operator's body reads its operands
    with `popStack` (0 when the stack is empty), and when it rejects them it
    reports an error and pushes them back in their original order. */
module Operators {
  import opened Basics
  import opened ValueStack
  import opened Angles
  import opened Rounding
  import opened MathHost
  import opened Calculator

  /** Operators declared `UNARY`: they pop one value. */
  datatype UnaryOp =
    | Sin | Cos | Tan | Asin | Acos | Atan
    | Ln | Log10 | Exp | Log2
    | Sqrt | Abs | Neg | Inv | Gamma | Factorial | Floor | Ceil | Round | Trunc

  /** Operators declared `BINARY`: they pop the top `x`, then `y` below it. */
  datatype BinaryOp = Add | Sub | Mul | Div | Mod | Pow | Atan2 | Logb

  /** Operators declared `NULLARY`: they read the stack themselves, if at all. */
  datatype NullaryOp =
    | PrintStack | Clear | Dup | Swap | Drop | Copy | Sum | Prod
    | PushPi | PushE | PushPhi | SetDegrees | SetRadians | SetGradians | Help

  datatype Body = UnaryBody(u: UnaryOp) | BinaryBody(b: BinaryOp) | NullaryBody(n: NullaryOp)

  /** The number of operands an operator pops. */
  function Arity(body: Body): nat {
    match body
    case UnaryBody(_) => 1
    case BinaryBody(_) => 2
    case NullaryBody(_) => 0
  }

  /** What a unary or binary body computes from its operands: a value to push,
      or the error to report before pushing the operands back. */
  datatype Computed = Value(v: real) | Fail(err: Error)

  /** `tan` refuses angles whose cosine is smaller than this in size. */
  const TangentThreshold: real := 0.0000000001

  /** Double division, whose zero divisor yields an IEEE infinity or NaN. */
  function Quotient(host: Host, a: real, b: real): real {
    if b == 0.0 then host.divideByZero(a) else a / b
  }

  /** The unary operators of `registerTrigonometric`. */
  predicate IsTrigonometric(op: UnaryOp) {
    op in {Sin, Cos, Tan, Asin, Acos, Atan}
  }

  /** The unary operators of `registerLogarithmic`. */
  predicate IsLogarithmic(op: UnaryOp) {
    op in {Ln, Log10, Exp, Log2}
  }

  /** The result of a unary operator applied to `x`, or the error it reports.
      Nine operators accept every operand; the others report one of the
      errors of their guards. */
  function UnaryValue(host: Host, mode: AngleMode, op: UnaryOp, x: real): (r: Computed)
    ensures op in {Sin, Cos, Atan, Abs, Neg, Floor, Ceil, Round, Trunc} ==> r.Value?
    ensures IsTrigonometric(op) ==> r == TrigValue(host, mode, op, x)
    ensures IsLogarithmic(op) ==> r == LogValue(host, op, x)
    ensures !IsTrigonometric(op) && !IsLogarithmic(op) ==> r == MiscValue(host, op, x)
    ensures r.Fail? ==> r.err in {TangentUndefined, AsinDomain, AcosDomain, NonPositiveLogarithm,
                                  Infinity, NegativeSquareRoot, NotANumber, DivisionByZero}
  {
    if IsTrigonometric(op) then TrigValue(host, mode, op, x)
    else if IsLogarithmic(op) then LogValue(host, op, x)
    else MiscValue(host, op, x)
  }

  /** A trigonometric operator: the argument of `sin`, `cos`, `tan` and the
      result of the inverse functions are in the current angle unit. */
  function TrigValue(host: Host, mode: AngleMode, op: UnaryOp, x: real): (r: Computed)
    requires IsTrigonometric(op)
    ensures op in {Sin, Cos, Atan} ==> r.Value?
    ensures op == Sin ==> r.v == host.sin(ToRadians(mode, x))
    ensures op == Tan ==> (r.Fail? <==> AbsR(host.cos(ToRadians(mode, x))) < TangentThreshold)
    ensures op == Tan && r.Fail? ==> r.err == TangentUndefined
    ensures op == Tan && r.Value? ==> r.v == host.tan(ToRadians(mode, x))
    ensures op == Asin ==> (r.Fail? <==> x < -1.0 || 1.0 < x) && (r.Fail? ==> r.err == AsinDomain)
    ensures op == Acos ==> (r.Fail? <==> x < -1.0 || 1.0 < x) && (r.Fail? ==> r.err == AcosDomain)
    ensures op == Asin && r.Value? ==> ToRadians(mode, r.v) == host.asin(x)
    ensures op == Cos ==> r.v == host.cos(ToRadians(mode, x))
    ensures op == Acos && r.Value? ==> ToRadians(mode, r.v) == host.acos(x)
    ensures op == Atan ==> ToRadians(mode, r.v) == host.atan(x)
  {
    match op
    case Sin => Value(host.sin(ToRadians(mode, x)))
    case Cos => Value(host.cos(ToRadians(mode, x)))
    case Tan =>
      var radians := ToRadians(mode, x);
      if AbsR(host.cos(radians)) < TangentThreshold then Fail(TangentUndefined)
      else Value(host.tan(radians))
    case Asin =>
      if x < -1.0 || x > 1.0 then Fail(AsinDomain)
      else
        FromRadiansUndoesToRadians(mode, host.asin(x));
        Value(FromRadians(mode, host.asin(x)))
    case Acos =>
      if x < -1.0 || x > 1.0 then Fail(AcosDomain)
      else
        FromRadiansUndoesToRadians(mode, host.acos(x));
        Value(FromRadians(mode, host.acos(x)))
    case Atan =>
      FromRadiansUndoesToRadians(mode, host.atan(x));
      Value(FromRadians(mode, host.atan(x)))
  }

  /** A logarithm or the exponential. */
  function LogValue(host: Host, op: UnaryOp, x: real): (r: Computed)
    requires IsLogarithmic(op)
    ensures op != Exp ==> (r.Fail? <==> x <= 0.0) && (r.Fail? ==> r.err == NonPositiveLogarithm)
    ensures op == Exp ==> (r.Fail? <==> host.expIsInf(x)) && (r.Fail? ==> r.err == Infinity)
    ensures op == Ln && r.Value? ==> r.v == host.ln(x)
    ensures op == Log10 && r.Value? ==> r.v == host.log10(x)
    ensures op == Exp && r.Value? ==> r.v == host.exp(x)
    ensures op == Log2 && r.Value? ==> r.v == host.log2(x)
  {
    match op
    case Ln => if x <= 0.0 then Fail(NonPositiveLogarithm) else Value(host.ln(x))
    case Log10 => if x <= 0.0 then Fail(NonPositiveLogarithm) else Value(host.log10(x))
    case Exp => if host.expIsInf(x) then Fail(Infinity) else Value(host.exp(x))
    case Log2 => if x <= 0.0 then Fail(NonPositiveLogarithm) else Value(host.log2(x))
  }

  /** The unary operators of `registerMiscellaneous`. */
  function MiscValue(host: Host, op: UnaryOp, x: real): (r: Computed)
    requires !IsTrigonometric(op) && !IsLogarithmic(op)
    ensures op in {Abs, Neg, Floor, Ceil, Round, Trunc} ==> r.Value?
    ensures op == Sqrt ==> (r.Fail? <==> x < 0.0) && (r.Fail? ==> r.err == NegativeSquareRoot)
    ensures op == Gamma ==> (r.Fail? <==> host.gammaIsNaN(x) || host.gammaIsInf(x))
    ensures op == Factorial ==> (r.Fail? <==> host.gammaIsNaN(x + 1.0) || host.gammaIsInf(x + 1.0))
    ensures op in {Gamma, Factorial} && r.Fail? ==> (r.err == NotANumber || r.err == Infinity)
    ensures op == Inv ==> (r.Fail? <==> x == 0.0) && (r.Fail? ==> r.err == DivisionByZero)
    ensures op == Inv && r.Value? ==> r.v * x == 1.0
    ensures op == Neg ==> r.Value? && r.v + x == 0.0
    ensures op == Abs ==> r.Value? && r.v >= 0.0 && (r.v == x || r.v == -x)
    ensures op in {Floor, Ceil, Round, Trunc} ==> r.Value? && IsWhole(r.v) && -1.0 < x - r.v < 1.0
    ensures op == Floor ==> r.Value? && r.v <= x
    ensures op == Ceil ==> r.Value? && x <= r.v
    ensures op == Trunc ==> r.Value? && AbsR(r.v) <= AbsR(x)
    ensures op == Sqrt && r.Value? ==> r.v == host.sqrt(x)
    ensures op == Gamma && r.Value? ==> r.v == host.tgamma(x)
    ensures op == Factorial && r.Value? ==> r.v == host.tgamma(x + 1.0)
    ensures op == Floor ==> r.v == FloorR(x)
    ensures op == Ceil ==> r.v == CeilR(x)
    ensures op == Round ==> r.v == RoundR(x)
    ensures op == Trunc ==> r.v == TruncR(x)
  {
    match op
    case Sqrt => if x < 0.0 then Fail(NegativeSquareRoot) else Value(host.sqrt(x))
    case Abs => Value(AbsR(x))
    case Neg => Value(-x)
    case Inv => if x == 0.0 then Fail(DivisionByZero) else Value(1.0 / x)
    case Gamma => GammaChecked(host, x)
    case Factorial => GammaChecked(host, x + 1.0)
    case Floor => Value(FloorR(x))
    case Ceil => Value(CeilR(x))
    case Round => Value(RoundR(x))
    case Trunc => Value(TruncR(x))
  }

  /** `std::tgamma(a)` with the NaN test before the infinity test. */
  function GammaChecked(host: Host, a: real): (r: Computed)
    ensures r.Fail? <==> host.gammaIsNaN(a) || host.gammaIsInf(a)
    ensures r.Fail? ==> (r.err == NotANumber <==> host.gammaIsNaN(a))
    ensures r.Fail? ==> (r.err == NotANumber || r.err == Infinity)
    ensures r.Value? ==> r.v == host.tgamma(a)
  {
    if host.gammaIsNaN(a) then Fail(NotANumber)
    else if host.gammaIsInf(a) then Fail(Infinity)
    else Value(host.tgamma(a))
  }

  /** The result of a binary operator applied to `y` (below) and `x` (the
      top), or the error it reports. */
  function BinaryValue(host: Host, mode: AngleMode, op: BinaryOp, y: real, x: real): (r: Computed)
    ensures op in {Add, Sub, Mul, Atan2} ==> r.Value?
    ensures op == Add ==> r.v - x == y
    ensures op == Sub ==> r.v + x == y
    ensures op == Div ==> (r.Fail? <==> x == 0.0) && (r.Fail? ==> r.err == DivisionByZero)
    ensures op == Div && r.Value? ==> r.v * x == y
    ensures op == Mod ==> (r.Fail? <==> x == 0.0) && (r.Fail? ==> r.err == ModuloByZero)
    ensures op == Mod && r.Value? ==> -AbsR(x) < r.v < AbsR(x)
    ensures op == Pow ==> (r.Fail? <==> host.powIsNaN(y, x) || host.powIsInf(y, x))
    ensures op == Pow && r.Fail? ==> (r.err == NotANumber <==> host.powIsNaN(y, x))
    ensures op == Pow && r.Fail? ==> (r.err == NotANumber || r.err == Infinity)
    ensures op == Logb ==> (r.Fail? <==> y <= 0.0 || x <= 0.0 || x == 1.0)
    ensures op == Logb && r.Fail? ==> (r.err == LogarithmBaseOne <==> 0.0 < y && x == 1.0)
    ensures op == Logb && r.Fail? ==> (r.err == LogarithmBaseOne || r.err == NonPositiveLogarithm)
    ensures op == Mul ==> r.v == y * x
    ensures op == Mod && r.Value? ==> r.v == Fmod(y, x)
    ensures op == Pow && r.Value? ==> r.v == host.pow(y, x)
    ensures op == Atan2 ==> ToRadians(mode, r.v) == host.atan2(y, x)
    ensures op == Logb && r.Value? ==> r.v == Quotient(host, host.ln(y), host.ln(x))
  {
    match op
    case Add => Value(y + x)
    case Sub => Value(y - x)
    case Mul => Value(y * x)
    case Div => if x == 0.0 then Fail(DivisionByZero) else Value(y / x)
    case Mod =>
      if x == 0.0 then Fail(ModuloByZero)
      else
        FmodSignAndSize(y, x);
        Value(Fmod(y, x))
    case Pow =>
      if host.powIsNaN(y, x) then Fail(NotANumber)
      else if host.powIsInf(y, x) then Fail(Infinity)
      else Value(host.pow(y, x))
    case Atan2 =>
      FromRadiansUndoesToRadians(mode, host.atan2(y, x));
      Value(FromRadians(mode, host.atan2(y, x)))
    case Logb =>
      if y <= 0.0 || x <= 0.0 then Fail(NonPositiveLogarithm)
      else if x == 1.0 then Fail(LogarithmBaseOne)
      else Value(Quotient(host, host.ln(y), host.ln(x)))
  }

  /** A unary body: pop `x`, then push the result, or push `x` back. The
      error is the one `UnaryValue` reports, and nothing else changes. */
  function ApplyUnary(host: Host, c: Calc, op: UnaryOp): (r: Outcome)
    ensures r.state.memory == c.memory && r.state.scale == c.scale && r.state.angle == c.angle
    ensures var (x, rest) := Pop(c.stack);
            var v := UnaryValue(host, c.angle, op, x);
            && (r.error.Some? <==> v.Fail?)
            && (v.Fail? ==> r.error == Some(v.err) && r.state.stack == rest + [x])
            && (v.Value? ==> r.state.stack == rest + [v.v])
  {
    var (x, rest) := Pop(c.stack);
    match UnaryValue(host, c.angle, op, x)
    case Value(v) => Ok(c.(stack := rest + [v]))
    case Fail(e) => Failed(c.(stack := rest + [x]), e)
  }

  /** A binary body: pop `x`, pop `y`, then push the result, or push `y` and
      `x` back. The error is the one `BinaryValue` reports, and nothing else
      changes. */
  function ApplyBinary(host: Host, c: Calc, op: BinaryOp): (r: Outcome)
    ensures r.state.memory == c.memory && r.state.scale == c.scale && r.state.angle == c.angle
    ensures var (x, afterX) := Pop(c.stack);
            var (y, rest) := Pop(afterX);
            var v := BinaryValue(host, c.angle, op, y, x);
            && (r.error.Some? <==> v.Fail?)
            && (v.Fail? ==> r.error == Some(v.err) && r.state.stack == rest + [y, x])
            && (v.Value? ==> r.state.stack == rest + [v.v])
  {
    var (x, afterX) := Pop(c.stack);
    var (y, rest) := Pop(afterX);
    match BinaryValue(host, c.angle, op, y, x)
    case Value(v) => Ok(c.(stack := rest + [v]))
    case Fail(e) => Failed(c.(stack := rest + [y, x]), e)
  }

  /** A nullary body. */
  function ApplyNullary(host: Host, c: Calc, op: NullaryOp): (r: Outcome)
    ensures r.state.memory == c.memory && r.state.scale == c.scale
    ensures r.state.angle != c.angle ==> op in {SetDegrees, SetRadians, SetGradians}
  {
    var s := c.stack;
    match op
    case PrintStack => Ok(c)
    case Help => Ok(c)
    case Clear => Ok(c.(stack := []))
    case Dup => if |s| == 0 then Failed(c, StackEmpty) else Ok(Push(c, Peek(s)))
    case Swap =>
      if |s| < 2 then Failed(c, NeedTwoElements)
      else
        var (x, afterX) := Pop(s);
        var (y, rest) := Pop(afterX);
        Ok(c.(stack := rest + [x, y]))
    case Drop => if |s| == 0 then Ok(c) else Ok(c.(stack := Pop(s).1))
    case Copy => if host.clipboardWorks then Ok(c) else Failed(c, ClipboardFailed)
    case Sum => if |s| == 0 then Ok(Push(c, 0.0)) else Ok(c.(stack := [SumFromTop(s, 0.0)]))
    case Prod => if |s| == 0 then Ok(Push(c, 1.0)) else Ok(c.(stack := [ProductFromTop(s, 1.0)]))
    case PushPi => Ok(Push(c, Pi))
    case PushE => Ok(Push(c, E))
    case PushPhi => Ok(Push(c, (1.0 + host.sqrt(5.0)) / 2.0))
    case SetDegrees => Ok(c.(angle := SetAngleMode(c.angle, "degrees")))
    case SetRadians => Ok(c.(angle := SetAngleMode(c.angle, "radians")))
    case SetGradians => Ok(c.(angle := SetAngleMode(c.angle, "gradians")))
  }

  /** `execute` of a registered operator. No operator touches memory or the
      scale, and only the three mode commands touch the angle mode. */
  function Apply(host: Host, c: Calc, body: Body): (r: Outcome)
    ensures r.state.memory == c.memory && r.state.scale == c.scale
    ensures r.state.angle != c.angle ==> body in {NullaryBody(SetDegrees), NullaryBody(SetRadians), NullaryBody(SetGradians)}
  {
    match body
    case UnaryBody(u) => ApplyUnary(host, c, u)
    case BinaryBody(b) => ApplyBinary(host, c, b)
    case NullaryBody(n) => ApplyNullary(host, c, n)
  }

  // ---------------------------------------------------------------------------
  // Properties of the operator bodies
  // ---------------------------------------------------------------------------

  /** An operator that reports an error leaves the calculator exactly as it
      found it, provided the stack held as many values as it pops. */
  lemma FailureRestoresOperands(host: Host, c: Calc, body: Body)
    requires |c.stack| >= Arity(body)
    ensures Apply(host, c, body).error.Some? ==> Apply(host, c, body).state == c
  {
    var s := c.stack;
    match body
    case UnaryBody(u) =>
      assert Pop(s).1 + [Pop(s).0] == s;
    case BinaryBody(b) =>
      var (x, afterX) := Pop(s);
      var (y, rest) := Pop(afterX);
      assert rest + [y] == afterX && afterX + [x] == s;
      assert rest + [y, x] == s;
    case NullaryBody(n) =>
  }

  /** `/` and `%` with 0 on top report the division by zero and push `y`
      and `x` back, leaving the calculator as it was. */
  lemma ZeroDivisorRestores(host: Host, c: Calc, op: BinaryOp)
    requires op == Div || op == Mod
    requires |c.stack| >= 2 && Peek(c.stack) == 0.0
    ensures Apply(host, c, BinaryBody(op)) == Failed(c, if op == Div then DivisionByZero else ModuloByZero)
  {
    FailureRestoresOperands(host, c, BinaryBody(op));
  }

  /** A unary operator whose guard rejects the top reports its error and
      pushes the top back, leaving the calculator as it was: `0 inv`, `-1
      sqrt`, `0 ln`. */
  lemma RejectedOperandRestored(host: Host, c: Calc, op: UnaryOp)
    requires |c.stack| >= 1 && UnaryValue(host, c.angle, op, Peek(c.stack)).Fail?
    ensures Apply(host, c, UnaryBody(op)) == Failed(c, UnaryValue(host, c.angle, op, Peek(c.stack)).err)
    ensures op == Inv && Peek(c.stack) == 0.0 ==> Apply(host, c, UnaryBody(op)) == Failed(c, DivisionByZero)
    ensures op == Sqrt && Peek(c.stack) < 0.0 ==> Apply(host, c, UnaryBody(op)) == Failed(c, NegativeSquareRoot)
  {
    FailureRestoresOperands(host, c, UnaryBody(op));
  }

  /** On a short stack a failing operator pushes back a zero for each operand
      it did not find, below the values it did find. */
  lemma ShortStackFailure(host: Host, c: Calc, body: Body)
    requires |c.stack| < Arity(body)
    ensures Apply(host, c, body).error.Some? ==>
      Apply(host, c, body).state == c.(stack := Zeros(Arity(body) - |c.stack|) + c.stack)
  {
    match body
    case UnaryBody(u) => UnaryShortStackFailure(host, c, u);
    case BinaryBody(b) => BinaryShortStackFailure(host, c, b);
  }

  lemma UnaryShortStackFailure(host: Host, c: Calc, op: UnaryOp)
    requires |c.stack| < 1
    ensures Apply(host, c, UnaryBody(op)).error.Some? ==>
      Apply(host, c, UnaryBody(op)).state == c.(stack := Zeros(1) + c.stack)
  {
    UnaryOnEmptyFailure(host, c, op);
    assert Zeros(1) == [0.0];
  }

  lemma BinaryShortStackFailure(host: Host, c: Calc, op: BinaryOp)
    requires |c.stack| < 2
    ensures Apply(host, c, BinaryBody(op)).error.Some? ==>
      Apply(host, c, BinaryBody(op)).state == c.(stack := Zeros(2 - |c.stack|) + c.stack)
  {
    if |c.stack| == 0 {
      BinaryOnEmptyFailure(host, c, op);
      assert Zeros(2) == [0.0, 0.0];
    } else {
      BinaryOnOneFailure(host, c, op);
      assert Zeros(1) == [0.0];
    }
  }

  lemma UnaryOnEmptyFailure(host: Host, c: Calc, op: UnaryOp)
    requires c.stack == []
    ensures ApplyUnary(host, c, op).error.Some? ==> ApplyUnary(host, c, op).state == c.(stack := [0.0])
  {
    assert Pop([]) == (0.0, []);
  }

  lemma BinaryOnEmptyFailure(host: Host, c: Calc, op: BinaryOp)
    requires c.stack == []
    ensures ApplyBinary(host, c, op).error.Some? ==> ApplyBinary(host, c, op).state == c.(stack := [0.0, 0.0])
  {
    assert Pop([]) == (0.0, []);
  }

  lemma BinaryOnOneFailure(host: Host, c: Calc, op: BinaryOp)
    requires |c.stack| == 1
    ensures ApplyBinary(host, c, op).error.Some? ==> ApplyBinary(host, c, op).state == c.(stack := [0.0] + c.stack)
  {
    assert Pop([]) == (0.0, []);
    assert Pop(c.stack) == (c.stack[0], []);
    assert [0.0] + c.stack == [0.0, c.stack[0]];
  }

  /** Once the zeros at the bottom of the stack are removed, as every input
      line ends by doing, an operator that failed has changed nothing. */
  lemma FailureInvisibleAfterStrip(host: Host, c: Calc, body: Body)
    ensures Apply(host, c, body).error.Some? ==>
      var r := Apply(host, c, body).state;
      r.(stack := c.stack) == c && StripBottomZeros(r.stack) == StripBottomZeros(c.stack)
  {
    var o := Apply(host, c, body);
    if |c.stack| >= Arity(body) {
      FailureRestoresOperands(host, c, body);
      StripOfRestored(o, c);
    } else {
      var zeros := Zeros(Arity(body) - |c.stack|);
      ShortStackFailure(host, c, body);
      StripBottomZerosAfterZeros(zeros, c.stack);
      StripOfFailed(o, c, zeros);
    }
  }

  /** An outcome that restores the calculator on failure. */
  lemma StripOfRestored(o: Outcome, c: Calc)
    requires o.error.Some? ==> o.state == c
    ensures o.error.Some? ==> o.state.(stack := c.stack) == c && StripBottomZeros(o.state.stack) == StripBottomZeros(c.stack)
  {
  }

  /** An outcome whose stack is zeros followed by the old stack. */
  lemma StripOfFailed(o: Outcome, c: Calc, zeros: Stack)
    requires o.error.Some? ==> o.state == c.(stack := zeros + c.stack)
    requires StripBottomZeros(zeros + c.stack) == StripBottomZeros(c.stack)
    ensures o.error.Some? ==> o.state.(stack := c.stack) == c && StripBottomZeros(o.state.stack) == StripBottomZeros(c.stack)
  {
  }

  /** A unary or binary operator that succeeds replaces its operands by one
      value and leaves the rest of the stack alone. */
  lemma SuccessReplacesOperands(host: Host, c: Calc, body: Body)
    requires !body.NullaryBody? && |c.stack| >= Arity(body)
    ensures var r := Apply(host, c, body);
      r.error.None? ==>
        |r.state.stack| == |c.stack| - Arity(body) + 1 &&
        r.state.stack[..|c.stack| - Arity(body)] == c.stack[..|c.stack| - Arity(body)] &&
        r.state.(stack := c.stack) == c
  {
    var s := c.stack;
    var n := |s|;
    if body.UnaryBody? {
      assert Pop(s).1 == s[..n - 1];
    } else {
      assert Pop(s).1 == s[..n - 1];
      assert Pop(Pop(s).1).1 == s[..n - 2];
    }
  }

  /** `c` empties the stack; `d` pushes a copy of the top. */
  lemma ClearAndDupEffects(host: Host, c: Calc)
    ensures Apply(host, c, NullaryBody(Clear)) == Ok(c.(stack := []))
    ensures |c.stack| > 0 ==> Apply(host, c, NullaryBody(Dup)) == Ok(c.(stack := c.stack + [c.stack[|c.stack| - 1]]))
    ensures |c.stack| == 0 ==> Apply(host, c, NullaryBody(Dup)) == Failed(c, StackEmpty)
  {
  }

  /** `r` exchanges the two top values; `pop` removes the top, and does
      nothing on an empty stack. */
  lemma SwapAndDropEffects(host: Host, c: Calc)
    ensures var s := c.stack; var n := |s|;
      n >= 2 ==> Apply(host, c, NullaryBody(Swap)) == Ok(c.(stack := s[..n - 2] + [s[n - 1], s[n - 2]]))
    ensures |c.stack| < 2 ==> Apply(host, c, NullaryBody(Swap)) == Failed(c, NeedTwoElements)
    ensures |c.stack| > 0 ==> Apply(host, c, NullaryBody(Drop)) == Ok(c.(stack := c.stack[..|c.stack| - 1]))
    ensures |c.stack| == 0 ==> Apply(host, c, NullaryBody(Drop)) == Ok(c)
  {
    SwapEffect(host, c);
    DropEffect(host, c);
  }

  lemma SwapEffect(host: Host, c: Calc)
    ensures var s := c.stack; var n := |s|;
      n >= 2 ==> ApplyNullary(host, c, Swap) == Ok(c.(stack := s[..n - 2] + [s[n - 1], s[n - 2]]))
    ensures |c.stack| < 2 ==> ApplyNullary(host, c, Swap) == Failed(c, NeedTwoElements)
  {
    var s := c.stack;
    var n := |s|;
    if n >= 2 {
      assert Pop(s) == (s[n - 1], s[..n - 1]);
      assert s[..n - 1][..n - 2] == s[..n - 2];
      assert Pop(s[..n - 1]) == (s[n - 2], s[..n - 2]);
    }
  }

  lemma DropEffect(host: Host, c: Calc)
    ensures |c.stack| > 0 ==> ApplyNullary(host, c, Drop) == Ok(c.(stack := c.stack[..|c.stack| - 1]))
    ensures |c.stack| == 0 ==> ApplyNullary(host, c, Drop) == Ok(c)
  {
  }

  /** `sum` and `prod` replace the whole stack by its sum or product; on an
      empty stack they push the empty sum 0 and the empty product 1. */
  lemma SumAndProductEffects(host: Host, c: Calc)
    ensures |c.stack| > 0 ==> Apply(host, c, NullaryBody(Sum)) == Ok(c.(stack := [SumOf(c.stack)]))
    ensures |c.stack| > 0 ==> Apply(host, c, NullaryBody(Prod)) == Ok(c.(stack := [ProductOf(c.stack)]))
    ensures |c.stack| == 0 ==> Apply(host, c, NullaryBody(Sum)) == Ok(c.(stack := [0.0]))
    ensures |c.stack| == 0 ==> Apply(host, c, NullaryBody(Prod)) == Ok(c.(stack := [1.0]))
  {
  }

  /** Swapping twice restores the stack. */
  lemma SwapIsInvolution(host: Host, c: Calc)
    requires |c.stack| >= 2
    ensures Apply(host, Apply(host, c, NullaryBody(Swap)).state, NullaryBody(Swap)) == Ok(c)
  {
    var s := c.stack;
    var n := |s|;
    SwapAndDropEffects(host, c);
    var t := s[..n - 2] + [s[n - 1], s[n - 2]];
    SwapAndDropEffects(host, c.(stack := t));
    assert t[..n - 2] == s[..n - 2];
    assert t[..n - 2] + [t[n - 1], t[n - 2]] == s;
  }

  /** Dropping a duplicated value restores the stack. */
  lemma DropUndoesDup(host: Host, c: Calc)
    requires |c.stack| > 0
    ensures Apply(host, Apply(host, c, NullaryBody(Dup)).state, NullaryBody(Drop)) == Ok(c)
  {
    ClearAndDupEffects(host, c);
    SwapAndDropEffects(host, c.(stack := c.stack + [c.stack[|c.stack| - 1]]));
    assert (c.stack + [c.stack[|c.stack| - 1]])[..|c.stack|] == c.stack;
  }

  /** Pushing a constant and dropping it restores the stack. */
  lemma DropUndoesConstant(host: Host, c: Calc, op: NullaryOp)
    requires op in {PushPi, PushE, PushPhi}
    ensures Apply(host, Apply(host, c, NullaryBody(op)).state, NullaryBody(Drop)) == Ok(c)
  {
    var r := Apply(host, c, NullaryBody(op)).state;
    assert r.stack[..|c.stack|] == c.stack;
  }

  /** The mode commands change the angle mode and nothing else. */
  lemma ModeCommands(host: Host, c: Calc)
    ensures Apply(host, c, NullaryBody(SetDegrees)) == Ok(c.(angle := Degrees))
    ensures Apply(host, c, NullaryBody(SetRadians)) == Ok(c.(angle := Radians))
    ensures Apply(host, c, NullaryBody(SetGradians)) == Ok(c.(angle := Gradians))
  {
  }
}

=== FILE: registry.dfy ===
/** `OperatorRegistry`: the table from operator name to operator, filled once
    by the register functions, and the alphabetical listing of its names. */
module Registry {
  import opened Basics
  import opened Operators

  /** The declared kind of an operator. */
  datatype OperatorType = Nullary | Unary | Binary

  datatype Operator = Operator(name: string, kind: OperatorType, body: Body, description: string)

  type Table = map<string, Operator>

  /** The number of operands an operator of the given kind pops. */
  function TypeArity(t: OperatorType): nat {
    match t
    case Nullary => 0
    case Unary => 1
    case Binary => 2
  }

  /** Every entry is filed under its own name, and its declared kind agrees
      with the number of operands its body pops. */
  predicate WellFormed(table: Table) {
    forall k | k in table :: table[k].name == k && TypeArity(table[k].kind) == Arity(table[k].body)
  }

  /** `registerOperator`: files the operator under its name, replacing any
      operator of the same name. */
  function RegisterOperator(table: Table, op: Operator): (r: Table)
    ensures r.Keys == table.Keys + {op.name}
    ensures r[op.name] == op
    ensures forall k | k in table && k != op.name :: r[k] == table[k]
    ensures WellFormed(table) && TypeArity(op.kind) == Arity(op.body) ==> WellFormed(r)
  {
    table[op.name := op]
  }

  /** `getOperator`: the operator filed under the name, if any. */
  function GetOperator(table: Table, name: string): (r: Option<Operator>)
    ensures r.Some? <==> name in table
    ensures r.Some? ==> r.value == table[name]
    ensures WellFormed(table) && r.Some? ==> r.value.name == name
  {
    if name in table then Some(table[name]) else None
  }

  /** `hasOperator`. */
  function HasOperator(table: Table, name: string): (r: bool)
    ensures r <==> GetOperator(table, name).Some?
  {
    name in table
  }

  /** The last registration of a name is the one that is found. */
  lemma LastRegistrationWins(table: Table, a: Operator, b: Operator)
    requires a.name == b.name
    ensures GetOperator(RegisterOperator(RegisterOperator(table, a), b), a.name) == Some(b)
    ensures RegisterOperator(RegisterOperator(table, a), b) == RegisterOperator(table, b)
  {
  }

  // ---------------------------------------------------------------------------
  // The operators registered at start-up
  // ---------------------------------------------------------------------------

  /** The names each register function files. */
  const ArithmeticNames: set<string> := {"+", "-", "*", "/", "%", "^"}
  const TrigonometricNames: set<string> := {"sin", "cos", "tan", "asin", "acos", "atan", "atan2"}
  const LogarithmicNames: set<string> := {"ln", "log", "exp", "log2", "logb"}
  const StackNames: set<string> := {"p", "c", "d", "r", "swap", "pop", "copy", "sum", "prod"}
  const MiscellaneousFunctionNames: set<string> := {"sqrt", "abs", "neg", "inv", "gamma", "!", "floor", "ceil", "round", "trunc"}
  const MiscellaneousCommandNames: set<string> := {"pi", "e", "phi", "deg", "rad", "grd", "help", "?"}

  /** The names of the operators registered at start-up. */
  const OperatorNames: set<string> :=
    ArithmeticNames + TrigonometricNames + LogarithmicNames + StackNames
    + MiscellaneousFunctionNames + MiscellaneousCommandNames

  /** The operator is filed under `name` and declares as many operands as
      its body pops. */
  predicate Files(op: Operator, name: string) {
    op.name == name && TypeArity(op.kind) == Arity(op.body)
  }

  /** The operators `registerArithmetic` file, by name. */
  function ArithmeticOperator(name: string): (r: Option<Operator>)
  {
    if name == "+" then Some(Operator("+", Binary, BinaryBody(Add), "Addition"))
    else if name == "-" then Some(Operator("-", Binary, BinaryBody(Sub), "Subtraction"))
    else if name == "*" then Some(Operator("*", Binary, BinaryBody(Mul), "Multiplication"))
    else if name == "/" then Some(Operator("/", Binary, BinaryBody(Div), "Division"))
    else if name == "%" then Some(Operator("%", Binary, BinaryBody(Mod), "Modulo"))
    else if name == "^" then Some(Operator("^", Binary, BinaryBody(Pow), "Power"))
    else None
  }

  /** The operators `registerTrigonometric` file, by name. */
  function TrigonometricOperator(name: string): (r: Option<Operator>)
  {
    if name == "sin" then Some(Operator("sin", Unary, UnaryBody(Sin), "Sine"))
    else if name == "cos" then Some(Operator("cos", Unary, UnaryBody(Cos), "Cosine"))
    else if name == "tan" then Some(Operator("tan", Unary, UnaryBody(Tan), "Tangent"))
    else if name == "asin" then Some(Operator("asin", Unary, UnaryBody(Asin), "Arcsine"))
    else if name == "acos" then Some(Operator("acos", Unary, UnaryBody(Acos), "Arccosine"))
    else if name == "atan" then Some(Operator("atan", Unary, UnaryBody(Atan), "Arctangent"))
    else if name == "atan2" then Some(Operator("atan2", Binary, BinaryBody(Atan2), "Arctangent2"))
    else None
  }

  /** The operators `registerLogarithmic` file, by name. */
  function LogarithmicOperator(name: string): (r: Option<Operator>)
  {
    if name == "ln" then Some(Operator("ln", Unary, UnaryBody(Ln), "Natural logarithm"))
    else if name == "log" then Some(Operator("log", Unary, UnaryBody(Log10), "Base-10 logarithm"))
    else if name == "exp" then Some(Operator("exp", Unary, UnaryBody(Exp), "Exponential (e^x)"))
    else if name == "log2" then Some(Operator("log2", Unary, UnaryBody(Log2), "Base-2 logarithm"))
    else if name == "logb" then Some(Operator("logb", Binary, BinaryBody(Logb), "Logarithm with arbitrary base (x base logb)"))
    else None
  }

  /** The operators `registerStackOperations` file, by name. */
  function StackOperation(name: string): (r: Option<Operator>)
  {
    if name == "p" then Some(Operator("p", Nullary, NullaryBody(PrintStack), "Print stack"))
    else if name == "c" then Some(Operator("c", Nullary, NullaryBody(Clear), "Clear stack"))
    else if name == "d" then Some(Operator("d", Nullary, NullaryBody(Dup), "Duplicate top"))
    else if name == "r" then Some(Operator("r", Nullary, NullaryBody(Swap), "Reverse top 2"))
    else if name == "swap" then Some(Operator("swap", Nullary, NullaryBody(Swap), "Swap top 2 (alias for r)"))
    else if name == "pop" then Some(Operator("pop", Nullary, NullaryBody(Drop), "Pop top value"))
    else if name == "copy" then Some(Operator("copy", Nullary, NullaryBody(Copy), "Copy top to clipboard"))
    else if name == "sum" then Some(Operator("sum", Nullary, NullaryBody(Sum), "Sum all stack values"))
    else if name == "prod" then Some(Operator("prod", Nullary, NullaryBody(Prod), "Product of all stack values"))
    else None
  }

  /** The unary operators `registerMiscellaneous` file, by name. */
  function MiscellaneousFunction(name: string): (r: Option<Operator>)
  {
    if name == "sqrt" then Some(Operator("sqrt", Unary, UnaryBody(Sqrt), "Square root"))
    else if name == "abs" then Some(Operator("abs", Unary, UnaryBody(Abs), "Absolute value"))
    else if name == "neg" then Some(Operator("neg", Unary, UnaryBody(Neg), "Negation"))
    else if name == "inv" then Some(Operator("inv", Unary, UnaryBody(Inv), "Inverse (1/x)"))
    else if name == "gamma" then Some(Operator("gamma", Unary, UnaryBody(Gamma), "Gamma function"))
    else if name == "!" then Some(Operator("!", Unary, UnaryBody(Factorial), "Factorial"))
    else if name == "floor" then Some(Operator("floor", Unary, UnaryBody(Floor), "Floor (round down)"))
    else if name == "ceil" then Some(Operator("ceil", Unary, UnaryBody(Ceil), "Ceiling (round up)"))
    else if name == "round" then Some(Operator("round", Unary, UnaryBody(Round), "Round to nearest integer"))
    else if name == "trunc" then Some(Operator("trunc", Unary, UnaryBody(Trunc), "Truncate (round toward zero)"))
    else None
  }

  /** The constants, angle modes and help that `registerMiscellaneous` file, by name. */
  function MiscellaneousCommand(name: string): (r: Option<Operator>)
  {
    if name == "pi" then Some(Operator("pi", Nullary, NullaryBody(PushPi), "Push π (3.14159...)"))
    else if name == "e" then Some(Operator("e", Nullary, NullaryBody(PushE), "Push e (2.71828...)"))
    else if name == "phi" then Some(Operator("phi", Nullary, NullaryBody(PushPhi), "Push φ golden ratio (1.61803...)"))
    else if name == "deg" then Some(Operator("deg", Nullary, NullaryBody(SetDegrees), "Set degrees mode"))
    else if name == "rad" then Some(Operator("rad", Nullary, NullaryBody(SetRadians), "Set radians mode"))
    else if name == "grd" then Some(Operator("grd", Nullary, NullaryBody(SetGradians), "Set gradians mode"))
    else if name == "help" then Some(Operator("help", Nullary, NullaryBody(Help), "Show this help"))
    else if name == "?" then Some(Operator("?", Nullary, NullaryBody(Help), "Show help (alias for help)"))
    else None
  }

  /** The operator the register functions file under a name, if any. The
      groups file disjoint sets of names, so the order in which they are
      consulted does not matter. */
  function RegisteredOperator(name: string): (r: Option<Operator>)
  {
    if ArithmeticOperator(name).Some? then ArithmeticOperator(name)
    else if TrigonometricOperator(name).Some? then TrigonometricOperator(name)
    else if LogarithmicOperator(name).Some? then LogarithmicOperator(name)
    else if StackOperation(name).Some? then StackOperation(name)
    else if MiscellaneousFunction(name).Some? then MiscellaneousFunction(name)
    else MiscellaneousCommand(name)
  }

  /** Each register function files an operator only under a name of its
      group, under that name, and with as many declared operands as its
      body pops. */
  lemma ArithmeticOperatorFiles(name: string)
    ensures ArithmeticOperator(name).Some? ==> Files(ArithmeticOperator(name).value, name) && name in ArithmeticNames
  {
  }

  lemma TrigonometricOperatorFiles(name: string)
    ensures TrigonometricOperator(name).Some? ==> Files(TrigonometricOperator(name).value, name) && name in TrigonometricNames
  {
  }

  lemma LogarithmicOperatorFiles(name: string)
    ensures LogarithmicOperator(name).Some? ==> Files(LogarithmicOperator(name).value, name) && name in LogarithmicNames
  {
  }

  lemma StackOperationFiles(name: string)
    ensures StackOperation(name).Some? ==> Files(StackOperation(name).value, name) && name in StackNames
  {
  }

  lemma MiscellaneousFunctionFiles(name: string)
    ensures MiscellaneousFunction(name).Some? ==> Files(MiscellaneousFunction(name).value, name) && name in MiscellaneousFunctionNames
  {
  }

  lemma MiscellaneousCommandFiles(name: string)
    ensures MiscellaneousCommand(name).Some? ==> Files(MiscellaneousCommand(name).value, name) && name in MiscellaneousCommandNames
  {
  }

  /** Whatever the register functions file under a name is filed under that
      name, declares the operands its body pops, and belongs to the names
      listed above. */
  lemma RegisteredOperatorFiles(name: string)
    ensures RegisteredOperator(name).Some? ==> Files(RegisteredOperator(name).value, name) && name in OperatorNames
  {
    ArithmeticOperatorFiles(name);
    TrigonometricOperatorFiles(name);
    LogarithmicOperatorFiles(name);
    StackOperationFiles(name);
    MiscellaneousFunctionFiles(name);
    MiscellaneousCommandFiles(name);
  }

  /** The table holds exactly what the register functions file. */
  ghost predicate IsInitialRegistry(table: Table) {
    forall name {:trigger GetOperator(table, name)} :: GetOperator(table, name) == RegisteredOperator(name)
  }

  /** `initializeOperators`: the registry as the singleton's constructor leaves it. */
  method InitializeOperators() returns (table: Table)
    ensures IsInitialRegistry(table)
    ensures WellFormed(table)
  {
    table := map name | name in OperatorNames && RegisteredOperator(name).Some? :: RegisteredOperator(name).value;
    forall name ensures GetOperator(table, name) == RegisteredOperator(name) {
      RegisteredOperatorFiles(name);
    }
    InitialRegistryWellFormed(table);
  }

  /** Every operator registered at start-up is filed under its own name and
      declares the number of operands its body pops. */
  lemma InitialRegistryWellFormed(table: Table)
    requires IsInitialRegistry(table)
    ensures WellFormed(table)
  {
    forall k | k in table
      ensures table[k].name == k && TypeArity(table[k].kind) == Arity(table[k].body)
    {
      assert GetOperator(table, k) == RegisteredOperator(k);
      RegisteredOperatorFiles(k);
    }
  }

  /** The start-up table holds, under any name, what the register functions
      file under it. */
  lemma InitialLookup(table: Table, name: string)
    requires IsInitialRegistry(table)
    ensures GetOperator(table, name) == RegisteredOperator(name)
  {
  }

  /** `r` and `swap` name one operation. */
  lemma SwapAliases(table: Table)
    requires IsInitialRegistry(table)
    ensures GetOperator(table, "r").Some? && GetOperator(table, "swap").Some?
    ensures GetOperator(table, "r").value.body == GetOperator(table, "swap").value.body == NullaryBody(Swap)
  {
    InitialLookup(table, "r");
    InitialLookup(table, "swap");
    ReverseIsSwap();
    SwapIsSwap();
  }

  lemma ReverseIsSwap()
    ensures RegisteredOperator("r").Some? && RegisteredOperator("r").value.body == NullaryBody(Swap)
  {
  }

  lemma SwapIsSwap()
    ensures RegisteredOperator("swap").Some? && RegisteredOperator("swap").value.body == NullaryBody(Swap)
  {
  }

  /** `help` and `?` name one operation. */
  lemma HelpAliases(table: Table)
    requires IsInitialRegistry(table)
    ensures GetOperator(table, "help").Some? && GetOperator(table, "?").Some?
    ensures GetOperator(table, "help").value.body == GetOperator(table, "?").value.body == NullaryBody(Help)
  {
    InitialLookup(table, "help");
    InitialLookup(table, "?");
    HelpIsHelp();
    QuestionMarkIsHelp();
  }

  lemma HelpIsHelp()
    ensures RegisteredOperator("help").Some? && RegisteredOperator("help").value.body == NullaryBody(Help)
  {
  }

  lemma QuestionMarkIsHelp()
    ensures RegisteredOperator("?").Some? && RegisteredOperator("?").value.body == NullaryBody(Help)
  {
  }

  /** The special commands `sto`, `rcl` and `scale` are not operators. */
  lemma SpecialCommandsAreNotOperators(table: Table, command: string)
    requires IsInitialRegistry(table)
    requires command in {"sto", "rcl", "scale"}
    ensures !HasOperator(table, command)
  {
    InitialLookup(table, command);
    if command == "sto" {
      StoIsNotFiled();
    } else if command == "rcl" {
      RclIsNotFiled();
    } else {
      ScaleIsNotFiled();
    }
  }

  lemma StoIsNotFiled()
    ensures RegisteredOperator("sto").None?
  {
  }

  lemma RclIsNotFiled()
    ensures RegisteredOperator("rcl").None?
  {
  }

  lemma ScaleIsNotFiled()
    ensures RegisteredOperator("scale").None?
  {
  }

  lemma ConstantEIsFiled()
    ensures RegisteredOperator("e").Some? && RegisteredOperator("e").value.body == NullaryBody(PushE)
  {
  }

  /** Names that look like operators but are not filed: a number with an
      exponent mark or with `sto` attached. */
  lemma OneEPlusIsNotFiled()
    ensures RegisteredOperator("1e+").None?
  {
  }

  lemma EPlusIsNotFiled()
    ensures RegisteredOperator("e+").None?
  {
  }

  lemma OneEIsNotFiled()
    ensures RegisteredOperator("1e").None?
  {
  }

  lemma FiveStoIsNotFiled()
    ensures RegisteredOperator("5sto").None?
  {
  }

  // ---------------------------------------------------------------------------
  // The order of `std::map` keys
  // ---------------------------------------------------------------------------

  /** The order `std::string` compares in: character by character, a proper
      prefix first. */
  predicate StringLess(a: string, b: string)
    decreases |a|
  {
    |b| > 0 && (|a| == 0 || a[0] < b[0] || (a[0] == b[0] && StringLess(a[1..], b[1..])))
  }

  lemma {:induction false} StringLessIrreflexive(a: string)
    ensures !StringLess(a, a)
    decreases |a|
  {
    if |a| > 0 {
      StringLessIrreflexive(a[1..]);
    }
  }

  lemma {:induction false} StringLessTransitive(a: string, b: string, c: string)
    requires StringLess(a, b) && StringLess(b, c)
    ensures StringLess(a, c)
    decreases |a|
  {
    if |a| > 0 && a[0] == b[0] && b[0] == c[0] {
      StringLessTransitive(a[1..], b[1..], c[1..]);
    }
  }

  lemma {:induction false} StringLessTotal(a: string, b: string)
    ensures a == b || StringLess(a, b) || StringLess(b, a)
    decreases |a|
  {
    if |a| > 0 && |b| > 0 && a[0] == b[0] {
      StringLessTotal(a[1..], b[1..]);
      if a[1..] == b[1..] {
        assert a == [a[0]] + a[1..] && b == [b[0]] + b[1..];
      }
    }
  }

  /** Strictly increasing, hence without repetitions. */
  predicate Ascending(names: seq<string>) {
    forall i, j | 0 <= i < j < |names| :: StringLess(names[i], names[j])
  }

  /** Inserting a new name into an ascending listing at its place. */
  function {:induction false} InsertName(names: seq<string>, x: string): (r: seq<string>)
    requires Ascending(names) && x !in names
    ensures Ascending(r)
    ensures |r| == |names| + 1
    ensures forall n :: n in r <==> n in names || n == x
  {
    if |names| == 0 then [x]
    else if StringLess(x, names[0]) then
      forall j | 0 <= j < |names| ensures StringLess(x, names[j]) {
        if j > 0 {
          StringLessTransitive(x, names[0], names[j]);
        }
      }
      [x] + names
    else
      StringLessTotal(x, names[0]);
      var tail := InsertName(names[1..], x);
      forall n | n in tail ensures StringLess(names[0], n) {
        if n != x {
          var j :| 0 <= j < |names[1..]| && names[1..][j] == n;
          assert names[j + 1] == n;
        }
      }
      [names[0]] + tail
  }

  /** `getAllNames`: the names of a `std::map` come out in key order. */
  method GetAllNames(table: Table) returns (names: seq<string>)
    ensures Ascending(names)
    ensures forall n :: n in names <==> n in table
    ensures |names| == |table|
  {
    names := [];
    var remaining := table.Keys;
    while remaining != {}
      invariant remaining <= table.Keys
      invariant Ascending(names)
      invariant forall n :: n in names <==> n in table && n !in remaining
      invariant |names| + |remaining| == |table.Keys|
      decreases |remaining|
    {
      var k :| k in remaining;
      names := InsertName(names, k);
      remaining := remaining - {k};
    }
  }

  /** Two ascending listings of the same names are the same listing: the
      order of `getAllNames` is fully determined by the table. */
  lemma {:induction false} AscendingListingIsUnique(a: seq<string>, b: seq<string>)
    requires Ascending(a) && Ascending(b)
    requires forall n :: n in a <==> n in b
    ensures a == b
    decreases |a|
  {
    if |a| > 0 && |b| > 0 {
      SameFirstName(a, b);
      forall n | n in a[1..] ensures n in b[1..] {
        TailMember(a, b, n);
      }
      forall n | n in b[1..] ensures n in a[1..] {
        TailMember(b, a, n);
      }
      AscendingListingIsUnique(a[1..], b[1..]);
      assert a == [a[0]] + a[1..] && b == [b[0]] + b[1..];
    } else if |a| > 0 {
      ListedName(a, 0);
      assert false;
    } else if |b| > 0 {
      ListedName(b, 0);
      assert false;
    }
  }

  lemma ListedName(names: seq<string>, i: nat)
    requires i < |names|
    ensures names[i] in names
  {
  }

  /** Two non-empty ascending listings of the same names start with the same name. */
  lemma SameFirstName(a: seq<string>, b: seq<string>)
    requires Ascending(a) && Ascending(b) && |a| > 0 && |b| > 0
    requires forall m :: m in a <==> m in b
    ensures a[0] == b[0]
  {
    assert a[0] in a && b[0] in b;
    var j :| 0 <= j < |b| && b[j] == a[0];
    var i :| 0 <= i < |a| && a[i] == b[0];
    if i > 0 && j > 0 {
      StringLessTransitive(a[0], b[0], a[0]);
      StringLessIrreflexive(a[0]);
      assert false;
    }
  }

  /** With the same first name, a name after it in one ascending listing comes
      after it in the other. */
  lemma TailMember(a: seq<string>, b: seq<string>, n: string)
    requires Ascending(a) && Ascending(b) && |a| > 0 && |b| > 0 && a[0] == b[0]
    requires forall m :: m in a <==> m in b
    requires n in a[1..]
    ensures n in b[1..]
  {
    var i :| 0 <= i < |a[1..]| && a[1..][i] == n;
    assert a[i + 1] == n && StringLess(a[0], n);
    StringLessIrreflexive(n);
    assert n in b;
    var k :| 0 <= k < |b| && b[k] == n;
    assert k != 0;
    assert b[1..][k - 1] == n;
  }
}

=== FILE: rounding.dfy ===
/** The rounding functions of `<cmath>` the calculator exposes as operators
    (`floor`, `ceil`, `round`, `trunc`) and `std::fmod`, computed exactly on
    real numbers. */
module Rounding {
  import opened Basics

  /** `std::floor`: the greatest whole number not above `x`. */
  function FloorR(x: real): (r: real)
    ensures IsWhole(r)
    ensures r <= x < r + 1.0
  {
    x.Floor as real
  }

  /** `std::ceil`: the least whole number not below `x`. */
  function CeilR(x: real): (r: real)
    ensures IsWhole(r)
    ensures r - 1.0 < x <= r
  {
    if IsWhole(x) then x else (x.Floor + 1) as real
  }

  /** `std::round`: the nearest whole number, halfway cases away from zero. */
  function RoundR(x: real): (r: real)
    ensures IsWhole(r)
    ensures -0.5 <= x - r <= 0.5
    ensures x - r == 0.5 ==> x < 0.0
    ensures x - r == -0.5 ==> x > 0.0
  {
    if x >= 0.0 then (x + 0.5).Floor as real else (-((-x + 0.5).Floor)) as real
  }

  /** `std::trunc`: the whole number obtained by dropping the fractional part. */
  function TruncR(x: real): (r: real)
    ensures IsWhole(r)
    ensures 0.0 <= x ==> 0.0 <= r <= x < r + 1.0
    ensures x < 0.0 ==> r - 1.0 < x <= r <= 0.0
  {
    Trunc(x) as real
  }

  /** `std::fmod(y, x)`: the remainder of `y / x` with the quotient truncated
      toward zero; it takes the sign of `y` and is smaller than `x` in size. */
  function Fmod(y: real, x: real): (r: real)
    requires x != 0.0
  {
    y - x * TruncR(y / x)
  }

  /** Floor and ceiling are mirror images of each other. */
  lemma CeilIsNegatedFloor(x: real)
    ensures CeilR(x) == -FloorR(-x)
  {
    var n := x.Floor;
    if IsWhole(x) {
      assert -x == (-n) as real;
      assert (-x).Floor == -n;
    } else {
      assert n as real < x < (n + 1) as real;
      assert (-n - 1) as real < -x < (-n) as real;
      assert (-x).Floor == -n - 1;
    }
  }

  /** Every rounding function leaves a whole number where it is. */
  lemma RoundingFixesWholeNumbers(x: real)
    requires IsWhole(x)
    ensures FloorR(x) == x && CeilR(x) == x && RoundR(x) == x && TruncR(x) == x
  {
    var n := x.Floor;
    assert x == n as real;
    if x >= 0.0 {
      assert n as real <= x + 0.5 < (n + 1) as real;
      assert (x + 0.5).Floor == n;
    } else {
      assert -x == (-n) as real;
      assert (-x).Floor == -n;
      assert (-n) as real <= -x + 0.5 < (-n + 1) as real;
      assert (-x + 0.5).Floor == -n;
    }
  }

  /** The remainder differs from the dividend by a whole multiple of the divisor. */
  lemma FmodLeavesWholeQuotient(y: real, x: real)
    requires x != 0.0
    ensures IsWhole((y - Fmod(y, x)) / x)
  {
    var t := TruncR(y / x);
    assert y - Fmod(y, x) == x * t;
    assert (x * t) / x == t;
  }

  /** The remainder is the divisor times the fractional part of the quotient. */
  lemma FmodIsScaledFraction(y: real, x: real)
    requires x != 0.0
    ensures Fmod(y, x) == x * (y / x - TruncR(y / x))
    ensures -1.0 < y / x - TruncR(y / x) < 1.0
    ensures y / x >= 0.0 ==> y / x - TruncR(y / x) >= 0.0
    ensures y / x <= 0.0 ==> y / x - TruncR(y / x) <= 0.0
  {
    var q := y / x;
    assert y == x * q;
  }

  /** The remainder keeps the sign of the dividend and is smaller than the
      divisor in size. */
  lemma FmodSignAndSize(y: real, x: real)
    requires x != 0.0
    ensures y >= 0.0 ==> 0.0 <= Fmod(y, x)
    ensures y <= 0.0 ==> Fmod(y, x) <= 0.0
    ensures -AbsR(x) < Fmod(y, x) < AbsR(x)
  {
    FmodIsScaledFraction(y, x);
    QuotientSign(y, x);
    SignOfScaledFraction(y, x, y / x, y / x - TruncR(y / x), Fmod(y, x));
  }

  /** The sign argument of `FmodSignAndSize` over plain variables: `r = x * f`
      where `f` is a fraction with the sign of the quotient `q` of `y` by `x`. */
  lemma SignOfScaledFraction(y: real, x: real, q: real, f: real, r: real)
    requires x != 0.0 && r == x * f && -1.0 < f < 1.0
    requires q >= 0.0 ==> f >= 0.0
    requires q <= 0.0 ==> f <= 0.0
    requires x > 0.0 ==> (q >= 0.0 <==> y >= 0.0) && (q <= 0.0 <==> y <= 0.0)
    requires x < 0.0 ==> (q >= 0.0 <==> y <= 0.0) && (q <= 0.0 <==> y >= 0.0)
    ensures y >= 0.0 ==> 0.0 <= r
    ensures y <= 0.0 ==> r <= 0.0
    ensures -AbsR(x) < r < AbsR(x)
  {
    if x > 0.0 {
      ProductBelow(x, f, r);
    } else {
      ProductBelowNegative(x, f, r);
    }
  }

  /** The quotient is non-negative exactly when dividend and divisor agree in sign. */
  lemma QuotientSign(y: real, x: real)
    requires x != 0.0
    ensures x > 0.0 ==> (y / x >= 0.0 <==> y >= 0.0) && (y / x <= 0.0 <==> y <= 0.0)
    ensures x < 0.0 ==> (y / x >= 0.0 <==> y <= 0.0) && (y / x <= 0.0 <==> y >= 0.0)
  {
    assert y == x * (y / x);
  }

  /** A positive number scaled by a factor strictly between -1 and 1 stays
      strictly smaller in size, with the factor's sign. */
  lemma ProductBelow(a: real, f: real, r: real)
    requires 0.0 < a && -1.0 < f < 1.0 && r == a * f
    ensures -a < r < a
    ensures f >= 0.0 ==> r >= 0.0
    ensures f <= 0.0 ==> r <= 0.0
  {
  }

  /** The same for a negative number: the sign of the factor is reversed. */
  lemma ProductBelowNegative(a: real, f: real, r: real)
    requires a < 0.0 && -1.0 < f < 1.0 && r == a * f
    ensures a < r < -a
    ensures f >= 0.0 ==> r <= 0.0
    ensures f <= 0.0 ==> r >= 0.0
  {
    ProductBelow(-a, -f, r);
  }

  function AbsR(x: real): real {
    if x < 0.0 then -x else x
  }
}

=== FILE: tokenizer.dfy ===
/** How `processLine` cuts an input line: into statements at each `;`
    (empty statements are skipped), and each statement into tokens at white
    space, as `std::istringstream >> std::string` does. */
module Tokenizer {
  import opened Basics

  /** The character classes that cut text into fields: `;` between
      statements, white space between tokens, and either one. */
  datatype Separators = StatementBreaks | WhiteSpace | TokenBreaks

  predicate IsSeparator(sep: Separators, c: char) {
    match sep
    case StatementBreaks => c == ';'
    case WhiteSpace => IsSpace(c)
    case TokenBreaks => c == ';' || IsSpace(c)
  }

  /** The string holds no separator. */
  predicate IsRun(s: string, sep: Separators) {
    forall k | 0 <= k < |s| :: !IsSeparator(sep, s[k])
  }

  /** The field collected so far, if it is not empty. */
  function Flush(current: string): seq<string> {
    if current == [] then [] else [current]
  }

  /** Reading `s` character by character with `current` already collected:
      a separator hands on the collected field, if any; any other character
      joins it; the end of the text hands on what is left. */
  function FieldsFrom(s: string, sep: Separators, current: string): seq<string>
    decreases |s|
  {
    if |s| == 0 then Flush(current)
    else if IsSeparator(sep, s[0]) then Flush(current) + FieldsFrom(s[1..], sep, [])
    else FieldsFrom(s[1..], sep, current + [s[0]])
  }

  /** The maximal non-empty runs of non-separator characters, in order. */
  function Fields(s: string, sep: Separators): seq<string> {
    FieldsFrom(s, sep, [])
  }

  /** Every field is non-empty and holds no separator. */
  lemma {:induction false} FieldsAreRuns(s: string, sep: Separators, current: string)
    requires IsRun(current, sep)
    ensures forall f | f in FieldsFrom(s, sep, current) :: f != [] && IsRun(f, sep)
    decreases |s|
  {
    if |s| > 0 {
      if IsSeparator(sep, s[0]) {
        FieldsAreRuns(s[1..], sep, []);
      } else {
        FieldsAreRuns(s[1..], sep, current + [s[0]]);
      }
    }
  }

  /** A run without separators joins the field being collected. */
  lemma {:induction false} FieldsOfRun(s: string, sep: Separators, current: string)
    requires IsRun(s, sep)
    ensures FieldsFrom(s, sep, current) == Flush(current + s)
    decreases |s|
  {
    if |s| == 0 {
      assert current + s == current;
    } else {
      assert (current + [s[0]]) + s[1..] == current + s;
      FieldsOfRun(s[1..], sep, current + [s[0]]);
    }
  }

  /** A separator cuts the text into two parts whose fields follow each other. */
  lemma {:induction false} FieldsSplit(x: string, c: char, y: string, sep: Separators, current: string)
    requires IsSeparator(sep, c)
    ensures FieldsFrom(x + [c] + y, sep, current) == FieldsFrom(x, sep, current) + FieldsFrom(y, sep, [])
    decreases |x|
  {
    var s := x + [c] + y;
    if |x| == 0 {
      assert s[0] == c && s[1..] == y;
    } else {
      assert s[0] == x[0] && s[1..] == x[1..] + [c] + y;
      if IsSeparator(sep, x[0]) {
        FieldsSplit(x[1..], c, y, sep, []);
      } else {
        FieldsSplit(x[1..], c, y, sep, current + [x[0]]);
      }
    }
  }

  /** Fields depend only on which of the text's characters are separators. */
  lemma {:induction false} FieldsAgree(s: string, p: Separators, q: Separators, current: string)
    requires forall k | 0 <= k < |s| :: IsSeparator(p, s[k]) == IsSeparator(q, s[k])
    ensures FieldsFrom(s, p, current) == FieldsFrom(s, q, current)
    decreases |s|
  {
    if |s| > 0 {
      assert forall k | 0 <= k < |s| - 1 :: s[1..][k] == s[k + 1];
      if IsSeparator(p, s[0]) {
        FieldsAgree(s[1..], p, q, []);
      } else {
        FieldsAgree(s[1..], p, q, current + [s[0]]);
      }
    }
  }

  /** The fields written out with one separator between neighbours. */
  function Join(fs: seq<string>, c: char): string {
    if |fs| == 0 then []
    else if |fs| == 1 then fs[0]
    else fs[0] + [c] + Join(fs[1..], c)
  }

  /** Joining non-empty, separator-free fields with a separator and cutting
      the result again gives the fields back. */
  lemma {:induction false} FieldsOfJoin(fs: seq<string>, c: char, sep: Separators)
    requires IsSeparator(sep, c)
    requires forall f | f in fs :: f != [] && IsRun(f, sep)
    ensures Fields(Join(fs, c), sep) == fs
    decreases |fs|
  {
    if |fs| == 1 {
      assert fs[0] in fs;
      FieldsOfRun(fs[0], sep, []);
      assert [] + fs[0] == fs[0];
    } else if |fs| > 1 {
      assert fs[0] in fs;
      FieldsSplit(fs[0], c, Join(fs[1..], c), sep, []);
      FieldsOfRun(fs[0], sep, []);
      assert [] + fs[0] == fs[0];
      assert forall f | f in fs[1..] :: f in fs;
      FieldsOfJoin(fs[1..], c, sep);
    }
  }

  // ---------------------------------------------------------------------------
  // Statements and tokens
  // ---------------------------------------------------------------------------

  /** `processStatement`: the tokens `iss >> token` reads from a statement. */
  function Words(statement: string): seq<string> {
    Fields(statement, WhiteSpace)
  }

  /** The tokens of the statements, in order. */
  function WordsOfAll(statements: seq<string>): seq<string>
    decreases |statements|
  {
    if |statements| == 0 then [] else Words(statements[0]) + WordsOfAll(statements[1..])
  }

  lemma {:induction false} WordsOfAllAppend(a: seq<string>, b: seq<string>)
    ensures WordsOfAll(a + b) == WordsOfAll(a) + WordsOfAll(b)
    decreases |a|
  {
    if |a| == 0 {
      assert a + b == b;
    } else {
      assert (a + b)[1..] == a[1..] + b;
      WordsOfAllAppend(a[1..], b);
    }
  }

  /** The loop of `processLine` that collects characters into `current` and
      hands each non-empty statement on at a `;` and at the end. */
  method SplitStatements(line: string) returns (statements: seq<string>)
    ensures statements == Fields(line, StatementBreaks)
  {
    statements := [];
    var current := "";
    var i := 0;
    while i < |line|
      invariant 0 <= i <= |line|
      invariant statements + FieldsFrom(line[i..], StatementBreaks, current) == Fields(line, StatementBreaks)
    {
      var c := line[i];
      assert line[i..][0] == c && line[i..][1..] == line[i + 1..];
      if c == ';' {
        if current != "" {
          statements := statements + [current];
          current := "";
        }
      } else {
        current := current + [c];
      }
      i := i + 1;
    }
    if current != "" {
      statements := statements + [current];
    }
  }

  /** Every token `processLine` passes on, over all statements of the line. */
  function LineTokens(line: string): seq<string> {
    WordsOfAll(Fields(line, StatementBreaks))
  }

  /** A `;` acts exactly like white space: the tokens of a line are the
      maximal runs of characters that are neither. */
  lemma {:induction false} TokensIgnoreStatementBoundaries(line: string)
    ensures LineTokens(line) == Fields(line, TokenBreaks)
    decreases |line|
  {
    if exists i | 0 <= i < |line| :: line[i] == ';' {
      var i := FirstSemicolon(line);
      var head, tail := line[..i], line[i + 1..];
      assert line == head + [';'] + tail;
      FieldsSplit(head, ';', tail, StatementBreaks, []);
      FieldsSplit(head, ';', tail, TokenBreaks, []);
      WordsOfAllAppend(Fields(head, StatementBreaks), Fields(tail, StatementBreaks));
      TokensOfStatement(head);
      TokensIgnoreStatementBoundaries(tail);
    } else {
      TokensOfStatement(line);
    }
  }

  /** The position of the first `;`. */
  function FirstSemicolon(line: string): (i: nat)
    requires exists i | 0 <= i < |line| :: line[i] == ';'
    ensures i < |line| && line[i] == ';'
    ensures forall k | 0 <= k < i :: line[k] != ';'
  {
    if line[0] == ';' then 0
    else
      assert exists i | 0 <= i < |line[1..]| :: line[1..][i] == ';' by {
        var i :| 0 <= i < |line| && line[i] == ';';
        assert line[1..][i - 1] == ';';
      }
      1 + FirstSemicolon(line[1..])
  }

  /** Within one statement the tokens are the runs between white space. */
  lemma TokensOfStatement(statement: string)
    requires IsRun(statement, StatementBreaks)
    ensures LineTokens(statement) == Fields(statement, TokenBreaks)
  {
    FieldsOfRun(statement, StatementBreaks, []);
    assert [] + statement == statement;
    FieldsAgree(statement, WhiteSpace, TokenBreaks, []);
    if statement != [] {
      assert [statement][1..] == [];
      assert WordsOfAll([statement]) == Words(statement) + WordsOfAll([]);
    }
  }

  /** The test that makes a line "empty": nothing but blanks and tabs. */
  predicate IsBlankLine(line: string) {
    forall k | 0 <= k < |line| :: line[k] == ' ' || line[k] == '\t'
  }

  /** A blank line has no tokens, so splitting it would do nothing. */
  lemma BlankLineHasNoTokens(line: string)
    requires IsBlankLine(line)
    ensures LineTokens(line) == []
  {
    TokensIgnoreStatementBoundaries(line);
    FieldsOfBlank(line);
  }

  lemma {:induction false} FieldsOfBlank(line: string)
    requires IsBlankLine(line)
    ensures FieldsFrom(line, TokenBreaks, []) == []
    decreases |line|
  {
    if |line| > 0 {
      assert IsSeparator(TokenBreaks, line[0]);
      FieldsOfBlank(line[1..]);
    }
  }
}

=== FILE: value_stack.dfy ===
/** The calculator's value stack and indexed memory. The stack is a sequence
    whose LAST element is the top; popping or peeking an empty stack yields 0. */
module ValueStack {

  type Stack = seq<real>

  /** `popStack`: the top and the stack without it, or 0 and the empty stack. */
  function Pop(s: Stack): (r: (real, Stack))
    ensures |s| == 0 ==> r == (0.0, [])
    ensures |s| > 0 ==> r.1 + [r.0] == s
  {
    if |s| == 0 then (0.0, []) else (s[|s| - 1], s[..|s| - 1])
  }

  /** `peekStack`: the top, or 0 on an empty stack. */
  function Peek(s: Stack): (r: real)
    ensures |s| == 0 ==> r == 0.0
    ensures |s| > 0 ==> r == s[|s| - 1] && Pop(s).0 == r
  {
    if |s| == 0 then 0.0 else s[|s| - 1]
  }

  /** Popping what was just pushed gives it back and restores the stack. */
  lemma PopAfterPush(s: Stack, v: real)
    ensures Pop(s + [v]) == (v, s)
  {
    assert (s + [v])[..|s|] == s;
  }

  /** The sum of the values, bottom first. */
  function SumOf(s: Stack): real {
    if |s| == 0 then 0.0 else SumOf(s[..|s| - 1]) + s[|s| - 1]
  }

  /** The product of the values, bottom first. */
  function ProductOf(s: Stack): real {
    if |s| == 0 then 1.0 else ProductOf(s[..|s| - 1]) * s[|s| - 1]
  }

  /** Adding values into `total` while popping from the top until the stack is empty. */
  function SumFromTop(s: Stack, total: real): (r: real)
    ensures r == total + SumOf(s)
    decreases |s|
  {
    if |s| == 0 then total else SumFromTop(Pop(s).1, total + Pop(s).0)
  }

  /** Multiplying values into `total` while popping from the top until the stack is empty. */
  function ProductFromTop(s: Stack, total: real): (r: real)
    ensures r == total * ProductOf(s)
    decreases |s|
  {
    if |s| == 0 then total else ProductFromTop(Pop(s).1, total * Pop(s).0)
  }

  // ---------------------------------------------------------------------------
  // Zeros at the bottom of the stack
  // ---------------------------------------------------------------------------

  /** The stack with the run of zeros at its bottom removed. */
  function StripBottomZeros(s: Stack): (r: Stack)
    ensures |r| <= |s| && r == s[|s| - |r|..]
    ensures forall k | 0 <= k < |s| - |r| :: s[k] == 0.0
    ensures r == [] || r[0] != 0.0
  {
    if |s| == 0 || s[0] != 0.0 then s else StripBottomZeros(s[1..])
  }

  /** Removing the bottom zeros twice is the same as once. */
  lemma StripBottomZerosIdempotent(s: Stack)
    ensures StripBottomZeros(StripBottomZeros(s)) == StripBottomZeros(s)
  {
  }

  /** Any stack split into a run of zeros and a part that does not start with
      zero loses exactly that run. */
  lemma {:induction false} StripBottomZerosUnique(z: Stack, rest: Stack)
    requires forall k | 0 <= k < |z| :: z[k] == 0.0
    requires rest == [] || rest[0] != 0.0
    ensures StripBottomZeros(z + rest) == rest
    decreases |z|
  {
    if |z| > 0 {
      assert (z + rest)[1..] == z[1..] + rest;
      StripBottomZerosUnique(z[1..], rest);
    } else {
      assert z + rest == rest;
    }
  }

  /** `n` zeros: what `popStack` yields for `n` missing operands. */
  function Zeros(n: nat): (r: Stack)
    ensures |r| == n && forall k | 0 <= k < n :: r[k] == 0.0
  {
    if n == 0 then [] else Zeros(n - 1) + [0.0]
  }

  /** Zeros put below a stack are removed with its own bottom zeros. */
  lemma {:induction false} StripBottomZerosAfterZeros(z: Stack, s: Stack)
    requires forall k | 0 <= k < |z| :: z[k] == 0.0
    ensures StripBottomZeros(z + s) == StripBottomZeros(s)
    decreases |z|
  {
    if |z| > 0 {
      assert (z + s)[1..] == z[1..] + s;
      StripBottomZerosAfterZeros(z[1..], s);
    } else {
      assert z + s == s;
    }
  }

  /** The first phase of `removeTrailingZeros`: popping every element into a
      vector, so that the old top comes first. */
  method DrainToVector(stack: Stack) returns (temp: seq<real>)
    ensures |temp| == |stack|
    ensures forall k | 0 <= k < |temp| :: temp[k] == stack[|stack| - 1 - k]
  {
    var n := |stack|;
    temp := [];
    var rest := stack;
    while |rest| > 0
      invariant |temp| + |rest| == n
      invariant rest == stack[..|rest|]
      invariant forall k | 0 <= k < |temp| :: temp[k] == stack[n - 1 - k]
      decreases |rest|
    {
      temp := temp + [rest[|rest| - 1]];
      rest := rest[..|rest| - 1];
    }
  }

  /** The second phase: one past the last non-zero entry of the vector, or 0
      when every entry is zero. */
  method LastNonZeroEnd(temp: seq<real>) returns (firstNonZero: nat)
    ensures firstNonZero <= |temp|
    ensures forall k | firstNonZero <= k < |temp| :: temp[k] == 0.0
    ensures firstNonZero > 0 ==> temp[firstNonZero - 1] != 0.0
  {
    firstNonZero := 0;
    var i := |temp|;
    while i > 0
      invariant 0 <= i <= |temp|
      invariant forall k | i <= k < |temp| :: temp[k] == 0.0
      decreases i
    {
      if temp[i - 1] != 0.0 {
        firstNonZero := i;
        return;
      }
      i := i - 1;
    }
  }

  /** The third phase: the first `count` entries of the vector pushed back,
      from the last of them to the first, so that the first ends on top. */
  method Refill(temp: seq<real>, count: nat) returns (result: Stack)
    requires count <= |temp|
    ensures |result| == count
    ensures forall k | 0 <= k < count :: result[k] == temp[count - 1 - k]
  {
    result := [];
    var i := count;
    while i > 0
      invariant 0 <= i <= count
      invariant |result| == count - i
      invariant forall k | 0 <= k < |result| :: result[k] == temp[count - 1 - k]
      decreases i
    {
      result := result + [temp[i - 1]];
      i := i - 1;
    }
  }

  /** `removeTrailingZeros`: the stack is emptied into a vector (old top first),
      the last non-zero entry from the vector's end is located, and the entries
      from there back to the front are pushed again. */
  method RemoveTrailingZeros(stack: Stack) returns (result: Stack)
    ensures result == StripBottomZeros(stack)
  {
    if |stack| == 0 {
      return stack;
    }
    var n := |stack|;
    var temp := DrainToVector(stack);
    var firstNonZero := LastNonZeroEnd(temp);
    result := Refill(temp, firstNonZero);
    assert result == stack[n - firstNonZero..];
    assert forall k | 0 <= k < n - firstNonZero :: stack[k] == temp[n - 1 - k];
    assert result == [] || result[0] == temp[firstNonZero - 1];
    StripBottomZerosUnique(stack[..n - firstNonZero], result);
    assert stack[..n - firstNonZero] + result == stack;
  }

  // ---------------------------------------------------------------------------
  // Indexed memory
  // ---------------------------------------------------------------------------

  /** `storeMemory`: writes one location. */
  function Store(memory: map<int, real>, location: int, value: real): (r: map<int, real>)
    ensures r.Keys == memory.Keys + {location}
  {
    memory[location := value]
  }

  /** `recallMemory`: the stored value, or 0 for a location never written. */
  function Recall(memory: map<int, real>, location: int): (r: real)
    ensures location !in memory ==> r == 0.0
  {
    if location in memory then memory[location] else 0.0
  }

  /** A store is seen by a recall of the same location and by no other. */
  lemma RecallAfterStore(memory: map<int, real>, location: int, value: real, other: int)
    ensures Recall(Store(memory, location, value), location) == value
    ensures other != location ==> Recall(Store(memory, location, value), other) == Recall(memory, other)
  {
  }
}
